=== FILE: README.md ===
# Transition: overlapping lines, shader pragmas, map events and user accounts in Dafny

This project models five parts of the Transition transit-planning
application and proves properties of each.

- **Overlapping-line separation** (`overlapping_lines.dfy`, `overlapping_zoom.dfy`).
  The map's transit paths are post-processed so that lines sharing a segment
  are drawn side by side:
  - every pair of features is compared;
  - the shared segments are grouped with the ids of the lines crossing them;
  - each crossing line's direction over the segment is classified;
  - an offset copy of the segment is spliced into each line, counting offsets
    separately for each direction;
  - coordinates holding NaN are dropped.

  The zoom handler keeps a copy of the original layer, does nothing at zoom
  14 or less, and otherwise processes only the lines in view. Coordinates are
  pairs of `Number` (a real or NaN), with JavaScript's `===`. turf's
  `lineOverlap` and `lineOffset` are function parameters. Map bounds are a
  predicate on coordinates.
- **Shader pragma expansion** (`shader_pragmas.dfy`). `compile` rewrites
  `#pragma mapbox` directives of a fragment and a vertex shader into
  `#ifdef` blocks and assembles the list of static uniforms. A shader is a
  sequence of text pieces and already-parsed pragmas. The text a pragma
  expands to is a sequence of lines.
- **Map drag handlers of the routing and accessibility-map sections**
  (`map_events.dfy`, `routing_events.dfy`, `accessibility_events.dfy`).
  - Each handler takes the map's dragging field and an event, and returns
    the new field and the events emitted on the event bus.
  - Descriptor tables say which handler each event reaches in each active
    section.
- **Path hover handlers** (`path_layer_events.dfy`). The three hover fields
  and the cursor are the state. Feature-state changes and popup events are
  the output.
- **User accounts** (`user_account.dfy`). The implementation module is not
  part of this model. The assertions of its tests are the contract:
  - confirmation and password reset over a store of rows, with one `Save`
    per database update;
  - the display name;
  - the sanitized projection sent to clients;
  - the validation of attribute updates.

`common.dfy` holds `Option`, `Count` and `Reverse`.

## Model

| member | source | states |
|---|---|---|
| OverlappingLines.CleanCoords | packages/chaire-lib-common/src/services/geodata/ManageOverlappingLines.ts:78-80 | a coordinate is kept iff it was in the line and neither component is NaN; the line never grows |
| OverlappingLines.CleanCoordsAppend | packages/chaire-lib-common/src/services/geodata/ManageOverlappingLines.ts:78-80 | the filter works coordinate by coordinate, so original order is kept: cleaning a concatenation concatenates the cleaned parts |
| OverlappingLines.CleanCoordsUnchangedIff | packages/chaire-lib-common/src/services/geodata/ManageOverlappingLines.ts:78-80 | a line is left exactly as it was iff none of its coordinates holds NaN |
| OverlappingLines.CleanCoordsIdempotent | packages/chaire-lib-common/src/services/geodata/ManageOverlappingLines.ts:78-80 | cleaning a cleaned line changes nothing |
| OverlappingLines.CleanLines | packages/chaire-lib-common/src/services/geodata/ManageOverlappingLines.ts:76-83 | same number of features, in order, with the same ids; each feature's line becomes exactly `CleanCoords` of its original line: its NaN-free coordinates in their original order, repeats included |
| OverlappingLines.CleanLinesIdempotent | packages/chaire-lib-common/src/services/geodata/ManageOverlappingLines.ts:76-83 | cleaning the layer twice is cleaning it once |
| OverlappingLines.GetLineById | packages/chaire-lib-common/src/services/geodata/ManageOverlappingLines.ts:220-235 | the coordinates of the first feature with that id, or an empty line when no feature has it |
| OverlappingLines.GetLineIndexById | packages/chaire-lib-common/src/services/geodata/ManageOverlappingLines.ts:237-245 | -1 iff no feature has the id; otherwise the first index holding it |
| OverlappingLines.GetLineAgreesWithIndex | packages/chaire-lib-common/src/services/geodata/ManageOverlappingLines.ts:220-245 | the two lookups agree: the line found is the one at the index found |
| OverlappingLines.FirstMatchFrom | packages/chaire-lib-common/src/services/geodata/ManageOverlappingLines.ts:135-148 | the first start position whose run of coordinates equals the old segment and fits in the line, or none |
| OverlappingLines.MatchFits | packages/chaire-lib-common/src/services/geodata/ManageOverlappingLines.ts:137-139 | a match never runs past the end of the line |
| OverlappingLines.ReplaceInLine | packages/chaire-lib-common/src/services/geodata/ManageOverlappingLines.ts:135-154 | the length never changes; with no occurrence the line is untouched; otherwise exactly the positions of the first occurrence hold the offset coordinates and every other position is unchanged |
| OverlappingLines.ReplaceCoordinate | packages/chaire-lib-common/src/services/geodata/ManageOverlappingLines.ts:125-159 | fails iff no feature has the id; otherwise names the first feature with the id and its line after the splice |
| OverlappingLines.Write | packages/chaire-lib-common/src/services/geodata/ManageOverlappingLines.ts:157 | only the feature at the index gets new coordinates |
| OverlappingLines.ReplaceCoordinateFrame | packages/chaire-lib-common/src/services/geodata/ManageOverlappingLines.ts:125-159 | for a known id the replacement succeeds, and the layer keeps its features, ids and line lengths |
| OverlappingLines.Insert | packages/chaire-lib-common/src/services/geodata/ManageOverlappingLines.ts:176-177 | adding to an insertion-ordered set: membership grows by exactly the element, no duplicates appear; the old ids keep their positions, and a new element makes the set one longer, so it goes last |
| OverlappingLines.AddSegment | packages/chaire-lib-common/src/services/geodata/ManageOverlappingLines.ts:175-177 | the segment becomes a key, both ids join its set and only its set, and a new key is appended only when the segment was not a key before; the order is `AddSegmentOrder` |
| OverlappingLines.AddSegmentOrder | packages/chaire-lib-common/src/services/geodata/ManageOverlappingLines.ts:175-177 | every entry keeps its position and key, and its set keeps its ids first and in their order; a new key goes at the end with `a` and then `b`, or only `a` when they are equal |
| OverlappingLines.AddSegments | packages/chaire-lib-common/src/services/geodata/ManageOverlappingLines.ts:173-178 | every segment of one pair's overlap gets both ids; no overlap adds nothing |
| OverlappingLines.PairsExactly | packages/chaire-lib-common/src/services/geodata/ManageOverlappingLines.ts:167-168 | the pairs compared are exactly those with i < j < n, so no feature is compared with itself |
| OverlappingLines.FoldPairsIds | packages/chaire-lib-common/src/services/geodata/ManageOverlappingLines.ts:167-180 | folding the pairs adds to a segment's set exactly the ids of the features of the pairs whose overlap produced it |
| OverlappingLines.FindOverlappingLines | packages/chaire-lib-common/src/services/geodata/ManageOverlappingLines.ts:161-182 | keys are distinct and sets duplicate-free; every id recorded is the id of a feature of the layer; segments are non-empty when turf's are |
| OverlappingLines.FindOverlappingLinesIds | packages/chaire-lib-common/src/services/geodata/ManageOverlappingLines.ts:161-182 | an id is in a segment's set iff some pair i < j whose overlap holds the segment has that id at i or j |
| OverlappingLines.FindOverlappingLinesKeys | packages/chaire-lib-common/src/services/geodata/ManageOverlappingLines.ts:161-182 | a segment is a key iff the overlap of some pair i < j holds it |
| OverlappingLines.ClassifyFrom | packages/chaire-lib-common/src/services/geodata/ManageOverlappingLines.ts:197-206 | scanning from a position on, the result is none iff neither end point of the segment occurs there |
| OverlappingLines.Classify | packages/chaire-lib-common/src/services/geodata/ManageOverlappingLines.ts:193-206 | a crossing line gets no direction iff neither the first nor the last point of the segment occurs anywhere in it |
| OverlappingLines.ClassifyFromFirstHit | packages/chaire-lib-common/src/services/geodata/ManageOverlappingLines.ts:197-206 | at the first position holding an end point of the segment, the line is the same direction iff that point is the segment's first point (checked before the last one, so a segment whose ends coincide counts as the same direction) |
| OverlappingLines.Directions | packages/chaire-lib-common/src/services/geodata/ManageOverlappingLines.ts:190-207 | at most one direction per crossing line; one per line iff every line holds an end point, and then the j-th direction is the j-th line's classification (a line that holds neither end point is skipped, so the later directions shift) |
| OverlappingLines.DirectionsSnoc | packages/chaire-lib-common/src/services/geodata/ManageOverlappingLines.ts:192-207 | one more crossing line appends its class when it holds an end point of the segment and nothing otherwise, so the directions are exactly the classes of the lines that hold one, in set order |
| OverlappingLines.SegmentsData | packages/chaire-lib-common/src/services/geodata/ManageOverlappingLines.ts:184-216 | one record per key in map order, carrying the key, its id set as crossing lines, and as directions exactly the classes `Directions` computes for that key and those ids |
| OverlappingLines.OffsetCallsSpec | packages/chaire-lib-common/src/services/geodata/ManageOverlappingLines.ts:89-121 | the j-th call offsets the j-th crossing line by 3 times the number of earlier lines with the same direction, on the segment reversed once per opposite-direction line so far, this one included |
| OverlappingLines.OffsetCallsFromSpec | packages/chaire-lib-common/src/services/geodata/ManageOverlappingLines.ts:92-120 | the loop invariant of the inner loop: both counters count the earlier lines of their class, and the stored segment has been reversed in place once per opposite-direction turn |
| OverlappingLines.OrientedStep | packages/chaire-lib-common/src/services/geodata/ManageOverlappingLines.ts:107-109 | reversing the aliased segment once more is one more flip |
| OverlappingLines.OffsetCallsFrom | packages/chaire-lib-common/src/services/geodata/ManageOverlappingLines.ts:94-120 | one turn per remaining direction, turn k naming crossing line j + k; the first of them is shifted by 3 times the counter of its own direction; the rest of each turn is `OffsetCallsFromSpec` |
| OverlappingLines.OffsetCalls | packages/chaire-lib-common/src/services/geodata/ManageOverlappingLines.ts:89-121 | one turn per direction, turn j naming crossing line j, and the first turn unshifted because both counters start at 0; the other distances and orientations are `OffsetCallsSpec` |
| OverlappingLines.ApplyCalls | packages/chaire-lib-common/src/services/geodata/ManageOverlappingLines.ts:94-120 | succeeds iff every line called is in the layer; the layer keeps its features, ids and line lengths; what each line ends as is `ApplyCallsComposed` |
| OverlappingLines.ApplyCallsWrites | packages/chaire-lib-common/src/services/geodata/ManageOverlappingLines.ts:94-120 | when the turns name distinct lines, all in the layer, the first feature carrying turn j's line ends with exactly turn j's offset copy spliced into its original points |
| OverlappingLines.SpliceCalls | packages/chaire-lib-common/src/services/geodata/ManageOverlappingLines.ts:94-120 | the composed splices of the turns on one line keep its length, and leave it as it was when no turn names it |
| OverlappingLines.SpliceCallsLone | packages/chaire-lib-common/src/services/geodata/ManageOverlappingLines.ts:94-120 | when one turn only names the line, the composition is that turn's single splice |
| OverlappingLines.ApplyCallsComposed | packages/chaire-lib-common/src/services/geodata/ManageOverlappingLines.ts:94-120 | for every line in the layer, however many turns name it, the first feature carrying it ends with the splices of those turns applied in turn order, each into the points the earlier ones left, while turns naming other lines leave it alone |
| OverlappingLines.ApplyOffset | packages/chaire-lib-common/src/services/geodata/ManageOverlappingLines.ts:85-123 | succeeds iff every crossing line that has a direction is in the layer; keeps features, ids and line lengths; what each line ends as is `ApplyOffsetComposed` |
| OverlappingLines.ApplyOffsetWrites | packages/chaire-lib-common/src/services/geodata/ManageOverlappingLines.ts:89-122 | a line that only the turns of segment k name ends, after every segment, with turn j's offset copy spliced into its original points |
| OverlappingLines.Spliced | packages/chaire-lib-common/src/services/geodata/ManageOverlappingLines.ts:89-122 | the splices of all segments' turns on one line keep its length, and leave it as it was when no turn of any segment names it |
| OverlappingLines.ApplyOffsetComposed | packages/chaire-lib-common/src/services/geodata/ManageOverlappingLines.ts:85-123 | for every line in the layer, however many turns of however many segments name it, the first feature carrying it ends with those splices applied segment after segment and turn after turn |
| OverlappingLines.ApplyCallsFrame | packages/chaire-lib-common/src/services/geodata/ManageOverlappingLines.ts:94-120 | a feature no call names is left untouched |
| OverlappingLines.ApplyOffsetFrame | packages/chaire-lib-common/src/services/geodata/ManageOverlappingLines.ts:85-123 | a feature crossing no shared segment is left untouched |
| OverlappingLines.ManageOverlappingLines | packages/chaire-lib-common/src/services/geodata/ManageOverlappingLines.ts:67-74 | the pipeline keeps the number of features and their ids, never lengthens a line, and leaves no NaN coordinate; what each line ends as is `ManageOverlappingLinesComposed` |
| OverlappingLines.ManageOverlappingLinesFrame | packages/chaire-lib-common/src/services/geodata/ManageOverlappingLines.ts:67-74 | a feature sharing no segment with another only loses its NaN coordinates |
| OverlappingLines.NoOverlapOnlyCleans | packages/chaire-lib-common/src/services/geodata/ManageOverlappingLines.ts:67-74 | when no two features overlap, the pipeline is exactly the NaN cleaning |
| OverlappingLines.ManageOverlappingLinesOffsets | packages/chaire-lib-common/src/services/geodata/ManageOverlappingLines.ts:89-120 | a line that only turn j of shared segment k names ends as the NaN-cleaned splice, into its original points, of the segment reversed once per opposite-direction turn up to j, offset by 3 metres per earlier line of the same direction; this is the closed form of `ManageOverlappingLinesComposed` for such a line |
| OverlappingLines.ManageOverlappingLinesComposed | packages/chaire-lib-common/src/services/geodata/ManageOverlappingLines.ts:67-123 | every line, at the first feature carrying its id, ends as the NaN-cleaned result of splicing in, one after the other, the offset copies of every turn of every shared segment that names it |
| OverlappingZoom.InView | packages/chaire-lib-common/src/services/geodata/ManageOverlappingLines.ts:31-41 | never more features than the layer; which are kept is `InViewMembers`, in what order `InViewAppend` |
| OverlappingZoom.InViewMembers | packages/chaire-lib-common/src/services/geodata/ManageOverlappingLines.ts:31-41 | a feature is kept iff it is in the layer and one of its coordinates is in bounds |
| OverlappingZoom.InViewAppend | packages/chaire-lib-common/src/services/geodata/ManageOverlappingLines.ts:34-41 | the filter keeps the original order |
| OverlappingZoom.ManageZoom | packages/chaire-lib-common/src/services/geodata/ManageOverlappingLines.ts:18-50 | the original layer is captured on the first call only; nothing is shown iff zoom is 14 or less; otherwise the shown layer is the pipeline run on the features in view, so one NaN-free feature per feature in view, with its id |
| OverlappingZoom.ManageZoomBelowLimit | packages/chaire-lib-common/src/services/geodata/ManageOverlappingLines.ts:19-25 | at zoom 14 or less the call only captures the original layer |
| OverlappingZoom.ManageZoomHistoryIndependent | packages/chaire-lib-common/src/services/geodata/ManageOverlappingLines.ts:8 | a later call depends only on the captured layer, never on what earlier calls displayed |
| OverlappingZoom.WriteBack | packages/chaire-lib-common/src/services/geodata/ManageOverlappingLines.ts:37 | the features pushed into the view are the original layer's objects, so only they can change: every feature keeps its id, and a feature with no point in view is left exactly as it was |
| OverlappingZoom.ViewIndexCounts | packages/chaire-lib-common/src/services/geodata/ManageOverlappingLines.ts:34-41 | the position of a feature in the in-view collection is the number of in-view features before it |
| OverlappingZoom.WriteBackInView | packages/chaire-lib-common/src/services/geodata/ManageOverlappingLines.ts:31-41 | every feature with a point in view comes out with the coordinates of the processed feature at its position in the in-view collection, that is, the original layer is rewritten in place with the separated lines |
| OverlappingZoom.ManageZoomAsWritten | packages/chaire-lib-common/src/services/geodata/ManageOverlappingLines.ts:18-50 | the shown layer is the corrected one for that call; below the limit only the capture happens, and above it the captured layer comes out rewritten by `WriteBack` with the shown features |
| OverlappingZoom.ManageZoomAsWrittenKeepsStaleOffset | packages/chaire-lib-common/src/services/geodata/ManageOverlappingLines.ts:8-37 | two branching lines: after a first call shows both, a second call showing only one keeps the offset of the first call, unlike a direct call |
| ShaderPragmas.LinesAppend | packages/transition-frontend/src/config/shaders.js:674-686 | expansions join line by line |
| ShaderPragmas.FragmentLines | packages/transition-frontend/src/config/shaders.js:673-687 | `define` opens with the `#ifndef HAS_UNIFORM_u_` test and declares the varying and the uniform; any other operation opens with `#ifdef` and declares a local from the uniform; both end with `#endif` |
| ShaderPragmas.ExpandFragment | packages/transition-frontend/src/config/shaders.js:671-688 | text outside pragmas is left unchanged |
| ShaderPragmas.ExpandFragmentAppend | packages/transition-frontend/src/config/shaders.js:671-688 | each pragma is replaced where it stands |
| ShaderPragmas.SingleFragmentPragma | packages/transition-frontend/src/config/shaders.js:671-688 | a fragment source of one directive expands to exactly that directive's block; with `ExpandFragmentAppend` this fixes the whole expansion |
| ShaderPragmas.FragmentNames | packages/transition-frontend/src/config/shaders.js:669-672 | a name is recorded iff some fragment pragma, of either operation, carries it |
| ShaderPragmas.AttrType | packages/transition-frontend/src/config/shaders.js:691 | `vec2` iff the type is `float`, otherwise `vec4` |
| ShaderPragmas.UnpackType | packages/transition-frontend/src/config/shaders.js:692 | `color` iff the name contains `color`, otherwise the attribute type |
| ShaderPragmas.AttributeValue | packages/transition-frontend/src/config/shaders.js:706-752 | a `vec4` unpack type copies `a_<name>`; any other calls `unpack_mix_<unpack>(a_<name>, u_<name>_t)` |
| ShaderPragmas.VertexLines | packages/transition-frontend/src/config/shaders.js:694-755 | every vertex expansion opens with `#ifndef HAS_UNIFORM_u_<name>` and ends with `#endif` |
| ShaderPragmas.VertexDefineDeclarations | packages/transition-frontend/src/config/shaders.js:695-734 | a vertex `define` always declares `u_<name>_t` and the attribute of the attribute type, and declares the varying iff the name is shared with the fragment |
| ShaderPragmas.VertexInitializeAssignment | packages/transition-frontend/src/config/shaders.js:705-753 | a vertex `initialize` assigns the attribute value to the existing varying when the name is shared, and declares a local with precision and type otherwise |
| ShaderPragmas.VertexElseBranchShared | packages/transition-frontend/src/config/shaders.js:701-743 | the uniform branch does not depend on sharing, and for `define` it is the fragment's |
| ShaderPragmas.ExpandVertex | packages/transition-frontend/src/config/shaders.js:690-756 | text outside pragmas is left unchanged; one pragma becomes its block (`SinglePragma`), and a concatenation expands part by part (`ExpandVertexAppend`) |
| ShaderPragmas.ExpandVertexAppend | packages/transition-frontend/src/config/shaders.js:690-756 | each pragma is replaced where it stands |
| ShaderPragmas.SinglePragma | packages/transition-frontend/src/config/shaders.js:690-756 | a vertex source of one directive expands to exactly that directive's block, shared with the fragment shader iff the fragment names hold its name; with `ExpandVertexAppend` this fixes the whole expansion |
| ShaderPragmas.ExpandVertexNames | packages/transition-frontend/src/config/shaders.js:694 | vertex output depends on the fragment names only through membership of the vertex pragmas' names |
| ShaderPragmas.Concat | packages/transition-frontend/src/config/shaders.js:654-666 | `concat` of a missing match list appends one null element |
| ShaderPragmas.ConcatDeclared | packages/transition-frontend/src/config/shaders.js:654-666 | the declarations of a concatenation are those of its parts in order |
| ShaderPragmas.DeclaredLift | packages/transition-frontend/src/config/shaders.js:649-652 | a match list read as uniforms declares its matches in order |
| ShaderPragmas.ShaderUniforms | packages/transition-frontend/src/config/shaders.js:654 | missing iff neither shader declares a uniform; otherwise vertex uniforms then fragment uniforms |
| ShaderPragmas.Prepend | packages/transition-frontend/src/config/shaders.js:656-663 | a prelude's uniforms go first, and only when the shader is not the global prelude |
| ShaderPragmas.StaticUniforms | packages/transition-frontend/src/config/shaders.js:654-667 | missing iff both shaders and both active preludes have none; otherwise fog, terrain, vertex, fragment then common uniforms |
| ShaderPragmas.Compile | packages/transition-frontend/src/config/shaders.js:644-759 | fragment expanded on its own; vertex expanded against the complete set of fragment names; static attributes as collected, and static uniforms as `StaticUniforms` assembles them from the collected lists and the preludes |
| ShaderPragmas.CompileVertexDependsOnNames | packages/transition-frontend/src/config/shaders.js:669-694 | fragments with the same pragma names give the same vertex output |
| ShaderPragmas.CompileNamesOrderFree | packages/transition-frontend/src/config/shaders.js:669-694 | all fragment names are recorded before the vertex rewrite, so the order of fragment pragmas does not matter to the vertex |
| ShaderPragmas.CompileAsWritten | packages/transition-frontend/src/config/shaders.js:669-694 | with a plain object as the name set, `Object.prototype` names count as shared |
| ShaderPragmas.CompileAsWrittenAgrees | packages/transition-frontend/src/config/shaders.js:669-694 | the two agree whenever no vertex pragma uses a prototype name |
| ShaderPragmas.CompileAsWrittenSharesPrototypeName | packages/transition-frontend/src/config/shaders.js:669-694 | a vertex `define` of `toString` with no fragment pragma declares a varying as written and none when corrected |
| MapEvents.Handlers | packages/transition-frontend/src/services/map/events/RoutingSectionMapEvents.ts:78-90 | a handler is reached iff a descriptor registers it for this event and target and its condition holds |
| MapEvents.HandlersSingle | packages/transition-frontend/src/services/map/events/AccessibilityMapSectionMapEvents.ts:51-62 | one applying registration reaches exactly its handler |
| RoutingEvents.OnClick | packages/transition-frontend/src/services/map/events/RoutingSectionMapEvents.ts:17-20 | emits `routing.transit.clickedOnMap` with the position; the drag is unchanged |
| RoutingEvents.ContextMenuEntries | packages/transition-frontend/src/services/map/events/RoutingSectionMapEvents.ts:66-75 | two entries: origin emits `clickedOnMap` with true, destination with false |
| RoutingEvents.OnContextMenu | packages/transition-frontend/src/services/map/events/RoutingSectionMapEvents.ts:65-76 | one `map.showContextMenu` at the position whose entries are the origin entry, emitting `clickedOnMap` with `true`, then the destination entry, emitting it with `false` |
| RoutingEvents.OnMouseDown | packages/transition-frontend/src/services/map/events/RoutingSectionMapEvents.ts:22-38 | nothing happens iff there is no feature or the first has no truthy location; otherwise panning is disabled and the drag is the origin iff the location is `origin` |
| RoutingEvents.OnMouseUp | packages/transition-frontend/src/services/map/events/RoutingSectionMapEvents.ts:40-52 | does nothing iff no routing point is dragged; otherwise reports the position to the matching update event, ends the drag, then enables panning |
| RoutingEvents.OnMouseMove | packages/transition-frontend/src/services/map/events/RoutingSectionMapEvents.ts:54-63 | reports the position iff a routing point is dragged, on the matching event; never changes the drag |
| RoutingEvents.DescriptorsGated | packages/transition-frontend/src/services/map/events/RoutingSectionMapEvents.ts:78-90 | no handler outside the `routing` section; in it each event reaches exactly the one handler registered for it |
| RoutingEvents.RunAppend | packages/transition-frontend/src/services/map/events/RoutingSectionMapEvents.ts:22-63 | running two event sequences is running them one after the other on the same map |
| RoutingEvents.MovesWhileDragging | packages/transition-frontend/src/services/map/events/RoutingSectionMapEvents.ts:54-63 | moves during a drag report every position on the dragged point's event and keep the drag |
| RoutingEvents.DragOrigin | packages/transition-frontend/src/services/map/events/RoutingSectionMapEvents.ts:22-63 | down on the origin, n moves, up: disable, n `dragOrigin`, `updateOrigin`, enable, and no drag left |
| RoutingEvents.IdleIgnoresPointer | packages/transition-frontend/src/services/map/events/RoutingSectionMapEvents.ts:40-63 | with no routing point dragged, up and move do nothing |
| AccessibilityEvents.OnClick | packages/transition-frontend/src/services/map/events/AccessibilityMapSectionMapEvents.ts:17-20 | emits `routing.transitAccessibilityMap.clickedOnMap` with the position |
| AccessibilityEvents.OnMouseDown | packages/transition-frontend/src/services/map/events/AccessibilityMapSectionMapEvents.ts:22-31 | nothing happens iff there is no feature; otherwise panning is disabled and the location is dragged |
| AccessibilityEvents.OnMouseUp | packages/transition-frontend/src/services/map/events/AccessibilityMapSectionMapEvents.ts:33-41 | does nothing iff the location is not dragged; otherwise reports the position, ends the drag, enables panning |
| AccessibilityEvents.OnMouseMove | packages/transition-frontend/src/services/map/events/AccessibilityMapSectionMapEvents.ts:43-49 | reports the position iff the location is dragged; never changes the drag |
| AccessibilityEvents.DescriptorsGated | packages/transition-frontend/src/services/map/events/AccessibilityMapSectionMapEvents.ts:15-62 | no handler outside the `accessibilityMap` section; in it each event reaches exactly its handler |
| AccessibilityEvents.MovesWhileDragging | packages/transition-frontend/src/services/map/events/AccessibilityMapSectionMapEvents.ts:43-49 | moves during the drag report every position and keep the drag |
| AccessibilityEvents.RunThenRelease | packages/transition-frontend/src/services/map/events/AccessibilityMapSectionMapEvents.ts:33-41 | a release after any events acts on the drag those events left |
| AccessibilityEvents.DragLocation | packages/transition-frontend/src/services/map/events/AccessibilityMapSectionMapEvents.ts:22-49 | down, n moves, up: one disable, n + 1 `dragLocation` events, one enable, no drag left, from any starting state |
| AccessibilityEvents.SectionsDoNotInterfere | packages/transition-frontend/src/services/map/events/AccessibilityMapSectionMapEvents.ts:35-45 | the two sections share the dragging field, yet neither's up or move reacts to the other's drag |
| PathLayerEvents.Unhover | packages/transition-frontend/src/services/map/events/PathLayerMapEvents.ts:60-66 | the previous path is unhovered (popup removed, then size 2 and not hovered in its recorded source) iff its recorded integer id is truthy |
| PathLayerEvents.OnPathsEnter | packages/transition-frontend/src/services/map/events/PathLayerMapEvents.ts:48-83 | nothing happens iff the zoom is below 12 or there is no feature; otherwise the previous path is unhovered first, the new one gets size 3 and hovered in `transitPaths`, all three fields record it, its popup is added and the cursor is the pointer |
| PathLayerEvents.OnPathsLeave | packages/transition-frontend/src/services/map/events/PathLayerMapEvents.ts:85-101 | always clears the cursor and all three fields, unhovering the recorded path first when its id is truthy |
| PathLayerEvents.OnPointerLayerEnter | packages/transition-frontend/src/services/map/events/PathLayerMapEvents.ts:28-42 | the pointer cursor iff a feature is under the pointer; hover fields untouched |
| PathLayerEvents.OnPointerLayerLeave | packages/transition-frontend/src/services/map/events/PathLayerMapEvents.ts:34-46 | always clears the cursor |
| PathLayerEvents.DescriptorsEverywhere | packages/transition-frontend/src/services/map/events/PathLayerMapEvents.ts:103-130 | without conditions, in every section each event reaches exactly the handler registered for it |
| PathLayerEvents.EnterThenLeave | packages/transition-frontend/src/services/map/events/PathLayerMapEvents.ts:48-101 | leaving a path just entered unhovers that very path iff its id is truthy and leaves nothing recorded |
| PathLayerEvents.NeverUnhoversFalsyId | packages/transition-frontend/src/services/map/events/PathLayerMapEvents.ts:60-90 | over any sequence of events, every reset to not hovered names a truthy id |
| PathLayerEvents.ZeroIdStaysHovered | packages/transition-frontend/src/services/map/events/PathLayerMapEvents.ts:60-90 | a feature with integer id 0 is hovered and is never reset by the leave that follows |
| UserAccount.FindFirst | packages/chaire-lib-backend/src/services/auth/__tests__/user.test.ts:55-60 | the first row holding the token in the searched column, or none iff no row holds it |
| UserAccount.ApplySave | packages/chaire-lib-backend/src/services/auth/__tests__/user.test.ts:300-310 | an update patches the row with the saved id and leaves every other row |
| UserAccount.ConfirmAccount | packages/chaire-lib-backend/src/services/auth/__tests__/user.test.ts:48-92 | `NotFound` with no save iff no row holds the token; otherwise `Confirmed` with exactly one save of that row clearing the token and setting it confirmed |
| UserAccount.ConfirmTwice | packages/chaire-lib-backend/src/services/auth/__tests__/user.test.ts:48-92 | after a confirmation is saved, the same token is no longer found and the row is confirmed |
| UserAccount.ResetPassword | packages/chaire-lib-backend/src/services/auth/__tests__/user.test.ts:289-354 | `NotFound` iff no row holds the token; `Expired` iff its expiry is past; `Confirmed` iff valid without a new password; only `PasswordChanged` saves, with the new hash and the token and expiry cleared |
| UserAccount.ResetTwice | packages/chaire-lib-backend/src/services/auth/__tests__/user.test.ts:289-311 | after a saved password change the token is not found again, and the row holds the new hash |
| UserAccount.ResetWithoutPasswordRepeats | packages/chaire-lib-backend/src/services/auth/__tests__/user.test.ts:337-353 | a valid reset without a password is `Confirmed` with no save, so it can be repeated with the same outcome |
| UserAccount.DisplayName | packages/chaire-lib-backend/src/services/auth/__tests__/user.test.ts:128-186 | empty iff no first or last name and no username other than the email; the names joined by a space when both exist, the one that exists otherwise; with no name, the username whenever it exists and differs from the email |
| UserAccount.SanitizeUserAttributes | packages/chaire-lib-backend/src/services/auth/__tests__/user.test.ts:243-287 | only id, username, names, email, preferences (default an empty object) and permissions; `[['manage','all']]` iff administrator, `[]` otherwise |
| UserAccount.SanitizeOnlyPublic | packages/chaire-lib-backend/src/services/auth/__tests__/user.test.ts:216-286 | rows differing only in password, tokens, uuid or other private columns sanitize alike, and equal outputs come from equal public columns |
| UserAccount.Sanitize | packages/chaire-lib-backend/src/services/auth/__tests__/user.test.ts:188-241 | the sanitized attributes plus the home page computed for the row |
| UserAccount.StringField | packages/chaire-lib-backend/src/services/auth/__tests__/user.test.ts:414-430 | a name is taken only from a string value |
| UserAccount.UpdateAndSanitizeAttributes | packages/chaire-lib-backend/src/services/auth/__tests__/user.test.ts:356-435 | permissions replaced only by an object; `is_admin`, when present, true iff `true` or `"true"`; each name updated on its own and only from a string; no other column changes |
| UserAccount.UnknownKeysIgnored | packages/chaire-lib-backend/src/services/auth/__tests__/user.test.ts:432-435 | an update with only unknown keys leaves the row as it was, and unknown keys added to any update change nothing |
| UserAccount.UpdateIdempotent | packages/chaire-lib-backend/src/services/auth/__tests__/user.test.ts:356-435 | repeating an update changes nothing more |
| UserAccount.AdminIsLastSet | packages/chaire-lib-backend/src/services/auth/__tests__/user.test.ts:388-412 | after any sequence of updates the flag is the one set by the last update carrying `is_admin`, or the original one |
| UserAccount.AdminUpdateCases | packages/chaire-lib-backend/src/services/auth/__tests__/user.test.ts:388-412 | the six updates of the test give false, true, false, true, true, false |
| UserAccount.FieldUpdateCases | packages/chaire-lib-backend/src/services/auth/__tests__/user.test.ts:371-435 | the permission, name and unknown-key updates of the tests give the expected columns |
| UserAccount.DisplayNameCases | packages/chaire-lib-backend/src/services/auth/__tests__/user.test.ts:128-186 | the six expected display names |

## Left out

- Floating-point geometry. turf's `lineOverlap` and `lineOffset` are parameters. They are assumed to return non-empty segments and to keep the number of coordinates. `bounds.contains` is a predicate parameter.
- `JSON.stringify` keys. Segments are keyed by their coordinates, so `NaN` and `null` keys are not distinguished as JSON would.
- Signed zero is not distinguished from zero.
- OverlappingLines.ManageOverlappingLines: requires the two turf assumptions above. The JavaScript has no such precondition. turf's `lineString` throws on a line of fewer than two positions, so with two or more features the source throws when one of them has 0 or 1 point (ManageOverlappingLines.ts:170-171). The model compares such a feature like any other and returns a cleaned layer.
- OverlappingLines.ReplaceInLine: requires the offset line to be as long as the old segment. This is the `lineOffset` assumption. The JavaScript writes whatever `lineOffset` returns.
- OverlappingLines.Directions: requires a non-empty segment, because `coordinates[coordinates.length - 1]` of an empty segment is `undefined` in JavaScript.
- OverlappingZoom.ManageZoom: the layer manager, the `map.updateLayer` event and the deep copy by JSON are left out. The current layer data and the captured layer are explicit values. The copy is not neutral: JSON turns NaN into `null`, which `Number.isNaN` does not catch, so in the zoom path a NaN point of the source data survives cleaning as `null`, while `ManageZoom` drops it.
- OverlappingLines.ApplyCalls: the function's own contract states success and shape only. What each line ends as is the lemma `ApplyCallsComposed`.
- OverlappingLines.ApplyOffset: the function's own contract states success and shape only. What each line ends as is the lemma `ApplyOffsetComposed`, a composition of splices (`Spliced`). The closed form, one splice of the oriented and offset segment, is stated by `ApplyOffsetWrites` and `ManageOverlappingLinesOffsets` only for a line that one turn names. With several turns on a line, each later splice searches the points the earlier ones wrote, and what it finds there depends on `lineOffset`'s output, which is a parameter.
- OverlappingLines.ManageOverlappingLines: the source rewrites `geometry.coordinates` of the features of its argument in place (ManageOverlappingLines.ts:76-83, 85-123, 157) and returns the same object. The model returns the rewritten layer as a new value and the argument is unchanged. Where that sharing is observable, in the zoom handler, `WriteBack` models it.
- OverlappingZoom.InView: the function's contract bounds the length only. The membership iff is stated by the lemma `InViewMembers` instead.
- ShaderPragmas: the regular expressions and the GLSL text of the preludes are left out. Pragmas arrive parsed. The uniform and attribute match lists and the prelude lists are inputs.
- ShaderPragmas.StaticUniforms: states the declared names in order, not the exact positions of the null elements that `concat` of a missing list inserts. `Concat` states those positions.
- MapEvents: the event bus, the dispatcher that evaluates descriptor conditions, `stopPropagation` and canvas styling are left out. The cursor is only "pointer or not".
- RoutingLayerMapEvents.ts is not part of this model. It only toggles the cursor.
- `layers.config.ts` and `IMapEventHandler.ts` are not part of this model. They are declarative configuration and type declarations.
- PathLayerEvents.OnPathsEnter: popup HTML, the `Path` built from the collection manager, and the line name are left out. The path lookup is assumed to succeed. The popup is keyed by the feature's path id.
- UserAccount: the implementation module `user.ts` is not part of this model. The following were chosen where the tests do not decide:
  - the order of the expiry and password checks;
  - strict `<` against the current time;
  - a missing expiry never expires;
  - an empty new password counts as none;
  - empty-string names count as absent;
  - only JSON objects, not arrays or null, are accepted as permissions;
  - a user's `permissions` column is never sent to the client: `serializedPermissions` is `[['manage','all']]` for an administrator and `[]` for anyone else, whatever permissions they hold (the tests only sanitize users without permissions).
- UserAccount: password hashing, `verifyPassword`, the confirmation callback, database queries, `moment` dates and the home-page computation are left out. Time is an integer, the hash function and the home page are parameters, and the store is a sequence of rows.
- OverlappingLines.OffsetCalls: pairs direction `j` with crossing line `j`, as the source does. When a crossing line holds neither end point of its segment, `Directions` skips it, so each later direction is applied to the crossing line before the one it was computed for and the last crossing line is not offset. The model keeps this behaviour and states no corrected pairing.
- The promise wrapping of the asynchronous calls is left out. Every call is sequential.

## Findings

| source | as written | input that shows it | evidently intended | confidence | as-written member | corrected member |
|---|---|---|---|---|---|---|
| packages/chaire-lib-common/src/services/geodata/ManageOverlappingLines.ts:8-41 | the features pushed into the in-view collection are the captured layer's objects, so offsets and cleaning rewrite the captured original in place | lines 1 `[(0,0),(1,0),(2,0)]` and 2 `[(0,0),(1,0),(2,1)]`, turf sharing their first two points: a call at zoom 15 with everything in view, then one with only `(2,1)` in view, shows line 2 still offset by 3; a first call with that view shows it unshifted | the captured layer stays the original, as the comment on line 8 says, so each call offsets unmodified lines | medium, not executed | OverlappingZoom.ManageZoomAsWritten, OverlappingZoom.ManageZoomAsWrittenKeepsStaleOffset | OverlappingZoom.ManageZoom, OverlappingZoom.ManageZoomHistoryIndependent |
| packages/transition-frontend/src/config/shaders.js:669-694 | `fragmentPragmas` is a plain object, so `fragmentPragmas[name]` is truthy for names inherited from `Object.prototype` | a vertex `#pragma mapbox: define highp float toString` with no fragment pragma declares `varying highp float toString;` | a name counts as shared only when a fragment pragma carries it | low, not executed | ShaderPragmas.CompileAsWritten, ShaderPragmas.CompileAsWrittenSharesPrototypeName | ShaderPragmas.Compile, ShaderPragmas.CompileAsWrittenAgrees |

=== FILE: accessibility_events.dfy ===
/** The map event handlers of the `accessibilityMap` section: a click
    places the location of the accessibility map, and its point can be
    dragged. */
module AccessibilityEvents {
  import opened Common
  import opened MapEvents
  import RoutingEvents

  const AccessibilitySection: string := "accessibilityMap"

  /** The value of `_currentDraggingFeature` while the location is dragged. */
  const DraggingLocation: string := "accessibilityMapLocation"

  /** A click on the map proposes its position as the location. */
  function OnClick(dragging: Option<string>, pos: LngLat): (r: Step)
    ensures r.dragging == dragging
    ensures r.emitted == [Emit("routing.transitAccessibilityMap.clickedOnMap", At(pos))]
  {
    Step(dragging, [Emit("routing.transitAccessibilityMap.clickedOnMap", At(pos))])
  }

  /** A mouse down on the `accessibilityMapPoints` layer starts the drag
      when there is a feature under the pointer, whatever it is. */
  function OnMouseDown(dragging: Option<string>, featureCount: Option<nat>): (r: Step)
    ensures featureCount.None? || featureCount == Some(0) <==> r == Step(dragging, [])
    ensures r != Step(dragging, []) ==> r == Step(Some(DraggingLocation), [DisableDragPan])
  {
    if featureCount.None? || featureCount.value == 0 then Step(dragging, [])
    else Step(Some(DraggingLocation), [DisableDragPan])
  }

  /** A mouse up while the location is dragged reports the final position,
      ends the drag and turns panning back on; otherwise nothing happens. */
  function OnMouseUp(dragging: Option<string>, pos: LngLat): (r: Step)
    ensures dragging != Some(DraggingLocation) <==> r == Step(dragging, [])
    ensures dragging == Some(DraggingLocation) ==>
              r == Step(None, [Emit("routing.transitAccessibilityMap.dragLocation", At(pos)), EnableDragPan])
  {
    if dragging == Some(DraggingLocation) then
      Step(None, [Emit("routing.transitAccessibilityMap.dragLocation", At(pos)), EnableDragPan])
    else Step(dragging, [])
  }

  /** A mouse move reports the position while the location is dragged and
      never changes the drag state. */
  function OnMouseMove(dragging: Option<string>, pos: LngLat): (r: Step)
    ensures r.dragging == dragging
    ensures r.emitted == [] <==> dragging != Some(DraggingLocation)
    ensures r.emitted != [] ==> r.emitted == [Emit("routing.transitAccessibilityMap.dragLocation", At(pos))]
  {
    if dragging == Some(DraggingLocation) then
      Step(dragging, [Emit("routing.transitAccessibilityMap.dragLocation", At(pos))])
    else Step(dragging, [])
  }

  // ---------------------------------------------------------------------
  // Registration
  // ---------------------------------------------------------------------

  datatype Handler = ClickHandler | MouseDownHandler | MouseUpHandler | MouseMoveHandler

  /** `accessMapSectionEventDescriptors`. */
  const Descriptors: seq<Descriptor<Handler>> :=
    [Descriptor(MapTarget, "click", Some(AccessibilitySection), ClickHandler),
     Descriptor(LayerTarget("accessibilityMapPoints"), "mousedown", Some(AccessibilitySection), MouseDownHandler),
     Descriptor(MapTarget, "mouseup", Some(AccessibilitySection), MouseUpHandler),
     Descriptor(MapTarget, "mousemove", Some(AccessibilitySection), MouseMoveHandler)]

  /** Every handler applies exactly when the active section is
      `accessibilityMap`, and an event reaches at most the one handler
      registered for it. */
  lemma DescriptorsGated(activeSection: string, target: Target, eventName: string)
    ensures activeSection != AccessibilitySection ==> Handlers(Descriptors, target, eventName, activeSection) == []
    ensures activeSection == AccessibilitySection ==>
              forall k :: 0 <= k < |Descriptors| && RegisteredFor(Descriptors[k], target, eventName) ==>
                Handlers(Descriptors, target, eventName, activeSection) == [Descriptors[k].handler]
    ensures (forall k :: 0 <= k < |Descriptors| ==> !RegisteredFor(Descriptors[k], target, eventName)) ==>
              Handlers(Descriptors, target, eventName, activeSection) == []
  {
    forall k | 0 <= k < |Descriptors| && RegisteredFor(Descriptors[k], target, eventName)
                 && activeSection == AccessibilitySection
      ensures Handlers(Descriptors, target, eventName, activeSection) == [Descriptors[k].handler]
    {
      HandlersSingle(Descriptors, target, eventName, activeSection, k);
    }
    if activeSection != AccessibilitySection
       || forall k :: 0 <= k < |Descriptors| ==> !RegisteredFor(Descriptors[k], target, eventName) {
      HandlersNone(Descriptors, target, eventName, activeSection);
    }
  }

  // ---------------------------------------------------------------------
  // Sequences of events
  // ---------------------------------------------------------------------

  /** A mouse event reaching one of the handlers; a mouse down carries the
      number of features under the pointer (`None` for no feature list). */
  datatype Input =
    | Clicked(pos: LngLat)
    | PressedOn(featureCount: Option<nat>)
    | Released(pos: LngLat)
    | Moved(pos: LngLat)

  function Handle(dragging: Option<string>, input: Input): Step
  {
    match input
    case Clicked(pos) => OnClick(dragging, pos)
    case PressedOn(n) => OnMouseDown(dragging, n)
    case Released(pos) => OnMouseUp(dragging, pos)
    case Moved(pos) => OnMouseMove(dragging, pos)
  }

  /** The handlers called one after the other on the same map. */
  function Run(dragging: Option<string>, inputs: seq<Input>): Step
    decreases |inputs|
  {
    if inputs == [] then Step(dragging, [])
    else
      var first := Handle(dragging, inputs[0]);
      var rest := Run(first.dragging, inputs[1..]);
      Step(rest.dragging, first.emitted + rest.emitted)
  }

  function Moves(ps: seq<LngLat>): (r: seq<Input>)
    ensures |r| == |ps| && forall k :: 0 <= k < |ps| ==> r[k] == Moved(ps[k])
  {
    seq(|ps|, k requires 0 <= k < |ps| => Moved(ps[k]))
  }

  /** A `dragLocation` event per position. */
  function DragEvents(ps: seq<LngLat>): (r: seq<Emitted>)
    ensures |r| == |ps|
    ensures forall k :: 0 <= k < |ps| ==> r[k] == Emit("routing.transitAccessibilityMap.dragLocation", At(ps[k]))
  {
    seq(|ps|, k requires 0 <= k < |ps| => Emit("routing.transitAccessibilityMap.dragLocation", At(ps[k])))
  }

  /** Moves while dragging report each position and keep the drag. */
  lemma {:induction false} MovesWhileDragging(ps: seq<LngLat>)
    ensures Run(Some(DraggingLocation), Moves(ps)) == Step(Some(DraggingLocation), DragEvents(ps))
  {
    if ps != [] {
      assert Moves(ps)[1..] == Moves(ps[1..]);
      MovesWhileDragging(ps[1..]);
      assert DragEvents(ps) == [DragEvents(ps)[0]] + DragEvents(ps[1..]);
    }
  }

  /** Releasing after some inputs is running them and then the release. */
  lemma {:induction false} RunThenRelease(dragging: Option<string>, inputs: seq<Input>, pos: LngLat)
    ensures Run(dragging, inputs + [Released(pos)])
            == var before := Run(dragging, inputs);
               var up := OnMouseUp(before.dragging, pos);
               Step(up.dragging, before.emitted + up.emitted)
    decreases |inputs|
  {
    if inputs == [] {
      assert inputs + [Released(pos)] == [Released(pos)];
    } else {
      assert (inputs + [Released(pos)])[1..] == inputs[1..] + [Released(pos)];
      RunThenRelease(Handle(dragging, inputs[0]).dragging, inputs[1..], pos);
    }
  }

  /** A down on the point, `n` moves and an up: panning is turned off
      once, `n + 1` positions are reported (every move and the release),
      panning is turned back on, and no drag is left, whatever the drag
      state was before. */
  lemma DragLocation(dragging: Option<string>, featureCount: nat, ps: seq<LngLat>, release: LngLat)
    requires featureCount > 0
    ensures var r := Run(dragging, [PressedOn(Some(featureCount))] + Moves(ps) + [Released(release)]);
            && r.dragging == None
            && r.emitted == [DisableDragPan] + DragEvents(ps + [release]) + [EnableDragPan]
  {
    var inputs := [PressedOn(Some(featureCount))] + Moves(ps);
    RunThenRelease(dragging, inputs, release);
    MovesWhileDragging(ps);
    assert inputs[1..] == Moves(ps);
    assert DragEvents(ps + [release]) == DragEvents(ps) + [Emit("routing.transitAccessibilityMap.dragLocation", At(release))];
  }

  // ---------------------------------------------------------------------
  // Two sections, one drag state
  // ---------------------------------------------------------------------

  /** The routing handlers and these handlers keep their drag state in the
      same field of the map. Neither section's mouse up or mouse move reacts
      to the other's drag. */
  lemma SectionsDoNotInterfere(pos: LngLat)
    ensures OnMouseUp(Some(RoutingEvents.DraggingOrigin), pos) == Step(Some(RoutingEvents.DraggingOrigin), [])
    ensures OnMouseUp(Some(RoutingEvents.DraggingDestination), pos) == Step(Some(RoutingEvents.DraggingDestination), [])
    ensures RoutingEvents.OnMouseUp(Some(DraggingLocation), pos) == Step(Some(DraggingLocation), [])
    ensures RoutingEvents.OnMouseMove(Some(DraggingLocation), pos) == Step(Some(DraggingLocation), [])
    ensures OnMouseMove(Some(RoutingEvents.DraggingOrigin), pos).emitted == []
  {
  }
}

=== FILE: common.dfy ===
/** Helpers shared by the models: an optional value (JavaScript's `undefined`
    or `null` versus a value) and two sequence utilities. */
module Common {

  /** A value that may be absent. */
  datatype Option<T> = None | Some(value: T)

  /** Number of elements of `s` equal to `x`. Defined from the back so that
      extending a prefix by one element is a single unfolding. */
  function Count<T(==)>(s: seq<T>, x: T): nat
  {
    if s == [] then 0
    else Count(s[..|s| - 1], x) + (if s[|s| - 1] == x then 1 else 0)
  }

  /** The elements of `s` in the opposite order (JavaScript's
      `slice().reverse()`). */
  function Reverse<T>(s: seq<T>): (r: seq<T>)
    ensures |r| == |s|
    ensures forall i :: 0 <= i < |s| ==> r[i] == s[|s| - 1 - i]
  {
    if s == [] then [] else Reverse(s[1..]) + [s[0]]
  }

  /** Reversing twice gives back the original sequence. */
  lemma ReverseReverse<T>(s: seq<T>)
    ensures Reverse(Reverse(s)) == s
  {
    var r := Reverse(Reverse(s));
    assert |r| == |s|;
    forall i | 0 <= i < |s|
      ensures r[i] == s[i]
    {
    }
  }

  /** Extending a prefix by one element adds one to the count of that
      element and nothing to the count of any other. */
  lemma CountPrefixStep<T>(s: seq<T>, j: nat, x: T)
    requires j < |s|
    ensures Count(s[..j + 1], x) == Count(s[..j], x) + (if s[j] == x then 1 else 0)
  {
    assert s[..j + 1][..j] == s[..j];
  }
}

=== FILE: map_events.dfy ===
/** What the map event handlers of the application have in common: the
    events they emit on the application's event bus, the state they keep on
    the map object, and the descriptors that register them.

    Emitting an event is modelled as appending it to the handler's output;
    the event bus, the map and the dispatcher that consults the descriptors
    are not part of this model. */
module MapEvents {
  import opened Common

  /** A map position, `e.lngLat.toArray()`. */
  datatype LngLat = LngLat(lng: real, lat: real)

  /** The arguments given to `emit` after the event name. */
  datatype Payload =
    | NoPayload
    | At(pos: LngLat)
    | AtWithFlag(pos: LngLat, flag: bool)
    | Menu(pos: LngLat, entries: seq<MenuEntry>)

  /** An entry of a context menu: its title, and the event its `onClick`
      emits. */
  datatype MenuEntry = MenuEntry(title: string, onClick: Emitted)

  /** One call of `serviceLocator.eventManager.emit`. */
  datatype Emitted = Emit(name: string, payload: Payload)

  const DisableDragPan: Emitted := Emit("map.disableDragPan", NoPayload)
  const EnableDragPan: Emitted := Emit("map.enableDragPan", NoPayload)

  /** The result of one handler call: the value of the map's
      `_currentDraggingFeature` afterwards (`None` for `null` or never set)
      and the events emitted, in order. */
  datatype Step = Step(dragging: Option<string>, emitted: seq<Emitted>)

  /** What a descriptor registers on: the whole map, or one layer. */
  datatype Target = MapTarget | LayerTarget(layerName: string)

  /** A `MapEventHandlerDescription`. The condition of every descriptor in
      this application compares the active section with one name, so it is
      kept as that name; `None` is a descriptor without condition. */
  datatype Descriptor<H> = Descriptor(target: Target, eventName: string, section: Option<string>, handler: H)

  /** The condition of a descriptor holds for the active section. */
  predicate Applies<H>(d: Descriptor<H>, activeSection: string)
  {
    d.section.None? || d.section.value == activeSection
  }

  /** The handlers a table registers for an event on a target that apply in
      the active section, in table order. */
  function Handlers<H(!new)>(table: seq<Descriptor<H>>, target: Target, eventName: string, activeSection: string): (r: seq<H>)
    ensures |r| <= |table|
    ensures forall h :: h in r <==>
              exists k :: 0 <= k < |table| && table[k].handler == h && table[k].target == target
                          && table[k].eventName == eventName && Applies(table[k], activeSection)
  {
    if table == [] then []
    else
      var d := table[0];
      var rest := Handlers(table[1..], target, eventName, activeSection);
      assert forall k :: 1 <= k < |table| ==> table[1..][k - 1] == table[k];
      (if d.target == target && d.eventName == eventName && Applies(d, activeSection) then [d.handler] else [])
        + rest
  }

  /** The descriptor is registered for this event on this target. */
  predicate RegisteredFor<H>(d: Descriptor<H>, target: Target, eventName: string)
  {
    d.target == target && d.eventName == eventName
  }

  /** When exactly one descriptor of the table is registered for an event
      and it applies, the event reaches its handler and no other. */
  lemma {:induction false} HandlersSingle<H(!new)>(table: seq<Descriptor<H>>, target: Target, eventName: string,
                                                  activeSection: string, k: nat)
    requires k < |table| && RegisteredFor(table[k], target, eventName) && Applies(table[k], activeSection)
    requires forall j :: 0 <= j < |table| && j != k ==> !RegisteredFor(table[j], target, eventName)
    ensures Handlers(table, target, eventName, activeSection) == [table[k].handler]
    decreases |table|
  {
    assert forall j :: 1 <= j < |table| ==> table[1..][j - 1] == table[j];
    if k == 0 {
      HandlersNone(table[1..], target, eventName, activeSection);
    } else {
      HandlersSingle(table[1..], target, eventName, activeSection, k - 1);
    }
  }

  /** An event no applying descriptor is registered for reaches no handler. */
  lemma HandlersNone<H(!new)>(table: seq<Descriptor<H>>, target: Target, eventName: string, activeSection: string)
    requires forall j :: 0 <= j < |table| ==> !(RegisteredFor(table[j], target, eventName) && Applies(table[j], activeSection))
    ensures Handlers(table, target, eventName, activeSection) == []
  {
  }
}

=== FILE: overlapping_lines.dfy ===
/** The overlapping-line separation pipeline of the transit map: find the
    segments that several line geometries share, work out in which direction
    each line travels over a shared segment, splice a laterally offset copy of
    the segment into each line, and drop the coordinates the offset turned into
    NaN.

    GeoJSON line features are `(id, coordinates)` pairs. The two geometric
    routines of the turf library the pipeline calls, `lineOverlap` and
    `lineOffset`, are parameters: an `Overlapper` and an `Offsetter`. The only
    facts assumed of them are that an overlap segment is never empty (turf
    returns line strings) and that an offset line has as many points as its
    input. */
module OverlappingLines {
  import opened Common

  /** A JavaScript number, as far as this code looks at it: NaN, or an
      ordinary value that only takes part in equality tests. */
  datatype Number = NaN | Num(v: real)

  /** A position `[lng, lat]`. */
  datatype Coord = Coord(lng: Number, lat: Number)

  /** A line feature: its `id` and its geometry's coordinates. */
  datatype Feature = Feature(id: int, coords: seq<Coord>)

  /** The features of a feature collection, in order. */
  type Layer = seq<Feature>

  /** turf's `lineOverlap`: the shared segments of two lines. */
  type Overlapper = (seq<Coord>, seq<Coord>) -> seq<seq<Coord>>

  /** turf's `lineOffset`: a line moved sideways by a distance in metres. */
  type Offsetter = (seq<Coord>, int) -> seq<Coord>

  /** `lineOverlap` only ever returns non-empty segments. */
  ghost predicate SegmentsNonEmpty(ov: Overlapper)
  {
    forall a, b, s :: s in ov(a, b) ==> |s| > 0
  }

  /** `lineOffset` returns as many points as it is given. */
  ghost predicate LengthPreserving(off: Offsetter)
  {
    forall s, d :: |off(s, d)| == |s|
  }

  /** JavaScript `===` on numbers: NaN equals nothing, not even itself. */
  predicate SameNumber(a: Number, b: Number)
  {
    a.Num? && b.Num? && a.v == b.v
  }

  /** Two positions are equal when both components are `===`. */
  predicate SameCoord(a: Coord, b: Coord)
  {
    SameNumber(a.lng, b.lng) && SameNumber(a.lat, b.lat)
  }

  /** Neither component is NaN. */
  predicate IsClean(c: Coord)
  {
    c.lng.Num? && c.lat.Num?
  }

  /** Some feature of the layer carries this id. */
  predicate HasId(layer: Layer, id: int)
  {
    exists k :: 0 <= k < |layer| && layer[k].id == id
  }

  /** Same features, same ids, same number of points each: only coordinate
      values may differ. */
  predicate SameShape(a: Layer, b: Layer)
  {
    && |a| == |b|
    && (forall k :: 0 <= k < |a| ==> a[k].id == b[k].id)
    && (forall k :: 0 <= k < |a| ==> |a[k].coords| == |b[k].coords|)
  }

  // ---------------------------------------------------------------------
  // cleanLines
  // ---------------------------------------------------------------------

  /** The coordinate filter of `cleanLines`: keep the points whose two
      components are both numbers. */
  function CleanCoords(cs: seq<Coord>): (r: seq<Coord>)
    ensures |r| <= |cs|
    ensures forall c :: c in r <==> c in cs && IsClean(c)
  {
    if cs == [] then []
    else (if IsClean(cs[0]) then [cs[0]] else []) + CleanCoords(cs[1..])
  }

  /** The filter works piecewise, so it keeps the surviving points in their
      original order. */
  lemma {:induction false} CleanCoordsAppend(a: seq<Coord>, b: seq<Coord>)
    ensures CleanCoords(a + b) == CleanCoords(a) + CleanCoords(b)
  {
    if a == [] {
      assert a + b == b;
    } else {
      assert (a + b)[1..] == a[1..] + b;
      CleanCoordsAppend(a[1..], b);
    }
  }

  /** The filter changes a line exactly when the line holds a NaN. */
  lemma {:induction false} CleanCoordsUnchangedIff(cs: seq<Coord>)
    ensures CleanCoords(cs) == cs <==> forall i :: 0 <= i < |cs| ==> IsClean(cs[i])
  {
    if forall i :: 0 <= i < |cs| ==> IsClean(cs[i]) {
      if cs != [] {
        assert IsClean(cs[0]);
        assert forall i :: 0 <= i < |cs[1..]| ==> IsClean(cs[1..][i]) by {
          forall i | 0 <= i < |cs[1..]|
            ensures IsClean(cs[1..][i])
          {
            assert cs[1..][i] == cs[i + 1];
          }
        }
        CleanCoordsUnchangedIff(cs[1..]);
      }
    } else {
      var i :| 0 <= i < |cs| && !IsClean(cs[i]);
      assert cs[i] in cs && cs[i] !in CleanCoords(cs);
    }
  }

  /** Cleaning a cleaned line changes nothing. */
  lemma CleanCoordsIdempotent(cs: seq<Coord>)
    ensures CleanCoords(CleanCoords(cs)) == CleanCoords(cs)
  {
    var r := CleanCoords(cs);
    assert forall i :: 0 <= i < |r| ==> IsClean(r[i]) by {
      forall i | 0 <= i < |r|
        ensures IsClean(r[i])
      {
        assert r[i] in r;
      }
    }
    CleanCoordsUnchangedIff(r);
  }

  /** `cleanLines`: every feature keeps its place and id, and keeps exactly
      its non-NaN points. */
  function CleanLines(layer: Layer): (r: Layer)
    ensures |r| == |layer|
    ensures forall k :: 0 <= k < |r| ==> r[k].id == layer[k].id
    ensures forall k :: 0 <= k < |r| ==> |r[k].coords| <= |layer[k].coords|
    ensures forall k, c :: 0 <= k < |r| ==> (c in r[k].coords <==> c in layer[k].coords && IsClean(c))
    ensures forall k :: 0 <= k < |r| ==> r[k].coords == CleanCoords(layer[k].coords)
  {
    seq(|layer|, k requires 0 <= k < |layer| => Feature(layer[k].id, CleanCoords(layer[k].coords)))
  }

  /** Cleaning a cleaned layer changes nothing. */
  lemma CleanLinesIdempotent(layer: Layer)
    ensures CleanLines(CleanLines(layer)) == CleanLines(layer)
  {
    var once := CleanLines(layer);
    var twice := CleanLines(once);
    forall k | 0 <= k < |layer|
      ensures twice[k] == once[k]
    {
      CleanCoordsIdempotent(layer[k].coords);
    }
  }

  // ---------------------------------------------------------------------
  // getLineById / getLineIndexById
  // ---------------------------------------------------------------------

  /** `getLineById`: the coordinates of the first feature with this id, or
      those of the empty fallback feature when there is none. */
  function GetLineById(layer: Layer, lineId: int): (line: seq<Coord>)
    ensures !HasId(layer, lineId) ==> line == []
    ensures forall k :: 0 <= k < |layer| && layer[k].id == lineId && (forall m :: 0 <= m < k ==> layer[m].id != lineId)
                        ==> line == layer[k].coords
  {
    if layer == [] then []
    else if layer[0].id == lineId then layer[0].coords
    else
      var rest := GetLineById(layer[1..], lineId);
      assert forall k :: 1 <= k < |layer| ==> layer[1..][k - 1] == layer[k];
      rest
  }

  /** `getLineIndexById`: the index of the first feature with this id, or -1. */
  function GetLineIndexById(layer: Layer, lineId: int): (r: int)
    ensures -1 <= r < |layer|
    ensures r == -1 <==> !HasId(layer, lineId)
    ensures r >= 0 ==> layer[r].id == lineId && forall m :: 0 <= m < r ==> layer[m].id != lineId
  {
    if layer == [] then -1
    else if layer[0].id == lineId then 0
    else
      var rest := GetLineIndexById(layer[1..], lineId);
      assert forall k :: 1 <= k < |layer| ==> layer[1..][k - 1] == layer[k];
      if rest == -1 then -1 else rest + 1
  }

  /** The two searches agree: the line found by id is the one at the index
      found by id. */
  lemma GetLineAgreesWithIndex(layer: Layer, lineId: int)
    ensures GetLineIndexById(layer, lineId) >= 0 ==>
              GetLineById(layer, lineId) == layer[GetLineIndexById(layer, lineId)].coords
    ensures GetLineIndexById(layer, lineId) == -1 ==> GetLineById(layer, lineId) == []
  {
  }

  // ---------------------------------------------------------------------
  // replaceCoordinate
  // ---------------------------------------------------------------------

  /** The match test of `replaceCoordinate` at start position `i`: every
      point of `run` lies inside `line` and is `===` to the point `i`
      positions further on. */
  predicate Matches(line: seq<Coord>, run: seq<Coord>, i: nat)
  {
    forall k :: 0 <= k < |run| ==> i + k < |line| && SameCoord(line[i + k], run[k])
  }

  /** The first start position, from `i` on, where `run` matches. */
  function FirstMatchFrom(line: seq<Coord>, run: seq<Coord>, i: nat): (r: Option<nat>)
    ensures r.Some? ==> i <= r.value < |line| && Matches(line, run, r.value)
    ensures r.Some? ==> forall j :: i <= j < r.value ==> !Matches(line, run, j)
    ensures r.None? ==> forall j :: i <= j < |line| ==> !Matches(line, run, j)
    decreases |line| - i
  {
    if i >= |line| then None
    else if Matches(line, run, i) then Some(i)
    else FirstMatchFrom(line, run, i + 1)
  }

  /** A match at a position of the line lies wholly inside the line. */
  lemma MatchFits(line: seq<Coord>, run: seq<Coord>, i: nat)
    requires i < |line| && Matches(line, run, i)
    ensures i + |run| <= |line|
  {
    if |run| > 0 {
      var last := |run| - 1;
      assert SameCoord(run[last], run[last]) ==> i + last < |line|;
    }
  }

  /** The loop of `replaceCoordinate` on one line: at the first position
      where `run` occurs, overwrite its points with those of the offset line;
      leave the line alone when `run` does not occur. */
  function ReplaceInLine(line: seq<Coord>, run: seq<Coord>, offset: seq<Coord>): (r: seq<Coord>)
    requires |offset| == |run|
    ensures |r| == |line|
    ensures (forall i :: 0 <= i < |line| ==> !Matches(line, run, i)) ==> r == line
    ensures forall i :: 0 <= i < |line| && Matches(line, run, i) && (forall j :: 0 <= j < i ==> !Matches(line, run, j))
                        ==> forall k :: 0 <= k < |line| ==> r[k] == (if i <= k < i + |run| then offset[k - i] else line[k])
  {
    match FirstMatchFrom(line, run, 0)
    case None => line
    case Some(at) =>
      MatchFits(line, run, at);
      line[..at] + offset + line[at + |run|..]
  }

  /** What `replaceCoordinate` returns: the index of the feature and its new
      coordinates. */
  datatype Replaced = Replaced(index: nat, coords: seq<Coord>)

  /** `replaceCoordinate`. For an id no feature carries, the source indexes
      `features[-1]` and throws; that is `None` here. */
  function ReplaceCoordinate(layer: Layer, run: seq<Coord>, offset: seq<Coord>, lineId: int): (r: Option<Replaced>)
    requires |offset| == |run|
    ensures r.None? <==> !HasId(layer, lineId)
    ensures r.Some? ==> r.value.index < |layer| && layer[r.value.index].id == lineId
    ensures r.Some? ==> forall m :: 0 <= m < r.value.index ==> layer[m].id != lineId
    ensures r.Some? ==> r.value.coords == ReplaceInLine(layer[r.value.index].coords, run, offset)
  {
    var line := GetLineById(layer, lineId);
    var replaced := ReplaceInLine(line, run, offset);
    var lineIndex := GetLineIndexById(layer, lineId);
    if lineIndex == -1 then None else Some(Replaced(lineIndex, replaced))
  }

  /** The assignment `layerData.features[index].geometry.coordinates = coor`. */
  function Write(layer: Layer, rep: Replaced): (r: Layer)
    requires rep.index < |layer|
    ensures |r| == |layer|
    ensures r[rep.index] == Feature(layer[rep.index].id, rep.coords)
    ensures forall k :: 0 <= k < |layer| && k != rep.index ==> r[k] == layer[k]
  {
    layer[rep.index := Feature(layer[rep.index].id, rep.coords)]
  }

  /** Writing back what `replaceCoordinate` returned changes only the points
      of the first run of `run` in the first feature with this id: ids, line
      lengths and every other point stay as they were. */
  lemma ReplaceCoordinateFrame(layer: Layer, run: seq<Coord>, offset: seq<Coord>, lineId: int)
    requires |offset| == |run|
    requires HasId(layer, lineId)
    ensures ReplaceCoordinate(layer, run, offset, lineId).Some?
    ensures SameShape(Write(layer, ReplaceCoordinate(layer, run, offset, lineId).value), layer)
  {
  }

  // ---------------------------------------------------------------------
  // findOverlapingLines
  // ---------------------------------------------------------------------

  /** One entry of the overlap map: a shared segment and the ids of the lines
      that share it, in the order they were added to the entry's `Set`. */
  datatype Overlap = Overlap(segment: seq<Coord>, ids: seq<int>)

  /** The `Map<string, Set<number>>` of the source, keyed by the segment
      itself rather than by its JSON text, entries in insertion order. */
  type OverlapMap = seq<Overlap>

  /** `Set.prototype.add` on an insertion-ordered set of ids. */
  function Insert(ids: seq<int>, x: int): (r: seq<int>)
    ensures forall y :: y in r <==> y in ids || y == x
    ensures NoDuplicates(ids) ==> NoDuplicates(r)
    ensures |r| == |ids| + (if x in ids then 0 else 1)
    ensures forall k :: 0 <= k < |ids| ==> r[k] == ids[k]
  {
    if x in ids then ids else ids + [x]
  }

  predicate NoDuplicates(s: seq<int>)
  {
    forall i, j :: 0 <= i < j < |s| ==> s[i] != s[j]
  }

  /** The segments that are keys of the map. */
  function Keys(m: OverlapMap): (r: set<seq<Coord>>)
    ensures forall k :: 0 <= k < |m| ==> m[k].segment in r
  {
    if m == [] then {} else {m[0].segment} + Keys(m[1..])
  }

  /** Every id recorded in some entry of the map. */
  function AllIds(m: OverlapMap): (r: set<int>)
    ensures forall k, x :: 0 <= k < |m| && x in m[k].ids ==> x in r
  {
    if m == [] then {} else (set x | x in m[0].ids) + AllIds(m[1..])
  }

  /** The ids recorded for a segment, empty when it is not a key. */
  function IdsOf(m: OverlapMap, seg: seq<Coord>): set<int>
  {
    if m == [] then {}
    else if m[0].segment == seg then set x | x in m[0].ids
    else IdsOf(m[1..], seg)
  }

  /** A map as the source builds it: each key once, each entry a non-empty
      set of ids without repetition. */
  predicate WellFormed(m: OverlapMap)
  {
    m == [] ||
    (&& m[0].segment !in Keys(m[1..])
     && |m[0].ids| > 0
     && NoDuplicates(m[0].ids)
     && WellFormed(m[1..]))
  }

  /** Every set of a well-formed map is free of repetitions. */
  lemma {:induction false} WellFormedEntries(m: OverlapMap)
    requires WellFormed(m)
    ensures forall q :: 0 <= q < |m| ==> NoDuplicates(m[q].ids)
  {
    if m != [] {
      WellFormedEntries(m[1..]);
      assert forall q :: 1 <= q < |m| ==> m[q] == m[1..][q - 1];
    }
  }

  /** `if (!overlapMap.has(key)) overlapMap.set(key, new Set());
      overlapMap.get(key).add(a).add(b)`: a new key goes to the end, an
      existing key keeps its place and gains the two ids. */
  function AddSegment(m: OverlapMap, seg: seq<Coord>, a: int, b: int): (r: OverlapMap)
    ensures Keys(r) == Keys(m) + {seg}
    ensures AllIds(r) == AllIds(m) + {a, b}
    ensures forall s :: IdsOf(r, s) == IdsOf(m, s) + (if s == seg then {a, b} else {})
    ensures WellFormed(m) ==> WellFormed(r)
    ensures |r| == |m| + (if seg in Keys(m) then 0 else 1)
  {
    if m == [] then
      var r := [Overlap(seg, Insert(Insert([], a), b))];
      assert r[1..] == [];
      r
    else if m[0].segment == seg then
      var ids := Insert(Insert(m[0].ids, a), b);
      assert (set x | x in ids) == (set x | x in m[0].ids) + {a, b};
      var r := [Overlap(seg, ids)] + m[1..];
      assert r[1..] == m[1..];
      r
    else
      var rest := AddSegment(m[1..], seg, a, b);
      var r := [m[0]] + rest;
      assert r[1..] == rest;
      r
  }

  /** Whether the order `Map` and `Set` keep survives `AddSegment`: every
      entry stays where it was with its ids first, in their order, the new
      ids after them; a new key comes last, with `a` and then `b`. */
  predicate KeepsOrder(m: OverlapMap, r: OverlapMap, seg: seq<Coord>, a: int, b: int)
  {
    && |m| <= |r|
    && (forall k :: 0 <= k < |m| ==> r[k].segment == m[k].segment && |m[k].ids| <= |r[k].ids|)
    && (forall k, i :: 0 <= k < |m| && 0 <= i < |m[k].ids| ==> i < |r[k].ids| && r[k].ids[i] == m[k].ids[i])
    && (seg !in Keys(m) ==> |m| < |r| && r[|m|] == Overlap(seg, if a == b then [a] else [a, b]))
  }

  /** `AddSegment` keeps the insertion order of keys and of ids. */
  lemma {:induction false} AddSegmentOrder(m: OverlapMap, seg: seq<Coord>, a: int, b: int)
    ensures KeepsOrder(m, AddSegment(m, seg, a, b), seg, a, b)
    decreases |m|, 1
  {
    if m == [] {
    } else if m[0].segment == seg {
      AddSegmentOrderHit(m, seg, a, b);
    } else {
      AddSegmentOrderMiss(m, seg, a, b);
    }
  }

  lemma AddSegmentOrderHit(m: OverlapMap, seg: seq<Coord>, a: int, b: int)
    requires m != [] && m[0].segment == seg
    ensures KeepsOrder(m, AddSegment(m, seg, a, b), seg, a, b)
  {
    var r := AddSegment(m, seg, a, b);
    var ids := Insert(Insert(m[0].ids, a), b);
    assert r == [Overlap(seg, ids)] + m[1..];
    ReplaceHeadOrder(m, seg, a, b, ids);
  }

  /** Giving the first entry ids that extend its own keeps the order. */
  lemma ReplaceHeadOrder(m: OverlapMap, seg: seq<Coord>, a: int, b: int, ids: seq<int>)
    requires m != [] && m[0].segment == seg
    requires |m[0].ids| <= |ids| && forall i :: 0 <= i < |m[0].ids| ==> ids[i] == m[0].ids[i]
    ensures KeepsOrder(m, [Overlap(seg, ids)] + m[1..], seg, a, b)
  {
    var r := [Overlap(seg, ids)] + m[1..];
    forall k | 1 <= k < |m|
      ensures r[k] == m[k]
    {
      assert r[k] == m[1..][k - 1];
    }
  }

  lemma {:induction false} AddSegmentOrderMiss(m: OverlapMap, seg: seq<Coord>, a: int, b: int)
    requires m != [] && m[0].segment != seg
    ensures KeepsOrder(m, AddSegment(m, seg, a, b), seg, a, b)
    decreases |m|, 0
  {
    var r := AddSegment(m, seg, a, b);
    var rest := AddSegment(m[1..], seg, a, b);
    assert r == [m[0]] + rest;
    assert KeepsOrder(m[1..], rest, seg, a, b) by {
      AddSegmentOrder(m[1..], seg, a, b);
    }
    forall k | 1 <= k < |m|
      ensures r[k].segment == m[k].segment && |m[k].ids| <= |r[k].ids|
    {
      assert r[k] == rest[k - 1] && m[k] == m[1..][k - 1];
    }
    forall k, i | 1 <= k < |m| && 0 <= i < |m[k].ids|
      ensures r[k].ids[i] == m[k].ids[i]
    {
      assert r[k] == rest[k - 1] && m[k] == m[1..][k - 1];
    }
    if seg !in Keys(m) {
      assert seg !in Keys(m[1..]);
      assert r[|m|] == rest[|m[1..]|];
    }
  }

  /** All the segments one `lineOverlap` call returned, for the pair of ids
      `a`, `b`. A pair with no overlap adds nothing. */
  function AddSegments(m: OverlapMap, segs: seq<seq<Coord>>, a: int, b: int): (r: OverlapMap)
    ensures Keys(r) == Keys(m) + (set s | s in segs)
    ensures AllIds(r) == AllIds(m) + (if segs == [] then {} else {a, b})
    ensures forall s :: IdsOf(r, s) == IdsOf(m, s) + (if s in segs then {a, b} else {})
    ensures WellFormed(m) ==> WellFormed(r)
    decreases |segs|
  {
    if segs == [] then m
    else
      var r := AddSegments(AddSegment(m, segs[0], a, b), segs[1..], a, b);
      assert forall s :: s in segs <==> s == segs[0] || s in segs[1..];
      r
  }

  /** The index pairs the two nested loops of `findOverlapingLines` visit,
      in visiting order: `i` runs below `n - 1` and `j` from `i + 1` below
      `n`, starting from the pair `(i, j)`. */
  function PairsFrom(n: nat, i: nat, j: nat): (ps: seq<(nat, nat)>)
    requires i < j
    ensures forall p :: p in ps ==> p.0 < p.1 < n
    decreases n - i, n - j
  {
    if i + 1 >= n then []
    else if j >= n then PairsFrom(n, i + 1, i + 2)
    else [(i, j)] + PairsFrom(n, i, j + 1)
  }

  /** All the pairs visited for `n` features. */
  function Pairs(n: nat): (ps: seq<(nat, nat)>)
    ensures forall p :: p in ps ==> p.0 < p.1 < n
  {
    PairsFrom(n, 0, 1)
  }

  /** From `(i, j)` on, the loops visit exactly the pairs `p < q` that do not
      come before `(i, j)`. */
  lemma {:induction false} PairsFromExactly(n: nat, i: nat, j: nat, p: nat, q: nat)
    requires i < j
    ensures (p, q) in PairsFrom(n, i, j) <==> p < q < n && (i < p || (i == p && j <= q))
    decreases n - i, n - j
  {
    if i + 1 >= n {
    } else if j >= n {
      assert PairsFrom(n, i, j) == PairsFrom(n, i + 1, i + 2);
      PairsFromExactly(n, i + 1, i + 2, p, q);
    } else {
      var rest := PairsFrom(n, i, j + 1);
      assert PairsFrom(n, i, j) == [(i, j)] + rest;
      assert (p, q) in PairsFrom(n, i, j) <==> (p, q) == (i, j) || (p, q) in rest;
      PairsFromExactly(n, i, j + 1, p, q);
    }
  }

  /** The loops compare every pair of distinct positions once, and a feature
      never with itself: `(p, q)` is visited exactly when `p < q < n`. */
  lemma PairsExactly(n: nat, p: nat, q: nat)
    ensures (p, q) in Pairs(n) <==> p < q < n
  {
    PairsFromExactly(n, 0, 1, p, q);
  }

  /** Run the loop body of `findOverlapingLines` over a list of pairs. */
  function FoldPairs(layer: Layer, ov: Overlapper, ps: seq<(nat, nat)>, m: OverlapMap): (r: OverlapMap)
    requires forall p :: p in ps ==> p.0 < |layer| && p.1 < |layer|
    ensures WellFormed(m) ==> WellFormed(r)
    decreases |ps|
  {
    if ps == [] then m
    else
      var (i, j) := ps[0];
      var m' := AddSegments(m, ov(layer[i].coords, layer[j].coords), layer[i].id, layer[j].id);
      FoldPairs(layer, ov, ps[1..], m')
  }

  /** The ids the pairs of `ps` contribute to a segment: both ids of every
      pair whose overlap contains it. */
  function Contributors(layer: Layer, ov: Overlapper, ps: seq<(nat, nat)>, seg: seq<Coord>): set<int>
    requires forall p :: p in ps ==> p.0 < |layer| && p.1 < |layer|
    decreases |ps|
  {
    if ps == [] then {}
    else
      var (i, j) := ps[0];
      (if seg in ov(layer[i].coords, layer[j].coords) then {layer[i].id, layer[j].id} else {})
        + Contributors(layer, ov, ps[1..], seg)
  }

  /** Folding pairs into a map adds to each segment the ids its pairs
      contribute. */
  lemma {:induction false} FoldPairsIds(layer: Layer, ov: Overlapper, ps: seq<(nat, nat)>, m: OverlapMap, seg: seq<Coord>)
    requires forall p :: p in ps ==> p.0 < |layer| && p.1 < |layer|
    ensures IdsOf(FoldPairs(layer, ov, ps, m), seg) == IdsOf(m, seg) + Contributors(layer, ov, ps, seg)
    decreases |ps|
  {
    if ps != [] {
      var (i, j) := ps[0];
      var m' := AddSegments(m, ov(layer[i].coords, layer[j].coords), layer[i].id, layer[j].id);
      FoldPairsIds(layer, ov, ps[1..], m', seg);
    }
  }

  /** Folding pairs only ever records ids of the layer's features. */
  lemma {:induction false} FoldPairsIdsFromLayer(layer: Layer, ov: Overlapper, ps: seq<(nat, nat)>, m: OverlapMap)
    requires forall p :: p in ps ==> p.0 < |layer| && p.1 < |layer|
    requires forall x :: x in AllIds(m) ==> HasId(layer, x)
    ensures forall x :: x in AllIds(FoldPairs(layer, ov, ps, m)) ==> HasId(layer, x)
    decreases |ps|
  {
    if ps != [] {
      var (i, j) := ps[0];
      var m' := AddSegments(m, ov(layer[i].coords, layer[j].coords), layer[i].id, layer[j].id);
      assert HasId(layer, layer[i].id) && HasId(layer, layer[j].id);
      FoldPairsIdsFromLayer(layer, ov, ps[1..], m');
    }
  }

  /** Folding pairs only ever adds segments `lineOverlap` returned, so
      when those are never empty no key is. */
  lemma {:induction false} FoldPairsKeysNonEmpty(layer: Layer, ov: Overlapper, ps: seq<(nat, nat)>, m: OverlapMap)
    requires forall p :: p in ps ==> p.0 < |layer| && p.1 < |layer|
    ensures SegmentsNonEmpty(ov) && (forall s :: s in Keys(m) ==> |s| > 0) ==>
              forall s :: s in Keys(FoldPairs(layer, ov, ps, m)) ==> |s| > 0
    decreases |ps|
  {
    if ps != [] {
      var (i, j) := ps[0];
      var m' := AddSegments(m, ov(layer[i].coords, layer[j].coords), layer[i].id, layer[j].id);
      FoldPairsKeysNonEmpty(layer, ov, ps[1..], m');
    }
  }

  /** `findOverlapingLines`. */
  function FindOverlappingLines(layer: Layer, ov: Overlapper): (r: OverlapMap)
    ensures WellFormed(r)
    ensures forall seg :: IdsOf(r, seg) == Contributors(layer, ov, Pairs(|layer|), seg)
    ensures forall x :: x in AllIds(r) ==> HasId(layer, x)
    ensures SegmentsNonEmpty(ov) ==> forall s :: s in Keys(r) ==> |s| > 0
  {
    var r := FoldPairs(layer, ov, Pairs(|layer|), []);
    assert forall seg :: IdsOf(r, seg) == Contributors(layer, ov, Pairs(|layer|), seg) by {
      forall seg
        ensures IdsOf(r, seg) == Contributors(layer, ov, Pairs(|layer|), seg)
      {
        FoldPairsIds(layer, ov, Pairs(|layer|), [], seg);
      }
    }
    FoldPairsIdsFromLayer(layer, ov, Pairs(|layer|), []);
    FoldPairsKeysNonEmpty(layer, ov, Pairs(|layer|), []);
    r
  }

  /** A contributor of a segment is an id of a pair whose overlap holds the
      segment. */
  lemma {:induction false} ContributorsExactly(layer: Layer, ov: Overlapper, ps: seq<(nat, nat)>, seg: seq<Coord>, x: int)
    requires forall p :: p in ps ==> p.0 < |layer| && p.1 < |layer|
    ensures x in Contributors(layer, ov, ps, seg) <==>
              exists p :: p in ps && seg in ov(layer[p.0].coords, layer[p.1].coords)
                          && (x == layer[p.0].id || x == layer[p.1].id)
    decreases |ps|
  {
    if ps != [] {
      ContributorsExactly(layer, ov, ps[1..], seg, x);
      assert forall p :: p in ps <==> p == ps[0] || p in ps[1..];
    }
  }

  /** Under a well-formed map, a segment is a key exactly when it has ids. */
  lemma {:induction false} KeysIffIds(m: OverlapMap, seg: seq<Coord>)
    requires WellFormed(m)
    ensures seg in Keys(m) <==> IdsOf(m, seg) != {}
  {
    if m != [] {
      KeysIffIds(m[1..], seg);
      if m[0].segment == seg {
        assert m[0].ids[0] in IdsOf(m, seg);
      }
    }
  }

  /** The overlap map records for a segment exactly the ids of both features
      of every pair `i < j` whose `lineOverlap` returned that segment. */
  lemma FindOverlappingLinesIds(layer: Layer, ov: Overlapper, seg: seq<Coord>, x: int)
    ensures x in IdsOf(FindOverlappingLines(layer, ov), seg) <==>
              exists i, j :: 0 <= i < j < |layer| && seg in ov(layer[i].coords, layer[j].coords)
                             && (x == layer[i].id || x == layer[j].id)
  {
    if x in IdsOf(FindOverlappingLines(layer, ov), seg) {
      RecordedIdFromPair(layer, ov, seg, x);
    }
    if exists i, j :: 0 <= i < j < |layer| && seg in ov(layer[i].coords, layer[j].coords)
                      && (x == layer[i].id || x == layer[j].id) {
      var i, j :| 0 <= i < j < |layer| && seg in ov(layer[i].coords, layer[j].coords)
                  && (x == layer[i].id || x == layer[j].id);
      PairIdRecorded(layer, ov, seg, x, i, j);
    }
  }

  lemma RecordedIdFromPair(layer: Layer, ov: Overlapper, seg: seq<Coord>, x: int)
    requires x in IdsOf(FindOverlappingLines(layer, ov), seg)
    ensures exists i, j :: 0 <= i < j < |layer| && seg in ov(layer[i].coords, layer[j].coords)
                           && (x == layer[i].id || x == layer[j].id)
  {
    var ps := Pairs(|layer|);
    ContributorsExactly(layer, ov, ps, seg, x);
    var p :| p in ps && seg in ov(layer[p.0].coords, layer[p.1].coords) && (x == layer[p.0].id || x == layer[p.1].id);
    assert 0 <= p.0 < p.1 < |layer|;
  }

  lemma PairIdRecorded(layer: Layer, ov: Overlapper, seg: seq<Coord>, x: int, i: nat, j: nat)
    requires i < j < |layer| && seg in ov(layer[i].coords, layer[j].coords)
    requires x == layer[i].id || x == layer[j].id
    ensures x in IdsOf(FindOverlappingLines(layer, ov), seg)
  {
    var ps := Pairs(|layer|);
    PairsExactly(|layer|, i, j);
    assert (i, j) in ps;
    ContributorsExactly(layer, ov, ps, seg, x);
  }

  /** A segment is a key of the overlap map exactly when some pair `i < j`
      returned it: pairs with no overlap add nothing. */
  lemma FindOverlappingLinesKeys(layer: Layer, ov: Overlapper, seg: seq<Coord>)
    ensures seg in Keys(FindOverlappingLines(layer, ov)) <==>
              exists i, j :: 0 <= i < j < |layer| && seg in ov(layer[i].coords, layer[j].coords)
  {
    if seg in Keys(FindOverlappingLines(layer, ov)) {
      KeyFromPair(layer, ov, seg);
    }
    if exists i, j :: 0 <= i < j < |layer| && seg in ov(layer[i].coords, layer[j].coords) {
      var i, j :| 0 <= i < j < |layer| && seg in ov(layer[i].coords, layer[j].coords);
      PairGivesKey(layer, ov, seg, i, j);
    }
  }

  /** A key of the overlap map was returned for some pair. */
  lemma KeyFromPair(layer: Layer, ov: Overlapper, seg: seq<Coord>)
    requires seg in Keys(FindOverlappingLines(layer, ov))
    ensures exists i, j :: 0 <= i < j < |layer| && seg in ov(layer[i].coords, layer[j].coords)
  {
    var r := FindOverlappingLines(layer, ov);
    KeysIffIds(r, seg);
    var y := Member(IdsOf(r, seg));
    FindOverlappingLinesIds(layer, ov, seg, y);
    var i, j :| 0 <= i < j < |layer| && seg in ov(layer[i].coords, layer[j].coords)
                && (y == layer[i].id || y == layer[j].id);
  }

  /** A non-empty set has a member. */
  lemma Member(s: set<int>) returns (x: int)
    requires s != {}
    ensures x in s
  {
    if forall y :: y !in s {
      assert false;
    }
    x :| x in s;
  }

  /** A segment returned for a pair is a key of the overlap map. */
  lemma PairGivesKey(layer: Layer, ov: Overlapper, seg: seq<Coord>, i: nat, j: nat)
    requires i < j < |layer| && seg in ov(layer[i].coords, layer[j].coords)
    ensures seg in Keys(FindOverlappingLines(layer, ov))
  {
    var r := FindOverlappingLines(layer, ov);
    KeysIffIds(r, seg);
    FindOverlappingLinesIds(layer, ov, seg, layer[i].id);
  }

  // ---------------------------------------------------------------------
  // manageOverlapingSegmentsData
  // ---------------------------------------------------------------------

  /** No point of `line` from `i` up to `k` is `===` to `first` or `last`. */
  predicate NoHitBetween(line: seq<Coord>, first: Coord, last: Coord, i: nat, k: nat)
  {
    forall m :: i <= m < k && m < |line| ==> !SameCoord(line[m], first) && !SameCoord(line[m], last)
  }

  /** The scan of one crossing line, from position `i`: `true` at the first
      point equal to the segment's first point, `false` at the first point
      equal to its last point, whichever comes first (the first point wins
      when both are equal); nothing when neither occurs. */
  function ClassifyFrom(line: seq<Coord>, first: Coord, last: Coord, i: nat): (d: Option<bool>)
    ensures d.None? <==> NoHitBetween(line, first, last, i, |line|)
    decreases |line| - i
  {
    if i >= |line| then None
    else if SameCoord(line[i], first) then Some(true)
    else if SameCoord(line[i], last) then Some(false)
    else ClassifyFrom(line, first, last, i + 1)
  }

  /** The scan stops at the first point equal to either end point `k`: the
      direction is `true` iff that point equals the first point. */
  lemma {:induction false} ClassifyFromFirstHit(line: seq<Coord>, first: Coord, last: Coord, i: nat, k: nat)
    requires i <= k < |line| && NoHitBetween(line, first, last, i, k)
    requires SameCoord(line[k], first) || SameCoord(line[k], last)
    ensures ClassifyFrom(line, first, last, i) == Some(SameCoord(line[k], first))
    decreases k - i
  {
    if i < k {
      ClassifyFromFirstHit(line, first, last, i + 1, k);
    }
  }

  /** The direction of one crossing line over a segment: `Some(true)` when
      it meets the segment's first point first, `Some(false)` when it meets
      the last point first, `None` when it meets neither. */
  function Classify(line: seq<Coord>, segment: seq<Coord>): (d: Option<bool>)
    requires |segment| > 0
    ensures d.None? <==> NoHitBetween(line, segment[0], segment[|segment| - 1], 0, |line|)
  {
    ClassifyFrom(line, segment[0], segment[|segment| - 1], 0)
  }

  /** The `segmentDirections` array: one entry per crossing line that has a
      direction, none for a line that meets neither end point. When a line
      is skipped, the array is shorter than the crossing lines, and
      `applyOffset` still pairs direction `j` with crossing line `j`, so
      every later direction is applied to the crossing line before the one
      it was computed for, and the last crossing line gets none. */
  function Directions(layer: Layer, segment: seq<Coord>, ids: seq<int>): (r: seq<bool>)
    requires |segment| > 0
    ensures |r| <= |ids|
    ensures |r| == |ids| <==> forall j :: 0 <= j < |ids| ==> Classify(GetLineById(layer, ids[j]), segment).Some?
    ensures |r| == |ids| ==> forall j :: 0 <= j < |ids| ==> Classify(GetLineById(layer, ids[j]), segment) == Some(r[j])
  {
    if ids == [] then []
    else
      var rest := Directions(layer, segment, ids[1..]);
      assert forall j :: 1 <= j < |ids| ==> ids[1..][j - 1] == ids[j];
      match Classify(GetLineById(layer, ids[0]), segment)
      case None => rest
      case Some(d) => [d] + rest
  }

  /** Iterating over one more id appends its direction when the line holds
      an end point of the segment, and nothing otherwise: the directions
      that remain keep the order of their lines. */
  lemma {:induction false} DirectionsSnoc(layer: Layer, segment: seq<Coord>, ids: seq<int>, x: int)
    requires |segment| > 0
    ensures Directions(layer, segment, ids + [x])
            == Directions(layer, segment, ids)
               + (if Classify(GetLineById(layer, x), segment).Some? then [Classify(GetLineById(layer, x), segment).value] else [])
    decreases |ids|
  {
    if ids == [] {
      assert ids + [x] == [x];
      assert [x][1..] == [];
    } else {
      assert (ids + [x])[0] == ids[0];
      assert (ids + [x])[1..] == ids[1..] + [x];
      DirectionsSnoc(layer, segment, ids[1..], x);
    }
  }

  /** One element of `overlapArray`. */
  datatype OverlapSegment = OverlapSegment(geoData: seq<Coord>, crossingLines: seq<int>, directions: seq<bool>)

  /** `manageOverlapingSegmentsData`: one element per map entry, in the
      map's order, with the entry's ids as crossing lines. */
  function SegmentsData(m: OverlapMap, layer: Layer): (r: seq<OverlapSegment>)
    requires forall s :: s in Keys(m) ==> |s| > 0
    ensures |r| == |m|
    ensures forall k :: 0 <= k < |r| ==> r[k].geoData == m[k].segment && r[k].crossingLines == m[k].ids
    ensures forall k :: 0 <= k < |r| ==> |r[k].directions| <= |r[k].crossingLines|
    ensures forall k :: 0 <= k < |r| ==> r[k].directions == Directions(layer, m[k].segment, m[k].ids)
  {
    seq(|m|, k requires 0 <= k < |m| =>
      OverlapSegment(m[k].segment, m[k].ids, Directions(layer, m[k].segment, m[k].ids)))
  }

  // ---------------------------------------------------------------------
  // applyOffset
  // ---------------------------------------------------------------------

  /** One turn of the inner loop of `applyOffset`: the crossing line to
      change, the segment as it stands at that moment, and the offset
      distance in metres given to `lineOffset`. */
  datatype OffsetCall = OffsetCall(lineId: int, segment: seq<Coord>, distance: int)

  /** The inner loop of `applyOffset` from turn `j` on, with the two
      counters and the segment as they stand. An opposite-direction turn
      reverses the segment in place (`reverseLine` is the segment object
      itself), so the reversal carries over to the later turns. */
  function OffsetCallsFrom(segment: seq<Coord>, directions: seq<bool>, crossingLines: seq<int>,
                           j: nat, same: nat, opposite: nat): (calls: seq<OffsetCall>)
    requires |directions| <= |crossingLines| && j <= |directions|
    ensures |calls| == |directions| - j
    ensures forall k :: 0 <= k < |calls| ==> calls[k].lineId == crossingLines[j + k]
    ensures |calls| > 0 ==> calls[0].distance == 3 * (if directions[j] then same else opposite)
    decreases |directions| - j
  {
    if j == |directions| then []
    else if directions[j] then
      [OffsetCall(crossingLines[j], segment, 3 * same)]
        + OffsetCallsFrom(segment, directions, crossingLines, j + 1, same + 1, opposite)
    else
      var reversed := Reverse(segment);
      [OffsetCall(crossingLines[j], reversed, 3 * opposite)]
        + OffsetCallsFrom(reversed, directions, crossingLines, j + 1, same, opposite + 1)
  }

  /** The inner loop of `applyOffset` for one segment: both counters start
      at 0. */
  function OffsetCalls(s: OverlapSegment): (r: seq<OffsetCall>)
    requires |s.directions| <= |s.crossingLines|
    ensures |r| == |s.directions|
    ensures forall j :: 0 <= j < |r| ==> r[j].lineId == s.crossingLines[j]
    ensures |r| > 0 ==> r[0].distance == 0
  {
    OffsetCallsFrom(s.geoData, s.directions, s.crossingLines, 0, 0, 0)
  }

  /** The segment after `flips` in-place reversals. */
  function Oriented(segment: seq<Coord>, flips: nat): seq<Coord>
  {
    if flips % 2 == 0 then segment else Reverse(segment)
  }

  /** The invariant of the inner loop of `applyOffset`: after the first
      `j0` turns, the counters count the lines of each class so far and the
      segment has been reversed once per opposite-direction turn. */
  lemma {:induction false} OffsetCallsFromSpec(segment: seq<Coord>, directions: seq<bool>, crossingLines: seq<int>,
                                               j0: nat, same: nat, opposite: nat, current: seq<Coord>, j: nat)
    requires |directions| <= |crossingLines| && j0 <= j < |directions|
    requires same == Count(directions[..j0], true) && opposite == Count(directions[..j0], false)
    requires current == Oriented(segment, opposite)
    ensures var c := OffsetCallsFrom(current, directions, crossingLines, j0, same, opposite)[j - j0];
            && c.lineId == crossingLines[j]
            && c.distance == 3 * Count(directions[..j], directions[j])
            && c.segment == Oriented(segment, Count(directions[..j + 1], false))
    decreases j - j0, 1
  {
    if j == j0 {
      OffsetCallsFromHead(segment, directions, crossingLines, j0, same, opposite, current);
    } else if directions[j0] {
      OffsetCallsFromSame(segment, directions, crossingLines, j0, same, opposite, current, j);
    } else {
      OffsetCallsFromOpposite(segment, directions, crossingLines, j0, same, opposite, current, j);
    }
  }

  /** The turn the loop is at offsets by 3 metres per earlier line of its
      class, on the segment reversed once more if it is an
      opposite-direction turn. */
  lemma OffsetCallsFromHead(segment: seq<Coord>, directions: seq<bool>, crossingLines: seq<int>,
                            j0: nat, same: nat, opposite: nat, current: seq<Coord>)
    requires |directions| <= |crossingLines| && j0 < |directions|
    requires same == Count(directions[..j0], true) && opposite == Count(directions[..j0], false)
    requires current == Oriented(segment, opposite)
    ensures var c := OffsetCallsFrom(current, directions, crossingLines, j0, same, opposite)[0];
            && c.lineId == crossingLines[j0]
            && c.distance == 3 * Count(directions[..j0], directions[j0])
            && c.segment == Oriented(segment, Count(directions[..j0 + 1], false))
  {
    var calls := OffsetCallsFrom(current, directions, crossingLines, j0, same, opposite);
    if directions[j0] {
      assert calls[0] == OffsetCall(crossingLines[j0], current, 3 * same);
      assert Count(directions[..j0 + 1], false) == opposite by {
        CountPrefixStep(directions, j0, false);
      }
    } else {
      assert calls[0] == OffsetCall(crossingLines[j0], Reverse(current), 3 * opposite);
      assert Reverse(current) == Oriented(segment, opposite + 1) by {
        OrientedStep(segment, opposite);
      }
      assert Count(directions[..j0 + 1], false) == opposite + 1 by {
        CountPrefixStep(directions, j0, false);
      }
    }
  }

  /** Past a same-direction turn the loop goes on with one more
      same-direction line and the segment as it is. */
  lemma {:induction false} OffsetCallsFromSame(segment: seq<Coord>, directions: seq<bool>, crossingLines: seq<int>,
                                               j0: nat, same: nat, opposite: nat, current: seq<Coord>, j: nat)
    requires |directions| <= |crossingLines| && j0 < j < |directions|
    requires same == Count(directions[..j0], true) && opposite == Count(directions[..j0], false)
    requires current == Oriented(segment, opposite)
    requires directions[j0]
    ensures var c := OffsetCallsFrom(current, directions, crossingLines, j0, same, opposite)[j - j0];
            && c.lineId == crossingLines[j]
            && c.distance == 3 * Count(directions[..j], directions[j])
            && c.segment == Oriented(segment, Count(directions[..j + 1], false))
    decreases j - j0, 0
  {
    var calls := OffsetCallsFrom(current, directions, crossingLines, j0, same, opposite);
    var rest := OffsetCallsFrom(current, directions, crossingLines, j0 + 1, same + 1, opposite);
    assert calls[j - j0] == rest[j - (j0 + 1)];
    assert Count(directions[..j0 + 1], true) == same + 1 && Count(directions[..j0 + 1], false) == opposite by {
      CountPrefixStep(directions, j0, true);
      CountPrefixStep(directions, j0, false);
    }
    OffsetCallsFromSpec(segment, directions, crossingLines, j0 + 1, same + 1, opposite, current, j);
  }

  /** Past an opposite-direction turn the loop goes on with one more
      opposite-direction line and the segment reversed once more. */
  lemma {:induction false} OffsetCallsFromOpposite(segment: seq<Coord>, directions: seq<bool>, crossingLines: seq<int>,
                                               j0: nat, same: nat, opposite: nat, current: seq<Coord>, j: nat)
    requires |directions| <= |crossingLines| && j0 < j < |directions|
    requires same == Count(directions[..j0], true) && opposite == Count(directions[..j0], false)
    requires current == Oriented(segment, opposite)
    requires !directions[j0]
    ensures var c := OffsetCallsFrom(current, directions, crossingLines, j0, same, opposite)[j - j0];
            && c.lineId == crossingLines[j]
            && c.distance == 3 * Count(directions[..j], directions[j])
            && c.segment == Oriented(segment, Count(directions[..j + 1], false))
    decreases j - j0, 0
  {
    var calls := OffsetCallsFrom(current, directions, crossingLines, j0, same, opposite);
    var reversed := Reverse(current);
    var rest := OffsetCallsFrom(reversed, directions, crossingLines, j0 + 1, same, opposite + 1);
    assert calls[j - j0] == rest[j - (j0 + 1)];
    assert reversed == Oriented(segment, opposite + 1) by {
      OrientedStep(segment, opposite);
    }
    assert Count(directions[..j0 + 1], true) == same && Count(directions[..j0 + 1], false) == opposite + 1 by {
      CountPrefixStep(directions, j0, true);
      CountPrefixStep(directions, j0, false);
    }
    OffsetCallsFromSpec(segment, directions, crossingLines, j0 + 1, same, opposite + 1, reversed, j);
  }

  /** One more reversal flips the orientation once more. */
  lemma OrientedStep(segment: seq<Coord>, flips: nat)
    ensures Reverse(Oriented(segment, flips)) == Oriented(segment, flips + 1)
  {
    if flips % 2 == 0 {
      assert (flips + 1) % 2 == 1;
    } else {
      assert (flips + 1) % 2 == 0;
      ReverseReverse(segment);
    }
  }

  /** Turn `j` of the inner loop changes crossing line `j`; it offsets by 3
      metres for every earlier line of the same direction class (so the
      first line of each class by 0); and it sees the segment reversed once
      for every opposite-direction turn up to and including itself. */
  lemma OffsetCallsSpec(s: OverlapSegment, j: nat)
    requires |s.directions| <= |s.crossingLines| && j < |s.directions|
    ensures OffsetCalls(s)[j].lineId == s.crossingLines[j]
    ensures OffsetCalls(s)[j].distance == 3 * Count(s.directions[..j], s.directions[j])
    ensures OffsetCalls(s)[j].segment == Oriented(s.geoData, Count(s.directions[..j + 1], false))
  {
    assert s.directions[..0] == [];
    OffsetCallsFromSpec(s.geoData, s.directions, s.crossingLines, 0, 0, 0, s.geoData, j);
  }

  /** `lineOffset` followed by `replaceCoordinate` and the write-back, for
      each turn in order. Fails as the source throws when a turn names an id
      no feature carries. */
  function ApplyCalls(layer: Layer, calls: seq<OffsetCall>, off: Offsetter): (r: Option<Layer>)
    requires LengthPreserving(off)
    ensures r.Some? <==> forall k :: 0 <= k < |calls| ==> HasId(layer, calls[k].lineId)
    ensures r.Some? ==> SameShape(r.value, layer)
    decreases |calls|
  {
    if calls == [] then Some(layer)
    else
      var c := calls[0];
      var offsetLine := off(c.segment, c.distance);
      match ReplaceCoordinate(layer, c.segment, offsetLine, c.lineId)
      case None => None
      case Some(rep) =>
        var next := Write(layer, rep);
        WriteStep(layer, calls, off, rep);
        ApplyCalls(next, calls[1..], off)
  }

  /** After the first turn's write, the layer keeps its shape, and the
      later turns name present lines exactly when all the turns did. */
  lemma WriteStep(layer: Layer, calls: seq<OffsetCall>, off: Offsetter, rep: Replaced)
    requires LengthPreserving(off) && calls != []
    requires ReplaceCoordinate(layer, calls[0].segment, off(calls[0].segment, calls[0].distance), calls[0].lineId) == Some(rep)
    ensures SameShape(Write(layer, rep), layer)
    ensures (forall k :: 0 <= k < |calls| ==> HasId(layer, calls[k].lineId))
            <==> (forall k :: 0 <= k < |calls[1..]| ==> HasId(Write(layer, rep), calls[1..][k].lineId))
  {
    var c := calls[0];
    var next := Write(layer, rep);
    var rest := calls[1..];
    ReplaceCoordinateFrame(layer, c.segment, off(c.segment, c.distance), c.lineId);
    SameShapeIds(next, layer);
    if forall k :: 0 <= k < |calls| ==> HasId(layer, calls[k].lineId) {
      forall k | 0 <= k < |rest|
        ensures HasId(next, rest[k].lineId)
      {
        assert rest[k] == calls[k + 1];
      }
    }
    if forall k :: 0 <= k < |rest| ==> HasId(next, rest[k].lineId) {
      forall k | 0 <= k < |calls|
        ensures HasId(layer, calls[k].lineId)
      {
        if k > 0 {
          assert calls[k] == rest[k - 1];
        }
      }
    }
  }

  /** The lines the turns of all segments name are in the layer iff those of
      the first segment are, and those of the others are in a layer with the
      same ids. */
  lemma SegmentIdsStep(segments: seq<OverlapSegment>, layer: Layer, next: Layer)
    requires segments != []
    requires forall k :: 0 <= k < |segments| ==> |segments[k].directions| <= |segments[k].crossingLines|
    requires forall x :: HasId(next, x) <==> HasId(layer, x)
    ensures (forall k, j :: 0 <= k < |segments| && 0 <= j < |segments[k].directions|
                            ==> HasId(layer, segments[k].crossingLines[j]))
            <==> (&& (forall j :: 0 <= j < |OffsetCalls(segments[0])| ==> HasId(layer, OffsetCalls(segments[0])[j].lineId))
                  && (forall k, j :: 0 <= k < |segments[1..]| && 0 <= j < |segments[1..][k].directions|
                                     ==> HasId(next, segments[1..][k].crossingLines[j])))
  {
    var calls := OffsetCalls(segments[0]);
    assert forall j :: 0 <= j < |calls| ==> calls[j].lineId == segments[0].crossingLines[j];
    assert forall k :: 1 <= k < |segments| ==> segments[1..][k - 1] == segments[k];
  }

  /** The first feature carrying an id is the one the index search finds. */
  lemma FirstIndexIs(layer: Layer, x: int, i: nat)
    requires i < |layer| && layer[i].id == x
    requires forall m :: 0 <= m < i ==> layer[m].id != x
    ensures GetLineIndexById(layer, x) == i
  {
    assert HasId(layer, x);
  }

  /** The first turn, when its line is present, writes the splice into the
      first feature carrying that id and hands the result to the later
      turns. */
  lemma ApplyCallsStep(layer: Layer, calls: seq<OffsetCall>, off: Offsetter)
    requires LengthPreserving(off) && calls != [] && HasId(layer, calls[0].lineId)
    ensures var c := calls[0];
            var rep := ReplaceCoordinate(layer, c.segment, off(c.segment, c.distance), c.lineId);
            && rep.Some?
            && rep.value.index == GetLineIndexById(layer, c.lineId)
            && SameShape(Write(layer, rep.value), layer)
            && ApplyCalls(layer, calls, off) == ApplyCalls(Write(layer, rep.value), calls[1..], off)
  {
    var c := calls[0];
    var rep := ReplaceCoordinate(layer, c.segment, off(c.segment, c.distance), c.lineId).value;
    ReplaceCoordinateFrame(layer, c.segment, off(c.segment, c.distance), c.lineId);
    FirstIndexIs(layer, c.lineId, rep.index);
  }

  /** Each turn splices the offset copy of its segment into the first
      feature carrying its line id. When the turns name distinct lines, all
      present, that feature ends with exactly this splice of its original
      points: later turns change other features only. */
  lemma ApplyCallsWrites(layer: Layer, calls: seq<OffsetCall>, off: Offsetter, j: nat)
    requires LengthPreserving(off)
    requires forall c :: 0 <= c < |calls| ==> HasId(layer, calls[c].lineId)
    requires forall a, b :: 0 <= a < b < |calls| ==> calls[a].lineId != calls[b].lineId
    requires j < |calls|
    ensures ApplyCalls(layer, calls, off).Some?
    ensures 0 <= GetLineIndexById(layer, calls[j].lineId)
    ensures ApplyCalls(layer, calls, off).value[GetLineIndexById(layer, calls[j].lineId)].coords
            == ReplaceInLine(layer[GetLineIndexById(layer, calls[j].lineId)].coords,
                             calls[j].segment, off(calls[j].segment, calls[j].distance))
  {
    var x := calls[j].lineId;
    ApplyCallsComposed(layer, calls, off, x);
    SpliceCallsLone(calls, x, layer[GetLineIndexById(layer, x)].coords, off, j);
  }

  /** Layers of the same shape find every id at the same index. */
  lemma SameShapeIndex(a: Layer, b: Layer, x: int)
    requires SameShape(a, b)
    ensures GetLineIndexById(a, x) == GetLineIndexById(b, x)
  {
    SameShapeIds(a, b);
    if HasId(b, x) {
      FirstIndexIs(a, x, GetLineIndexById(b, x));
    }
  }

  /** Layers of the same shape carry the same ids. */
  lemma SameShapeIds(a: Layer, b: Layer)
    requires SameShape(a, b)
    ensures forall x :: HasId(a, x) <==> HasId(b, x)
  {
    forall x
      ensures HasId(a, x) <==> HasId(b, x)
    {
      if HasId(b, x) {
        var k :| 0 <= k < |b| && b[k].id == x;
        assert a[k].id == x;
      }
    }
  }

  /** Some turn of some segment names this line. */
  predicate Crosses(segments: seq<OverlapSegment>, lineId: int)
  {
    exists k, j :: 0 <= k < |segments| && 0 <= j < |segments[k].directions| && j < |segments[k].crossingLines|
                   && segments[k].crossingLines[j] == lineId
  }

  /** `applyOffset`: the inner loop of every segment in turn, each on the
      layer the previous one left. */
  function ApplyOffset(segments: seq<OverlapSegment>, layer: Layer, off: Offsetter): (r: Option<Layer>)
    requires LengthPreserving(off)
    requires forall k :: 0 <= k < |segments| ==> |segments[k].directions| <= |segments[k].crossingLines|
    ensures r.Some? <==> forall k, j :: 0 <= k < |segments| && 0 <= j < |segments[k].directions|
                                       ==> HasId(layer, segments[k].crossingLines[j])
    ensures r.Some? ==> SameShape(r.value, layer)
    decreases |segments|
  {
    if segments == [] then Some(layer)
    else
      var calls := OffsetCalls(segments[0]);
      match ApplyCalls(layer, calls, off)
      case None =>
        SegmentIdsStep(segments, layer, layer);
        None
      case Some(next) =>
        SameShapeIds(next, layer);
        SegmentIdsStep(segments, layer, next);
        ApplyOffset(segments[1..], next, off)
  }

  /** The lines the turns of the segments name are in the layer. */
  predicate TurnsNamed(segments: seq<OverlapSegment>, layer: Layer)
  {
    forall q, c :: 0 <= q < |segments| && 0 <= c < |segments[q].directions| && c < |segments[q].crossingLines|
                   ==> HasId(layer, segments[q].crossingLines[c])
  }

  /** Each segment has no more directions than crossing lines, and no line
      twice. */
  predicate SegmentsShaped(segments: seq<OverlapSegment>)
  {
    forall q :: 0 <= q < |segments| ==>
      |segments[q].directions| <= |segments[q].crossingLines| && NoDuplicates(segments[q].crossingLines)
  }

  /** No segment but segment `k` has a turn naming line `x`. */
  predicate LoneLine(segments: seq<OverlapSegment>, k: nat, x: int)
  {
    forall q, c :: 0 <= q < |segments| && q != k && 0 <= c < |segments[q].directions| && c < |segments[q].crossingLines|
                   ==> segments[q].crossingLines[c] != x
  }

  /** The requirements carry over from the segments to the remaining ones,
      on a layer with the same ids. */
  lemma TailShaped(segments: seq<OverlapSegment>, layer: Layer, next: Layer)
    requires segments != [] && SegmentsShaped(segments) && TurnsNamed(segments, layer)
    requires forall x :: HasId(next, x) <==> HasId(layer, x)
    ensures SegmentsShaped(segments[1..]) && TurnsNamed(segments[1..], next)
  {
    assert forall q :: 0 <= q < |segments[1..]| ==> segments[1..][q] == segments[q + 1];
  }

  /** The first segment's turn on a line no later segment names is the last
      change to that line. */
  lemma ApplyOffsetWritesHead(segments: seq<OverlapSegment>, layer: Layer, off: Offsetter, j: nat)
    requires LengthPreserving(off) && SegmentsShaped(segments) && TurnsNamed(segments, layer)
    requires segments != [] && j < |segments[0].directions|
    requires !Crosses(segments[1..], segments[0].crossingLines[j])
    ensures ApplyOffset(segments, layer, off).Some?
    ensures 0 <= GetLineIndexById(layer, segments[0].crossingLines[j])
    ensures var i := GetLineIndexById(layer, segments[0].crossingLines[j]);
            var call := OffsetCalls(segments[0])[j];
            ApplyOffset(segments, layer, off).value[i].coords
            == ReplaceInLine(layer[i].coords, call.segment, off(call.segment, call.distance))
  {
    var s := segments[0];
    var calls := OffsetCalls(s);
    assert NoDuplicates(s.crossingLines);
    ApplyCallsWrites(layer, calls, off, j);
    var next := ApplyCalls(layer, calls, off).value;
    SameShapeIds(next, layer);
    TailShaped(segments, layer, next);
    var i := GetLineIndexById(layer, s.crossingLines[j]);
    assert ApplyOffset(segments, layer, off) == ApplyOffset(segments[1..], next, off);
    ApplyOffsetFrame(segments[1..], next, off, i);
  }

  /** Running the segments of `a + b` is running those of `a`, then those
      of `b` on the layer `a` leaves. */
  lemma {:induction false} ApplyOffsetAppend(a: seq<OverlapSegment>, b: seq<OverlapSegment>, layer: Layer, off: Offsetter)
    requires LengthPreserving(off) && SegmentsShaped(a) && SegmentsShaped(b)
    ensures SegmentsShaped(a + b)
    ensures ApplyOffset(a + b, layer, off)
            == if ApplyOffset(a, layer, off).Some? then ApplyOffset(b, ApplyOffset(a, layer, off).value, off) else None
    decreases |a|
  {
    if a == [] {
      assert a + b == b;
    } else {
      assert (a + b)[0] == a[0];
      assert (a + b)[1..] == a[1..] + b;
      assert forall q :: 0 <= q < |a[1..]| ==> a[1..][q] == a[q + 1];
      match ApplyCalls(layer, OffsetCalls(a[0]), off)
      case None =>
      case Some(next) =>
        ApplyOffsetAppend(a[1..], b, next, off);
    }
  }

  /** A line only segment `k` names is named by no segment before it and by
      none after it. */
  lemma LoneLineParts(segments: seq<OverlapSegment>, k: nat, x: int)
    requires k < |segments| && LoneLine(segments, k, x)
    ensures !Crosses(segments[..k], x) && !Crosses(segments[k..][1..], x)
  {
    assert forall q :: 0 <= q < |segments[..k]| ==> segments[..k][q] == segments[q];
    assert forall q :: 0 <= q < |segments[k..][1..]| ==> segments[k..][1..][q] == segments[k + 1 + q];
  }

  /** The segments before segment `k` run on the layer and leave a line
      only segment `k` names as it was, at the same index; the lines the
      remaining segments name are still present. */
  lemma ApplyOffsetPrefix(segments: seq<OverlapSegment>, layer: Layer, off: Offsetter, k: nat, x: int)
    requires LengthPreserving(off) && SegmentsShaped(segments) && TurnsNamed(segments, layer)
    requires k < |segments| && LoneLine(segments, k, x) && HasId(layer, x)
    ensures SegmentsShaped(segments[..k]) && SegmentsShaped(segments[k..])
    ensures ApplyOffset(segments[..k], layer, off).Some?
    ensures var mid := ApplyOffset(segments[..k], layer, off).value;
            && TurnsNamed(segments[k..], mid)
            && GetLineIndexById(mid, x) == GetLineIndexById(layer, x)
            && mid[GetLineIndexById(layer, x)] == layer[GetLineIndexById(layer, x)]
  {
    var pre := segments[..k];
    var rest := segments[k..];
    assert forall q :: 0 <= q < |pre| ==> pre[q] == segments[q];
    assert forall q :: 0 <= q < |rest| ==> rest[q] == segments[k + q];
    var mid := ApplyOffset(pre, layer, off).value;
    SameShapeIds(mid, layer);
    LoneLineParts(segments, k, x);
    ApplyOffsetFrame(pre, layer, off, GetLineIndexById(layer, x));
    SameShapeIndex(mid, layer, x);
  }

  /** A line that the turns of one segment only name ends, after all the
      segments, with the splice of that turn applied to its original points. */
  lemma ApplyOffsetWrites(segments: seq<OverlapSegment>, layer: Layer, off: Offsetter, k: nat, j: nat)
    requires LengthPreserving(off) && SegmentsShaped(segments) && TurnsNamed(segments, layer)
    requires k < |segments| && j < |segments[k].directions|
    requires LoneLine(segments, k, segments[k].crossingLines[j])
    ensures ApplyOffset(segments, layer, off).Some?
    ensures 0 <= GetLineIndexById(layer, segments[k].crossingLines[j])
    ensures var i := GetLineIndexById(layer, segments[k].crossingLines[j]);
            var call := OffsetCalls(segments[k])[j];
            ApplyOffset(segments, layer, off).value[i].coords
            == ReplaceInLine(layer[i].coords, call.segment, off(call.segment, call.distance))
  {
    var x := segments[k].crossingLines[j];
    var pre := segments[..k];
    var rest := segments[k..];
    assert pre + rest == segments;
    assert HasId(layer, x);
    ApplyOffsetPrefix(segments, layer, off, k, x);
    var mid := ApplyOffset(pre, layer, off).value;
    LoneLineParts(segments, k, x);
    assert rest[0] == segments[k];
    ApplyOffsetWritesHead(rest, mid, off, j);
    ApplyOffsetAppend(pre, rest, layer, off);
  }

  /** A turn changes only the first feature carrying its line id. */
  lemma {:induction false} ApplyCallsFrame(layer: Layer, calls: seq<OffsetCall>, off: Offsetter, k: nat)
    requires LengthPreserving(off)
    requires k < |layer| && ApplyCalls(layer, calls, off).Some?
    requires forall c :: 0 <= c < |calls| ==> calls[c].lineId != layer[k].id
    ensures ApplyCalls(layer, calls, off).value[k] == layer[k]
    decreases |calls|
  {
    if calls != [] {
      var c := calls[0];
      var rep := ReplaceCoordinate(layer, c.segment, off(c.segment, c.distance), c.lineId).value;
      var next := Write(layer, rep);
      assert next[k] == layer[k];
      assert forall i :: 0 <= i < |calls[1..]| ==> calls[1..][i] == calls[i + 1];
      ApplyCallsFrame(next, calls[1..], off, k);
    }
  }

  /** `applyOffset` leaves alone every feature that no turn names. */
  lemma {:induction false} ApplyOffsetFrame(segments: seq<OverlapSegment>, layer: Layer, off: Offsetter, k: nat)
    requires LengthPreserving(off)
    requires forall i :: 0 <= i < |segments| ==> |segments[i].directions| <= |segments[i].crossingLines|
    requires k < |layer| && ApplyOffset(segments, layer, off).Some?
    requires !Crosses(segments, layer[k].id)
    ensures ApplyOffset(segments, layer, off).value[k] == layer[k]
    decreases |segments|
  {
    if segments != [] {
      var s := segments[0];
      var calls := OffsetCalls(s);
      forall c | 0 <= c < |calls|
        ensures calls[c].lineId != layer[k].id
      {
        OffsetCallsSpec(s, c);
        assert s.crossingLines[c] != layer[k].id;
      }
      var next := ApplyCalls(layer, calls, off).value;
      ApplyCallsFrame(layer, calls, off, k);
      assert forall i :: 0 <= i < |segments[1..]| ==> segments[1..][i] == segments[i + 1];
      ApplyOffsetFrame(segments[1..], next, off, k);
    }
  }

  /** The points of line `x` after the turns `calls`, starting from
      `coords`: every turn naming `x` splices its offset copy into the
      points as the earlier turns left them; the other turns leave them
      alone. */
  function SpliceCalls(calls: seq<OffsetCall>, x: int, coords: seq<Coord>, off: Offsetter): (r: seq<Coord>)
    requires LengthPreserving(off)
    ensures |r| == |coords|
    ensures (forall k :: 0 <= k < |calls| ==> calls[k].lineId != x) ==> r == coords
    decreases |calls|
  {
    if calls == [] then coords
    else
      var c := calls[0];
      assert forall k :: 0 <= k < |calls[1..]| ==> calls[1..][k] == calls[k + 1];
      var next := if c.lineId == x then ReplaceInLine(coords, c.segment, off(c.segment, c.distance)) else coords;
      SpliceCalls(calls[1..], x, next, off)
  }

  /** With one turn only naming `x`, the composed splices are that turn's
      single splice. */
  lemma {:induction false} SpliceCallsLone(calls: seq<OffsetCall>, x: int, coords: seq<Coord>, off: Offsetter, j: nat)
    requires LengthPreserving(off)
    requires j < |calls| && calls[j].lineId == x
    requires forall k :: 0 <= k < |calls| && k != j ==> calls[k].lineId != x
    ensures SpliceCalls(calls, x, coords, off)
            == ReplaceInLine(coords, calls[j].segment, off(calls[j].segment, calls[j].distance))
    decreases |calls|
  {
    assert forall k :: 0 <= k < |calls[1..]| ==> calls[1..][k] == calls[k + 1];
    if j > 0 {
      SpliceCallsLone(calls[1..], x, coords, off, j - 1);
    }
  }

  /** The points of line `x` after the inner loops of all the segments,
      one segment after the other. */
  function Spliced(segments: seq<OverlapSegment>, x: int, coords: seq<Coord>, off: Offsetter): (r: seq<Coord>)
    requires LengthPreserving(off)
    requires forall k :: 0 <= k < |segments| ==> |segments[k].directions| <= |segments[k].crossingLines|
    ensures |r| == |coords|
    ensures !Crosses(segments, x) ==> r == coords
    decreases |segments|
  {
    if segments == [] then coords
    else
      var calls := OffsetCalls(segments[0]);
      assert forall k :: 0 <= k < |segments[1..]| ==> segments[1..][k] == segments[k + 1];
      assert !Crosses(segments, x) ==> forall k :: 0 <= k < |calls| ==> calls[k].lineId != x by {
        if !Crosses(segments, x) {
          forall k | 0 <= k < |calls|
            ensures calls[k].lineId != x
          {
            OffsetCallsSpec(segments[0], k);
            assert segments[0].crossingLines[k] != x;
          }
        }
      }
      assert !Crosses(segments, x) ==> !Crosses(segments[1..], x) by {
        if Crosses(segments[1..], x) {
          var k, j :| 0 <= k < |segments[1..]| && 0 <= j < |segments[1..][k].directions|
                      && j < |segments[1..][k].crossingLines| && segments[1..][k].crossingLines[j] == x;
          assert segments[k + 1].crossingLines[j] == x;
        }
      }
      Spliced(segments[1..], x, SpliceCalls(calls, x, coords, off), off)
  }

  /** The inner loop of `applyOffset` composes the splices: the first
      feature carrying line `x` ends with `SpliceCalls` of its original
      points, however many turns name `x`. */
  lemma {:induction false} ApplyCallsComposed(layer: Layer, calls: seq<OffsetCall>, off: Offsetter, x: int)
    requires LengthPreserving(off)
    requires forall k :: 0 <= k < |calls| ==> HasId(layer, calls[k].lineId)
    requires HasId(layer, x)
    ensures ApplyCalls(layer, calls, off).Some?
    ensures var i := GetLineIndexById(layer, x);
            && 0 <= i
            && ApplyCalls(layer, calls, off).value[i].coords == SpliceCalls(calls, x, layer[i].coords, off)
    decreases |calls|
  {
    if calls != [] {
      var c := calls[0];
      var i := GetLineIndexById(layer, x);
      ApplyCallsStep(layer, calls, off);
      var rep := ReplaceCoordinate(layer, c.segment, off(c.segment, c.distance), c.lineId).value;
      var next := Write(layer, rep);
      WriteStep(layer, calls, off, rep);
      SameShapeIds(next, layer);
      SameShapeIndex(next, layer, x);
      assert next[i].coords
             == if c.lineId == x then ReplaceInLine(layer[i].coords, c.segment, off(c.segment, c.distance))
                else layer[i].coords;
      ApplyCallsComposed(next, calls[1..], off, x);
    }
  }

  /** `applyOffset` composes the splices of every segment: the first feature
      carrying line `x` ends with `Spliced` of its original points, however
      many turns of however many segments name `x`. */
  lemma {:induction false} ApplyOffsetComposed(segments: seq<OverlapSegment>, layer: Layer, off: Offsetter, x: int)
    requires LengthPreserving(off)
    requires forall k :: 0 <= k < |segments| ==> |segments[k].directions| <= |segments[k].crossingLines|
    requires TurnsNamed(segments, layer)
    requires HasId(layer, x)
    ensures ApplyOffset(segments, layer, off).Some?
    ensures var i := GetLineIndexById(layer, x);
            && 0 <= i
            && ApplyOffset(segments, layer, off).value[i].coords == Spliced(segments, x, layer[i].coords, off)
    decreases |segments|
  {
    if segments != [] {
      var calls := OffsetCalls(segments[0]);
      forall k | 0 <= k < |calls|
        ensures HasId(layer, calls[k].lineId)
      {
        OffsetCallsSpec(segments[0], k);
      }
      ApplyCallsComposed(layer, calls, off, x);
      var next := ApplyCalls(layer, calls, off).value;
      SameShapeIds(next, layer);
      SameShapeIndex(next, layer, x);
      assert forall k :: 0 <= k < |segments[1..]| ==> segments[1..][k] == segments[k + 1];
      ApplyOffsetComposed(segments[1..], next, off, x);
    }
  }

  // ---------------------------------------------------------------------
  // manageOverlappingLines
  // ---------------------------------------------------------------------

  /** `manageOverlappingLines`: the four steps in a row. Every crossing line
      is a feature of the layer, so no turn of `applyOffset` throws; the
      result has the input's features, in order, with the same ids, no more
      points than before and no NaN. */
  function ManageOverlappingLines(layer: Layer, ov: Overlapper, off: Offsetter): (r: Layer)
    requires SegmentsNonEmpty(ov) && LengthPreserving(off)
    ensures |r| == |layer|
    ensures forall k :: 0 <= k < |r| ==> r[k].id == layer[k].id && |r[k].coords| <= |layer[k].coords|
    ensures forall k, c :: 0 <= k < |r| && c in r[k].coords ==> IsClean(c)
  {
    var overlapMap := FindOverlappingLines(layer, ov);
    var overlapArray := SegmentsData(overlapMap, layer);
    assert forall k, j :: 0 <= k < |overlapArray| && 0 <= j < |overlapArray[k].directions|
                          ==> HasId(layer, overlapArray[k].crossingLines[j]) by {
      forall k, j | 0 <= k < |overlapArray| && 0 <= j < |overlapArray[k].directions|
        ensures HasId(layer, overlapArray[k].crossingLines[j])
      {
        assert overlapArray[k].crossingLines[j] in overlapMap[k].ids;
      }
    }
    var offsetLayer := ApplyOffset(overlapArray, layer, off);
    CleanLines(offsetLayer.value)
  }

  /** A line that shares no segment with any other keeps all its points
      except the NaN ones, in order. */
  lemma ManageOverlappingLinesFrame(layer: Layer, ov: Overlapper, off: Offsetter, k: nat)
    requires SegmentsNonEmpty(ov) && LengthPreserving(off)
    requires k < |layer| && layer[k].id !in AllIds(FindOverlappingLines(layer, ov))
    ensures ManageOverlappingLines(layer, ov, off)[k] == Feature(layer[k].id, CleanCoords(layer[k].coords))
  {
    var overlapMap := FindOverlappingLines(layer, ov);
    var overlapArray := SegmentsData(overlapMap, layer);
    ApplyOffsetFrame(overlapArray, layer, off, k);
  }

  /** With no overlapping pair the pipeline only removes NaN points. */
  lemma NoOverlapOnlyCleans(layer: Layer, ov: Overlapper, off: Offsetter)
    requires SegmentsNonEmpty(ov) && LengthPreserving(off)
    requires forall i, j :: 0 <= i < j < |layer| ==> ov(layer[i].coords, layer[j].coords) == []
    ensures ManageOverlappingLines(layer, ov, off) == CleanLines(layer)
  {
    var overlapMap := FindOverlappingLines(layer, ov);
    if overlapMap != [] {
      FindOverlappingLinesKeys(layer, ov, overlapMap[0].segment);
      assert false;
    }
  }

  /** The headline behaviour of the pipeline: crossing line `j` of a shared
      segment that no other segment's turns name gets, in place of its first
      run of the segment (as oriented by the in-place reversals so far), the
      copy offset by 3 metres per earlier line of the same direction, and
      then loses its NaN points. Direction `j` is paired with crossing line
      `j` as the source pairs them. */
  lemma ManageOverlappingLinesOffsets(layer: Layer, ov: Overlapper, off: Offsetter, k: nat, j: nat)
    requires SegmentsNonEmpty(ov) && LengthPreserving(off)
    requires k < |FindOverlappingLines(layer, ov)|
    requires |FindOverlappingLines(layer, ov)[k].segment| > 0
    requires j < |Directions(layer, FindOverlappingLines(layer, ov)[k].segment, FindOverlappingLines(layer, ov)[k].ids)|
    requires forall q, c :: 0 <= q < |FindOverlappingLines(layer, ov)| && q != k
                            && 0 <= c < |Directions(layer, FindOverlappingLines(layer, ov)[q].segment, FindOverlappingLines(layer, ov)[q].ids)|
                            ==> FindOverlappingLines(layer, ov)[q].ids[c] != FindOverlappingLines(layer, ov)[k].ids[j]
    ensures var e := FindOverlappingLines(layer, ov)[k];
            var dirs := Directions(layer, e.segment, e.ids);
            var seg := Oriented(e.segment, Count(dirs[..j + 1], false));
            var i := GetLineIndexById(layer, e.ids[j]);
            && 0 <= i < |layer|
            && ManageOverlappingLines(layer, ov, off)[i].coords
               == CleanCoords(ReplaceInLine(layer[i].coords, seg, off(seg, 3 * Count(dirs[..j], dirs[j]))))
  {
    var m := FindOverlappingLines(layer, ov);
    var segments := SegmentsData(m, layer);
    WellFormedEntries(m);
    forall q, c | 0 <= q < |segments| && 0 <= c < |segments[q].directions| && c < |segments[q].crossingLines|
      ensures HasId(layer, segments[q].crossingLines[c])
    {
      assert m[q].ids[c] in AllIds(m);
    }
    ApplyOffsetWrites(segments, layer, off, k, j);
    OffsetCallsSpec(segments[k], j);
  }

  /** What every line ends as, in general: the first feature carrying an id
      gets the splices of every turn naming that id, in the order the
      segments and their turns come, each into the points the earlier ones
      left, and then loses its NaN points. */
  lemma ManageOverlappingLinesComposed(layer: Layer, ov: Overlapper, off: Offsetter, i: nat)
    requires SegmentsNonEmpty(ov) && LengthPreserving(off)
    requires i < |layer| && GetLineIndexById(layer, layer[i].id) == i
    ensures ManageOverlappingLines(layer, ov, off)[i].coords
            == CleanCoords(Spliced(SegmentsData(FindOverlappingLines(layer, ov), layer), layer[i].id, layer[i].coords, off))
  {
    var m := FindOverlappingLines(layer, ov);
    var segments := SegmentsData(m, layer);
    forall q, c | 0 <= q < |segments| && 0 <= c < |segments[q].directions| && c < |segments[q].crossingLines|
      ensures HasId(layer, segments[q].crossingLines[c])
    {
      assert m[q].ids[c] in AllIds(m);
    }
    ApplyOffsetComposed(segments, layer, off, layer[i].id);
  }
}

=== FILE: overlapping_zoom.dfy ===
/** The zoom handler of the overlapping-line separation: below a zoom limit
    nothing happens; above it, the lines with a point in view are taken from
    a copy of the layer captured on the first call and run through the
    separation pipeline, and the result replaces the data of the
    `transitPaths` source.

    The layer manager, the event bus and `LngLatBounds.contains` are not part
    of this model: the source data is a parameter, the bounds test is a
    function, and the new source data is the result. */
module OverlappingZoom {
  import opened Common
  import opened OverlappingLines

  /** Zoom levels up to this one do not separate lines. */
  const ZoomLimit: real := 14.0

  /** `LngLatBounds.contains` for the bounds in view. */
  type Bounds = Coord -> bool

  /** Some point of the line is in view: the inner loop of the in-view
      filter, which stops at the first such point. */
  predicate AnyInBounds(coords: seq<Coord>, inBounds: Bounds)
  {
    exists j :: 0 <= j < |coords| && inBounds(coords[j])
  }

  /** The in-view filter of `manageZoom`: the features with a point in view,
      each at most once, in layer order. */
  function InView(features: Layer, inBounds: Bounds): (r: Layer)
    ensures |r| <= |features|
  {
    if features == [] then []
    else
      (if AnyInBounds(features[0].coords, inBounds) then [features[0]] else [])
        + InView(features[1..], inBounds)
  }

  /** The filter works piecewise, so it keeps layer order and includes each
      feature at most once. */
  lemma {:induction false} InViewAppend(a: Layer, b: Layer, inBounds: Bounds)
    ensures InView(a + b, inBounds) == InView(a, inBounds) + InView(b, inBounds)
  {
    if a == [] {
      assert a + b == b;
    } else {
      assert (a + b)[0] == a[0];
      assert (a + b)[1..] == a[1..] + b;
      InViewAppend(a[1..], b, inBounds);
      var head := if AnyInBounds(a[0].coords, inBounds) then [a[0]] else [];
      assert InView(a + b, inBounds) == head + (InView(a[1..], inBounds) + InView(b, inBounds));
      assert InView(a, inBounds) == head + InView(a[1..], inBounds);
    }
  }

  /** The filter keeps exactly the features of the layer with a point in
      view. */
  lemma {:induction false} InViewMembers(features: Layer, inBounds: Bounds)
    ensures forall f :: f in InView(features, inBounds) <==> f in features && AnyInBounds(f.coords, inBounds)
    decreases |features|
  {
    if features != [] {
      InViewMembers(features[1..], inBounds);
      assert features == [features[0]] + features[1..];
    }
  }

  /** What one call leaves behind: the original layer as it stands
      afterwards, and the new data of the `transitPaths` source when the
      call replaced it. */
  datatype ZoomResult = ZoomResult(originalLayer: Layer, shown: Option<Layer>)

  /** The original layer after the capture step: the source data on the
      first call, the earlier capture afterwards. */
  function Captured(originalLayer: Option<Layer>, sourceData: Layer): Layer
  {
    if originalLayer.Some? then originalLayer.value else sourceData
  }

  /** `manageZoom` as evidently intended: the captured layer is never
      changed, so every call separates the lines in view afresh. At or below
      the zoom limit nothing is shown anew; above it the shown layer has one
      feature per in-view feature, with its id, and no NaN point. */
  function ManageZoom(originalLayer: Option<Layer>, sourceData: Layer, inBounds: Bounds, zoom: real,
                      ov: Overlapper, off: Offsetter): (r: ZoomResult)
    requires SegmentsNonEmpty(ov) && LengthPreserving(off)
    ensures r.originalLayer == Captured(originalLayer, sourceData)
    ensures r.shown.None? <==> zoom <= ZoomLimit
    ensures zoom > ZoomLimit ==> r.shown == Some(ManageOverlappingLines(InView(r.originalLayer, inBounds), ov, off))
    ensures r.shown.Some? ==>
              var view := InView(r.originalLayer, inBounds);
              && |r.shown.value| == |view|
              && (forall k :: 0 <= k < |view| ==> r.shown.value[k].id == view[k].id)
              && (forall k, c :: 0 <= k < |view| && c in r.shown.value[k].coords ==> IsClean(c))
  {
    var captured := Captured(originalLayer, sourceData);
    if zoom <= ZoomLimit then ZoomResult(captured, None)
    else ZoomResult(captured, Some(ManageOverlappingLines(InView(captured, inBounds), ov, off)))
  }

  /** With the original layer left intact, what a call shows does not depend
      on the calls before it: it is what the first call on the captured
      layer would show. */
  lemma ManageZoomHistoryIndependent(first: ZoomResult, sourceData: Layer, inBounds: Bounds, zoom: real,
                                     ov: Overlapper, off: Offsetter, original: Option<Layer>, firstData: Layer,
                                     firstBounds: Bounds, firstZoom: real)
    requires SegmentsNonEmpty(ov) && LengthPreserving(off)
    requires first == ManageZoom(original, firstData, firstBounds, firstZoom, ov, off)
    ensures ManageZoom(Some(first.originalLayer), sourceData, inBounds, zoom, ov, off)
            == ManageZoom(None, Captured(original, firstData), inBounds, zoom, ov, off)
  {
  }

  /** Below the zoom limit a call changes nothing but the capture. */
  lemma ManageZoomBelowLimit(originalLayer: Option<Layer>, sourceData: Layer, inBounds: Bounds, zoom: real,
                             ov: Overlapper, off: Offsetter)
    requires SegmentsNonEmpty(ov) && LengthPreserving(off)
    requires zoom <= ZoomLimit
    ensures ManageZoom(originalLayer, sourceData, inBounds, zoom, ov, off)
            == ZoomResult(Captured(originalLayer, sourceData), None)
  {
  }

  // ---------------------------------------------------------------------
  // The code as written
  // ---------------------------------------------------------------------

  /** The position in the in-view collection of the feature at index `k`:
      one for every in-view feature before it. */
  function ViewIndex(features: Layer, k: nat, inBounds: Bounds): nat
    requires k <= |features|
    decreases k
  {
    if k == 0 then 0
    else (if AnyInBounds(features[0].coords, inBounds) then 1 else 0) + ViewIndex(features[1..], k - 1, inBounds)
  }

  /** The position is the number of in-view features before index `k`. */
  lemma {:induction false} ViewIndexCounts(features: Layer, k: nat, inBounds: Bounds)
    requires k <= |features|
    ensures ViewIndex(features, k, inBounds) == |InView(features[..k], inBounds)|
    decreases k
  {
    if k == 0 {
      assert features[..0] == [];
    } else {
      ViewIndexCounts(features[1..], k - 1, inBounds);
      assert features[..k] == [features[0]] + features[1..][..k - 1];
      InViewAppend([features[0]], features[1..][..k - 1], inBounds);
      assert [features[0]][1..] == [];
    }
  }

  /** The in-view features pushed into `linesInView` are the original
      layer's feature objects, not copies, so every coordinate array the
      pipeline assigns to them lands in the original layer as well. */
  function WriteBack(features: Layer, inBounds: Bounds, processed: Layer): (r: Layer)
    requires |processed| == |InView(features, inBounds)|
    ensures |r| == |features|
    ensures forall k :: 0 <= k < |features| ==> r[k].id == features[k].id
    ensures forall k :: 0 <= k < |features| && !AnyInBounds(features[k].coords, inBounds) ==> r[k] == features[k]
    decreases |features|
  {
    if features == [] then []
    else if AnyInBounds(features[0].coords, inBounds) then
      var rest := WriteBack(features[1..], inBounds, processed[1..]);
      assert forall k :: 1 <= k < |features| ==> features[1..][k - 1] == features[k];
      [Feature(features[0].id, processed[0].coords)] + rest
    else
      var rest := WriteBack(features[1..], inBounds, processed);
      assert forall k :: 1 <= k < |features| ==> features[1..][k - 1] == features[k];
      [features[0]] + rest
  }

  /** Each in-view feature of the original layer comes out of the write-back
      with the coordinates of the processed feature at its position in the
      in-view collection. */
  lemma {:induction false} WriteBackInView(features: Layer, inBounds: Bounds, processed: Layer, k: nat)
    requires |processed| == |InView(features, inBounds)|
    requires k < |features| && AnyInBounds(features[k].coords, inBounds)
    ensures ViewIndex(features, k, inBounds) < |processed|
    ensures WriteBack(features, inBounds, processed)[k].coords == processed[ViewIndex(features, k, inBounds)].coords
    decreases |features|, 1
  {
    if k == 0 {
    } else if AnyInBounds(features[0].coords, inBounds) {
      WriteBackInViewAfterShown(features, inBounds, processed, k);
    } else {
      WriteBackInViewAfterHidden(features, inBounds, processed, k);
    }
  }

  /** `WriteBackInView` past a first feature that is in view: that feature
      takes the first processed feature, the rest take the others. */
  lemma {:induction false} WriteBackInViewAfterShown(features: Layer, inBounds: Bounds, processed: Layer, k: nat)
    requires |processed| == |InView(features, inBounds)|
    requires 1 <= k < |features| && AnyInBounds(features[k].coords, inBounds)
    requires AnyInBounds(features[0].coords, inBounds)
    ensures ViewIndex(features, k, inBounds) < |processed|
    ensures WriteBack(features, inBounds, processed)[k].coords == processed[ViewIndex(features, k, inBounds)].coords
    decreases |features|, 0
  {
    assert features[1..][k - 1] == features[k];
    var v := ViewIndex(features[1..], k - 1, inBounds);
    var w := WriteBack(features, inBounds, processed);
    assert |processed[1..]| == |InView(features[1..], inBounds)|
           && WriteBack(features, inBounds, processed)[k] == WriteBack(features[1..], inBounds, processed[1..])[k - 1] by {
      WriteBackStep(features, inBounds, processed, k);
    }
    assert v < |processed[1..]|
           && WriteBack(features[1..], inBounds, processed[1..])[k - 1].coords == processed[1..][v].coords by {
      WriteBackInView(features[1..], inBounds, processed[1..], k - 1);
    }
    assert processed[1..][v] == processed[v + 1];
    assert ViewIndex(features, k, inBounds) == v + 1;
  }

  /** `WriteBackInView` past a first feature that is out of view: the rest
      take all the processed features. */
  lemma {:induction false} WriteBackInViewAfterHidden(features: Layer, inBounds: Bounds, processed: Layer, k: nat)
    requires |processed| == |InView(features, inBounds)|
    requires 1 <= k < |features| && AnyInBounds(features[k].coords, inBounds)
    requires !AnyInBounds(features[0].coords, inBounds)
    ensures ViewIndex(features, k, inBounds) < |processed|
    ensures WriteBack(features, inBounds, processed)[k].coords == processed[ViewIndex(features, k, inBounds)].coords
    decreases |features|, 0
  {
    assert features[1..][k - 1] == features[k];
    var v := ViewIndex(features[1..], k - 1, inBounds);
    assert |processed| == |InView(features[1..], inBounds)|
           && WriteBack(features, inBounds, processed)[k] == WriteBack(features[1..], inBounds, processed)[k - 1] by {
      WriteBackStep(features, inBounds, processed, k);
    }
    assert v < |processed|
           && WriteBack(features[1..], inBounds, processed)[k - 1].coords == processed[v].coords by {
      WriteBackInView(features[1..], inBounds, processed, k - 1);
    }
    assert ViewIndex(features, k, inBounds) == v;
  }

  /** Past the first feature, the write-back is that of the remaining
      features with what is left of the processed collection. */
  lemma WriteBackStep(features: Layer, inBounds: Bounds, processed: Layer, k: nat)
    requires |processed| == |InView(features, inBounds)|
    requires 1 <= k < |features|
    ensures var rest := if AnyInBounds(features[0].coords, inBounds) then processed[1..] else processed;
            && |rest| == |InView(features[1..], inBounds)|
            && WriteBack(features, inBounds, processed)[k] == WriteBack(features[1..], inBounds, rest)[k - 1]
  {
  }

  /** `manageZoom` as written: the same shown layer as `ManageZoom`, but the
      original layer comes out of the call carrying the separated and
      cleaned coordinates of every feature that was in view. */
  function ManageZoomAsWritten(originalLayer: Option<Layer>, sourceData: Layer, inBounds: Bounds, zoom: real,
                               ov: Overlapper, off: Offsetter): (r: ZoomResult)
    requires SegmentsNonEmpty(ov) && LengthPreserving(off)
    ensures r.shown == ManageZoom(originalLayer, sourceData, inBounds, zoom, ov, off).shown
    ensures zoom <= ZoomLimit ==> r.originalLayer == Captured(originalLayer, sourceData)
    ensures zoom > ZoomLimit ==> r.originalLayer == WriteBack(Captured(originalLayer, sourceData), inBounds, r.shown.value)
  {
    var captured := Captured(originalLayer, sourceData);
    if zoom <= ZoomLimit then ZoomResult(captured, None)
    else
      var shown := ManageOverlappingLines(InView(captured, inBounds), ov, off);
      ZoomResult(WriteBack(captured, inBounds, shown), Some(shown))
  }

  // ---------------------------------------------------------------------
  // A pair of calls on which the two differ
  // ---------------------------------------------------------------------

  const P: Coord := Coord(Num(0.0), Num(0.0))
  const Q: Coord := Coord(Num(1.0), Num(0.0))
  const R: Coord := Coord(Num(2.0), Num(0.0))
  const S: Coord := Coord(Num(2.0), Num(1.0))

  /** A view that holds every point. */
  predicate Everywhere(c: Coord)
  {
    true
  }

  /** A view that holds only the end of the second line. */
  predicate OnlyS(c: Coord)
  {
    c == S
  }

  /** Two lines leaving the same stop along the same first leg. */
  const Branching: Layer := [Feature(1, [P, Q, R]), Feature(2, [P, Q, S])]

  /** An overlap test that finds the shared first leg of two lines. */
  function SharedStart(a: seq<Coord>, b: seq<Coord>): (r: seq<seq<Coord>>)
    ensures forall s :: s in r ==> |s| == 2
  {
    if |a| >= 2 && |b| >= 2 && a[..2] == b[..2] then [a[..2]] else []
  }

  /** A point moved north by `d`. */
  function MoveNorth(c: Coord, d: int): (r: Coord)
    ensures r.lng == c.lng
  {
    Coord(c.lng, if c.lat.Num? then Num(c.lat.v + d as real) else NaN)
  }

  /** An offset that moves every point of the line north by the distance. */
  function ShiftNorth(line: seq<Coord>, d: int): (r: seq<Coord>)
    ensures |r| == |line|
    ensures forall i :: 0 <= i < |line| ==> r[i] == MoveNorth(line[i], d)
  {
    seq(|line|, i requires 0 <= i < |line| => MoveNorth(line[i], d))
  }

  /** The loops of `findOverlapingLines` visit one pair for two lines. */
  lemma PairsOfTwo()
    ensures Pairs(2) == [(0, 1)]
  {
    assert PairsFrom(2, 0, 2) == PairsFrom(2, 1, 2) == [];
  }

  /** The shared first leg is the only key of the overlap map. */
  lemma BranchingOverlapMap()
    ensures FindOverlappingLines(Branching, SharedStart) == [Overlap([P, Q], [1, 2])]
  {
    PairsOfTwo();
    assert [P, Q, R][..2] == [P, Q, S][..2] == [P, Q];
    assert SharedStart(Branching[0].coords, Branching[1].coords) == [[P, Q]];
    assert Insert(Insert([], 1), 2) == [1, 2];
    assert AddSegment([], [P, Q], 1, 2) == [Overlap([P, Q], [1, 2])];
    var m := AddSegments([], [[P, Q]], 1, 2);
    assert m == AddSegments([Overlap([P, Q], [1, 2])], [], 1, 2);
    assert FoldPairs(Branching, SharedStart, [(0, 1)], []) == FoldPairs(Branching, SharedStart, [], m);
  }

  /** Both lines run along the leg in its own direction. */
  lemma BranchingDirections()
    ensures Directions(Branching, [P, Q], [1, 2]) == [true, true]
  {
    assert GetLineById(Branching, 1) == [P, Q, R];
    assert GetLineById(Branching, 2) == [P, Q, S];
    assert Classify([P, Q, R], [P, Q]) == Some(true);
    assert Classify([P, Q, S], [P, Q]) == Some(true);
  }

  /** The first line keeps the leg, the second is moved by 3 metres. */
  lemma BranchingCalls()
    ensures OffsetCalls(OverlapSegment([P, Q], [1, 2], [true, true]))
            == [OffsetCall(1, [P, Q], 0), OffsetCall(2, [P, Q], 3)]
  {
  }

  /** A line matched at its start gets the offset points there. */
  lemma ReplaceAtStart(line: seq<Coord>, run: seq<Coord>, offset: seq<Coord>)
    requires |offset| == |run| <= |line| && line[..|run|] == run
    requires forall c :: c in run ==> IsClean(c)
    ensures ReplaceInLine(line, run, offset) == offset + line[|run|..]
  {
    forall k | 0 <= k < |run|
      ensures SameCoord(line[k], run[k])
    {
      assert line[k] == line[..|run|][k];
      assert run[k] in run;
    }
    assert Matches(line, run, 0);
    if line != [] {
      assert FirstMatchFrom(line, run, 0) == Some(0);
      assert line[..0] + offset + line[|run|..] == offset + line[|run|..];
    }
  }

  /** The first turn finds the first line and leaves it as it is. */
  lemma BranchingFirstTurn()
    ensures ReplaceCoordinate(Branching, [P, Q], ShiftNorth([P, Q], 0), 1) == Some(Replaced(0, [P, Q, R]))
  {
    assert ShiftNorth([P, Q], 0) == [P, Q];
    ReplaceAtStart([P, Q, R], [P, Q], [P, Q]);
    assert [P, Q] + [P, Q, R][2..] == [P, Q, R];
    assert GetLineById(Branching, 1) == [P, Q, R];
  }

  /** The second turn moves the first two points of the second line. */
  lemma BranchingSecondTurn()
    ensures ReplaceCoordinate(Branching, [P, Q], ShiftNorth([P, Q], 3), 2)
            == Some(Replaced(1, [MoveNorth(P, 3), MoveNorth(Q, 3), S]))
  {
    var moved := [MoveNorth(P, 3), MoveNorth(Q, 3)];
    assert ShiftNorth([P, Q], 3) == moved;
    ReplaceAtStart([P, Q, S], [P, Q], moved);
    assert moved + [P, Q, S][2..] == [MoveNorth(P, 3), MoveNorth(Q, 3), S];
    assert GetLineById(Branching, 2) == [P, Q, S];
  }

  /** The offset turns of the one segment. */
  lemma BranchingApplied()
    ensures LengthPreserving(ShiftNorth)
    ensures ApplyCalls(Branching, [OffsetCall(1, [P, Q], 0), OffsetCall(2, [P, Q], 3)], ShiftNorth)
            == Some([Feature(1, [P, Q, R]), Feature(2, [MoveNorth(P, 3), MoveNorth(Q, 3), S])])
  {
    FirstCallStep();
    SecondCallStep();
  }

  /** The first turn of the segment leaves the layer as it is. */
  lemma FirstCallStep()
    ensures LengthPreserving(ShiftNorth)
    ensures ApplyCalls(Branching, [OffsetCall(1, [P, Q], 0), OffsetCall(2, [P, Q], 3)], ShiftNorth)
            == ApplyCalls(Branching, [OffsetCall(2, [P, Q], 3)], ShiftNorth)
  {
    var calls := [OffsetCall(1, [P, Q], 0), OffsetCall(2, [P, Q], 3)];
    BranchingFirstTurn();
    assert Write(Branching, Replaced(0, [P, Q, R])) == Branching;
    assert calls[1..] == [OffsetCall(2, [P, Q], 3)];
  }

  /** The second turn moves the second line. */
  lemma SecondCallStep()
    ensures LengthPreserving(ShiftNorth)
    ensures ApplyCalls(Branching, [OffsetCall(2, [P, Q], 3)], ShiftNorth)
            == Some([Feature(1, [P, Q, R]), Feature(2, [MoveNorth(P, 3), MoveNorth(Q, 3), S])])
  {
    var calls := [OffsetCall(2, [P, Q], 3)];
    var mid := [Feature(1, [P, Q, R]), Feature(2, [MoveNorth(P, 3), MoveNorth(Q, 3), S])];
    BranchingSecondTurn();
    assert Write(Branching, Replaced(1, [MoveNorth(P, 3), MoveNorth(Q, 3), S])) == mid;
    assert calls[1..] == [];
  }

  /** The overlap test and the offset meet the pipeline's requirements. */
  lemma ExampleParameters()
    ensures SegmentsNonEmpty(SharedStart) && LengthPreserving(ShiftNorth)
  {
  }

  /** The one element of `overlapArray`. */
  lemma BranchingSegments()
    ensures SegmentsData(FindOverlappingLines(Branching, SharedStart), Branching)
            == [OverlapSegment([P, Q], [1, 2], [true, true])]
  {
    BranchingOverlapMap();
    BranchingDirections();
  }

  /** `applyOffset` on the one segment. */
  lemma BranchingOffset()
    ensures ApplyOffset([OverlapSegment([P, Q], [1, 2], [true, true])], Branching, ShiftNorth)
            == Some([Feature(1, [P, Q, R]), Feature(2, [MoveNorth(P, 3), MoveNorth(Q, 3), S])])
  {
    ExampleParameters();
    var segs := [OverlapSegment([P, Q], [1, 2], [true, true])];
    var mid := [Feature(1, [P, Q, R]), Feature(2, [MoveNorth(P, 3), MoveNorth(Q, 3), S])];
    var calls := OffsetCalls(segs[0]);
    assert calls == [OffsetCall(1, [P, Q], 0), OffsetCall(2, [P, Q], 3)] by {
      BranchingCalls();
    }
    assert ApplyCalls(Branching, calls, ShiftNorth) == Some(mid) by {
      BranchingApplied();
    }
    assert segs[1..] == [];
    assert ApplyOffset(segs, Branching, ShiftNorth) == ApplyOffset([], mid, ShiftNorth);
  }

  /** The first call, above the zoom limit with both lines in view,
      separates them: the second line is moved off the shared leg. */
  lemma BranchingSeparated()
    ensures SegmentsNonEmpty(SharedStart) && LengthPreserving(ShiftNorth)
    ensures ManageOverlappingLines(Branching, SharedStart, ShiftNorth)
            == [Feature(1, [P, Q, R]), Feature(2, [MoveNorth(P, 3), MoveNorth(Q, 3), S])]
  {
    ExampleParameters();
    BranchingSegments();
    BranchingOffset();
    BranchingClean();
  }

  /** The separated lines hold no NaN point. */
  lemma BranchingClean()
    ensures var mid := [Feature(1, [P, Q, R]), Feature(2, [MoveNorth(P, 3), MoveNorth(Q, 3), S])];
            CleanLines(mid) == mid
  {
    CleanCoordsUnchangedIff([P, Q, R]);
    CleanCoordsUnchangedIff([MoveNorth(P, 3), MoveNorth(Q, 3), S]);
  }

  /** The source as written, on two calls: the first shows both lines in
      view; the second, with only the end of the second line in view, shows
      that line still moved north although its partner is no longer drawn,
      where a first call with the same view shows it in place. */
  lemma ManageZoomAsWrittenKeepsStaleOffset()
    ensures SegmentsNonEmpty(SharedStart) && LengthPreserving(ShiftNorth)
    ensures var first := ManageZoomAsWritten(None, Branching, Everywhere, 15.0, SharedStart, ShiftNorth);
            var direct := ManageZoomAsWritten(None, Branching, OnlyS, 15.0, SharedStart, ShiftNorth);
            && ManageZoomAsWritten(Some(first.originalLayer), [], OnlyS, 15.0, SharedStart, ShiftNorth).shown
               == Some([Feature(2, [MoveNorth(P, 3), MoveNorth(Q, 3), S])])
            && direct.shown == Some([Feature(2, [P, Q, S])])
  {
    SecondCallStale();
    DirectCallInPlace();
  }

  /** The second call sees the moved line in the original layer. */
  lemma SecondCallStale()
    ensures SegmentsNonEmpty(SharedStart) && LengthPreserving(ShiftNorth)
    ensures var first := ManageZoomAsWritten(None, Branching, Everywhere, 15.0, SharedStart, ShiftNorth);
            ManageZoomAsWritten(Some(first.originalLayer), [], OnlyS, 15.0, SharedStart, ShiftNorth).shown
            == Some([Feature(2, [MoveNorth(P, 3), MoveNorth(Q, 3), S])])
  {
    ExampleParameters();
    var moved := Feature(2, [MoveNorth(P, 3), MoveNorth(Q, 3), S]);
    var separated := [Feature(1, [P, Q, R]), moved];
    FirstCallWritesBack();
    OnlyEndInView(separated);
    SingleLineKept(moved);
    assert ManageZoomAsWritten(Some(separated), [], OnlyS, 15.0, SharedStart, ShiftNorth).shown
           == Some(ManageOverlappingLines([moved], SharedStart, ShiftNorth));
  }

  /** A first call with the same view shows the line in place. */
  lemma DirectCallInPlace()
    ensures SegmentsNonEmpty(SharedStart) && LengthPreserving(ShiftNorth)
    ensures ManageZoomAsWritten(None, Branching, OnlyS, 15.0, SharedStart, ShiftNorth).shown
            == Some([Feature(2, [P, Q, S])])
  {
    ExampleParameters();
    OnlyEndInView(Branching);
    SingleLineKept(Feature(2, [P, Q, S]));
  }

  /** With only the end of the second line in view, the in-view filter
      keeps only the second line. */
  lemma OnlyEndInView(layer: Layer)
    requires |layer| == 2 && layer[0].coords == [P, Q, R] && |layer[1].coords| == 3 && layer[1].coords[2] == S
    ensures InView(layer, OnlyS) == [layer[1]]
  {
    assert AnyInBounds(layer[1].coords, OnlyS) by { assert OnlyS(layer[1].coords[2]); }
    assert !AnyInBounds([P, Q, R], OnlyS);
    assert InView(layer[1..], OnlyS) == [layer[1]] by {
      assert InView(layer[1..][1..], OnlyS) == [];
    }
  }

  /** A lone line with no NaN point goes through the pipeline unchanged. */
  lemma SingleLineKept(f: Feature)
    requires forall c :: c in f.coords ==> IsClean(c)
    ensures SegmentsNonEmpty(SharedStart) && LengthPreserving(ShiftNorth)
    ensures ManageOverlappingLines([f], SharedStart, ShiftNorth) == [f]
  {
    ExampleParameters();
    NoOverlapOnlyCleans([f], SharedStart, ShiftNorth);
    CleanCoordsUnchangedIff(f.coords);
    assert CleanLines([f]) == [f];
  }

  /** After the first call with everything in view, the original layer
      holds the separated lines. */
  lemma FirstCallWritesBack()
    ensures SegmentsNonEmpty(SharedStart) && LengthPreserving(ShiftNorth)
    ensures ManageZoomAsWritten(None, Branching, Everywhere, 15.0, SharedStart, ShiftNorth).originalLayer
            == [Feature(1, [P, Q, R]), Feature(2, [MoveNorth(P, 3), MoveNorth(Q, 3), S])]
  {
    BranchingSeparated();
    BranchingAllInView();
    BranchingWriteBack();
  }

  /** With both lines in view, the write-back puts the separated lines in
      place of the original ones. */
  lemma BranchingWriteBack()
    ensures |InView(Branching, Everywhere)| == 2
    ensures var mid := [Feature(1, [P, Q, R]), Feature(2, [MoveNorth(P, 3), MoveNorth(Q, 3), S])];
            WriteBack(Branching, Everywhere, mid) == mid
  {
    BranchingAllInView();
    var mid := [Feature(1, [P, Q, R]), Feature(2, [MoveNorth(P, 3), MoveNorth(Q, 3), S])];
    assert WriteBack(Branching[1..], Everywhere, mid[1..]) == mid[1..] by {
      assert WriteBack(Branching[1..][1..], Everywhere, mid[1..][1..]) == [];
    }
  }

  /** Both lines are in a view that holds every point. */
  lemma BranchingAllInView()
    ensures InView(Branching, Everywhere) == Branching
  {
    assert AnyInBounds([P, Q, R], Everywhere) by { assert Everywhere([P, Q, R][0]); }
    assert AnyInBounds([P, Q, S], Everywhere) by { assert Everywhere([P, Q, S][0]); }
    assert InView(Branching[1..], Everywhere) == Branching[1..] by {
      assert InView(Branching[1..][1..], Everywhere) == [];
    }
  }
}

=== FILE: path_layer_events.dfy ===
/** The map event handlers of the path layers, active in every section:
    hovering a transit path highlights it and shows a popup, and the
    selected-path and waypoint layers show a pointer cursor.

    The state these handlers keep on the map object is the hovered path
    (`_hoverPathIntegerId`, `_hoverPathId`, `_hoverPathSource`) and the
    cursor, reduced to whether it is the pointer. Calls to the map
    (`setFeatureState`) and events emitted for popups are the handler's
    effects, in order. */
module PathLayerEvents {
  import opened Common
  import opened MapEvents

  /** Below this zoom level paths are not hovered. */
  const HoverZoom: real := 12.0

  const PathsSource: string := "transitPaths"

  /** The hovered path as recorded on the map: the feature's integer id, the
      path's id and the source it was hovered in. */
  datatype Hover = Hover(integerId: Option<int>, pathId: Option<string>, source: Option<string>)

  const NoHover: Hover := Hover(None, None, None)

  datatype View = View(hover: Hover, pointer: bool)

  /** A feature of the `transitPaths` layer: its feature id and the `id`
      property of the path. */
  datatype PathFeature = PathFeature(id: Option<int>, pathId: Option<string>)

  /** What a handler does outside its own state. */
  datatype Effect =
    | RemovePopup(pathId: Option<string>)
    | SetFeatureState(source: Option<string>, id: Option<int>, size: int, hovered: bool)
    | AddPopup(pathId: Option<string>, pos: LngLat)

  datatype PathStep = PathStep(view: View, effects: seq<Effect>)

  /** JavaScript truthiness of the recorded integer id: `0` and a missing id
      are false. */
  predicate Truthy(id: Option<int>)
  {
    id.Some? && id.value != 0
  }

  /** `unhoverPath` and the feature state reset of the previous path, done
      only when the recorded integer id is truthy. */
  function Unhover(h: Hover): (r: seq<Effect>)
    ensures r == [] <==> !Truthy(h.integerId)
    ensures r != [] ==> r == [RemovePopup(h.pathId), SetFeatureState(h.source, h.integerId, 2, false)]
  {
    if Truthy(h.integerId) then [RemovePopup(h.pathId), SetFeatureState(h.source, h.integerId, 2, false)] else []
  }

  /** `onTransitPathsMouseEnter`: at zoom 12 or more, with a feature under
      the pointer, the previous path is unhovered, the first feature is
      highlighted in the `transitPaths` source and recorded as hovered, and
      its popup is shown. Otherwise nothing happens. */
  function OnPathsEnter(v: View, zoom: real, features: Option<seq<PathFeature>>, pos: LngLat): (r: PathStep)
    ensures zoom < HoverZoom || features.None? || features.value == [] <==> r == PathStep(v, [])
    ensures r != PathStep(v, []) ==>
              var f := features.value[0];
              && r.view == View(Hover(f.id, f.pathId, Some(PathsSource)), true)
              && r.effects == Unhover(v.hover) + [SetFeatureState(Some(PathsSource), f.id, 3, true), AddPopup(f.pathId, pos)]
  {
    if zoom >= HoverZoom && features.Some? && features.value != [] then
      var f := features.value[0];
      PathStep(View(Hover(f.id, f.pathId, Some(PathsSource)), true),
               Unhover(v.hover) + [SetFeatureState(Some(PathsSource), f.id, 3, true), AddPopup(f.pathId, pos)])
    else PathStep(v, [])
  }

  /** `onTransitPathsMouseLeave`: always clears the cursor and the recorded
      path, unhovering it first when its integer id is truthy. */
  function OnPathsLeave(v: View): (r: PathStep)
    ensures r.view == View(NoHover, false)
    ensures r.effects == Unhover(v.hover)
  {
    PathStep(View(NoHover, false), Unhover(v.hover))
  }

  /** The mouse-enter handler of the selected-path and waypoint layers: the
      pointer cursor when a feature is under the pointer. */
  function OnPointerLayerEnter(v: View, features: Option<seq<PathFeature>>): (r: PathStep)
    ensures r.effects == [] && r.view.hover == v.hover
    ensures r.view.pointer == (v.pointer || (features.Some? && features.value != []))
  {
    if features.Some? && features.value != [] then PathStep(View(v.hover, true), []) else PathStep(v, [])
  }

  /** The mouse-leave handler of the selected-path and waypoint layers. */
  function OnPointerLayerLeave(v: View): (r: PathStep)
    ensures r == PathStep(View(v.hover, false), [])
  {
    PathStep(View(v.hover, false), [])
  }

  // ---------------------------------------------------------------------
  // Registration
  // ---------------------------------------------------------------------

  datatype Handler = SelectedEnter | SelectedLeave | WaypointEnter | WaypointLeave | PathsEnter | PathsLeave

  /** `nodeLayerEventDescriptors`: no condition, so active in every
      section. */
  const Descriptors: seq<Descriptor<Handler>> :=
    [Descriptor(LayerTarget("transitPathsSelected"), "mouseenter", None, SelectedEnter),
     Descriptor(LayerTarget("transitPathsSelected"), "mouseleave", None, SelectedLeave),
     Descriptor(LayerTarget("transitPathWaypoints"), "mouseenter", None, WaypointEnter),
     Descriptor(LayerTarget("transitPathWaypoints"), "mouseleave", None, WaypointLeave),
     Descriptor(LayerTarget(PathsSource), "mouseenter", None, PathsEnter),
     Descriptor(LayerTarget(PathsSource), "mouseleave", None, PathsLeave)]

  /** In every section, an event reaches exactly the one handler registered
      for it, and no handler when none is. */
  lemma DescriptorsEverywhere(activeSection: string, target: Target, eventName: string)
    ensures forall k :: 0 <= k < |Descriptors| && RegisteredFor(Descriptors[k], target, eventName) ==>
              Handlers(Descriptors, target, eventName, activeSection) == [Descriptors[k].handler]
    ensures (forall k :: 0 <= k < |Descriptors| ==> !RegisteredFor(Descriptors[k], target, eventName)) ==>
              Handlers(Descriptors, target, eventName, activeSection) == []
  {
    forall k | 0 <= k < |Descriptors| && RegisteredFor(Descriptors[k], target, eventName)
      ensures Handlers(Descriptors, target, eventName, activeSection) == [Descriptors[k].handler]
    {
      HandlersSingle(Descriptors, target, eventName, activeSection, k);
    }
    if forall k :: 0 <= k < |Descriptors| ==> !RegisteredFor(Descriptors[k], target, eventName) {
      HandlersNone(Descriptors, target, eventName, activeSection);
    }
  }

  // ---------------------------------------------------------------------
  // Sequences of events
  // ---------------------------------------------------------------------

  datatype Input =
    | EnterPaths(zoom: real, features: Option<seq<PathFeature>>, pos: LngLat)
    | LeavePaths
    | EnterPointerLayer(features: Option<seq<PathFeature>>)
    | LeavePointerLayer

  function Handle(v: View, input: Input): PathStep
  {
    match input
    case EnterPaths(zoom, features, pos) => OnPathsEnter(v, zoom, features, pos)
    case LeavePaths => OnPathsLeave(v)
    case EnterPointerLayer(features) => OnPointerLayerEnter(v, features)
    case LeavePointerLayer => OnPointerLayerLeave(v)
  }

  function Run(v: View, inputs: seq<Input>): PathStep
    decreases |inputs|
  {
    if inputs == [] then PathStep(v, [])
    else
      var first := Handle(v, inputs[0]);
      var rest := Run(first.view, inputs[1..]);
      PathStep(rest.view, first.effects + rest.effects)
  }

  /** Leaving a path that was entered unhovers that very path, when its id
      is truthy, and leaves nothing recorded. */
  lemma EnterThenLeave(v: View, zoom: real, f: PathFeature, others: seq<PathFeature>, pos: LngLat)
    requires zoom >= HoverZoom
    ensures var r := Run(v, [EnterPaths(zoom, Some([f] + others), pos), LeavePaths]);
            && r.view == View(NoHover, false)
            && r.effects == Unhover(v.hover)
                            + [SetFeatureState(Some(PathsSource), f.id, 3, true), AddPopup(f.pathId, pos)]
                            + (if Truthy(f.id) then [RemovePopup(f.pathId), SetFeatureState(Some(PathsSource), f.id, 2, false)]
                               else [])
  {
    var inputs := [EnterPaths(zoom, Some([f] + others), pos), LeavePaths];
    assert ([f] + others)[0] == f;
    var enter := OnPathsEnter(v, zoom, Some([f] + others), pos);
    assert enter.view.hover == Hover(f.id, f.pathId, Some(PathsSource));
    var leave := OnPathsLeave(enter.view);
    assert inputs[1..] == [LeavePaths];
    assert Run(enter.view, [LeavePaths]) == PathStep(leave.view, leave.effects + []) by {
      assert [LeavePaths][1..] == [];
    }
    assert leave.effects + [] == leave.effects;
  }

  /** Every reset of a feature state to not hovered names a truthy id: the
      handlers never unhover a feature whose integer id is 0. */
  lemma {:induction false} NeverUnhoversFalsyId(v: View, inputs: seq<Input>)
    ensures forall k :: 0 <= k < |Run(v, inputs).effects| && Run(v, inputs).effects[k].SetFeatureState?
                        && !Run(v, inputs).effects[k].hovered
                        ==> Truthy(Run(v, inputs).effects[k].id)
    decreases |inputs|
  {
    if inputs != [] {
      var first := Handle(v, inputs[0]);
      NeverUnhoversFalsyId(first.view, inputs[1..]);
      var rest := Run(first.view, inputs[1..]);
      assert Run(v, inputs).effects == first.effects + rest.effects;
      forall k | 0 <= k < |first.effects| && first.effects[k].SetFeatureState? && !first.effects[k].hovered
        ensures Truthy(first.effects[k].id)
      {
      }
    }
  }

  /** The feature with integer id 0, once hovered, stays highlighted: the
      leave that follows resets nothing. */
  lemma ZeroIdStaysHovered(v: View, zoom: real, pathId: Option<string>, pos: LngLat)
    requires zoom >= HoverZoom
    ensures var r := Run(v, [EnterPaths(zoom, Some([PathFeature(Some(0), pathId)]), pos), LeavePaths]);
            && SetFeatureState(Some(PathsSource), Some(0), 3, true) in r.effects
            && SetFeatureState(Some(PathsSource), Some(0), 2, false) !in r.effects
  {
    var f := PathFeature(Some(0), pathId);
    EnterThenLeave(v, zoom, f, [], pos);
    var r := Run(v, [EnterPaths(zoom, Some([f]), pos), LeavePaths]);
    assert [f] + [] == [f];
    assert r.effects[|Unhover(v.hover)|] == SetFeatureState(Some(PathsSource), Some(0), 3, true);
    NeverUnhoversFalsyId(v, [EnterPaths(zoom, Some([f]), pos), LeavePaths]);
  }
}

=== FILE: routing_events.dfy ===
/** The map event handlers of the `routing` section: a click or a context
    menu sets the origin or destination of a trip, and the two routing
    points can be dragged. */
module RoutingEvents {
  import opened Common
  import opened MapEvents

  const RoutingSection: string := "routing"

  /** The values `_currentDraggingFeature` takes while a routing point is
      dragged. */
  const DraggingOrigin: string := "routingOrigin"
  const DraggingDestination: string := "routingDestination"

  /** A feature of the `routingPoints` layer, reduced to its `location`
      property (`None` when the feature has no properties or no such key). */
  datatype RoutingPoint = RoutingPoint(location: Option<string>)

  /** JavaScript truthiness of an optional string. */
  predicate Truthy(s: Option<string>)
  {
    s.Some? && s.value != ""
  }

  /** A routing point is being dragged. */
  predicate DraggingPoint(dragging: Option<string>)
  {
    dragging == Some(DraggingOrigin) || dragging == Some(DraggingDestination)
  }

  /** A click on the map proposes its position to the routing form. */
  function OnClick(dragging: Option<string>, pos: LngLat): (r: Step)
    ensures r.dragging == dragging
    ensures r.emitted == [Emit("routing.transit.clickedOnMap", At(pos))]
  {
    Step(dragging, [Emit("routing.transit.clickedOnMap", At(pos))])
  }

  /** The two entries of the routing context menu. */
  function ContextMenuEntries(pos: LngLat): (r: seq<MenuEntry>)
    ensures |r| == 2
    ensures forall k :: 0 <= k < 2 ==>
              r[k].onClick == Emit("routing.transit.clickedOnMap", AtWithFlag(pos, k == 0))
  {
    [MenuEntry("transit:transitRouting:contextMenu:SetAsOrigin",
               Emit("routing.transit.clickedOnMap", AtWithFlag(pos, true))),
     MenuEntry("transit:transitRouting:contextMenu:SetAsDestination",
               Emit("routing.transit.clickedOnMap", AtWithFlag(pos, false)))]
  }

  /** A right click opens a context menu at the position; choosing an entry
      emits the click event with `true` for the origin and `false` for the
      destination. */
  function OnContextMenu(dragging: Option<string>, pos: LngLat): (r: Step)
    ensures r.dragging == dragging
    ensures |r.emitted| == 1 && r.emitted[0].name == "map.showContextMenu"
    ensures r.emitted[0].payload.Menu? && r.emitted[0].payload.pos == pos
    ensures r.emitted[0].payload.entries == ContextMenuEntries(pos)
  {
    Step(dragging, [Emit("map.showContextMenu", Menu(pos, ContextMenuEntries(pos)))])
  }

  /** A mouse down on the `routingPoints` layer. With no feature under the
      pointer, or a first feature without a truthy location, nothing
      happens; otherwise the drag of the origin (location `origin`) or of
      the destination (any other location) starts and panning is turned
      off. */
  function OnMouseDown(dragging: Option<string>, features: Option<seq<RoutingPoint>>): (r: Step)
    ensures r.emitted == [] <==> r == Step(dragging, [])
    ensures r.emitted == [] <==>
              features.None? || features.value == [] || !Truthy(features.value[0].location)
    ensures r.emitted != [] ==> r.emitted == [DisableDragPan] && DraggingPoint(r.dragging)
    ensures r.dragging == Some(DraggingOrigin) && r.emitted != [] <==>
              features.Some? && features.value != [] && features.value[0].location == Some("origin")
  {
    if features.None? || features.value == [] then Step(dragging, [])
    else
      var location := features.value[0].location;
      if Truthy(location) then
        Step(Some(if location.value == "origin" then DraggingOrigin else DraggingDestination), [DisableDragPan])
      else Step(dragging, [])
  }

  /** A mouse up anywhere on the map ends the drag of a routing point: the
      new position goes to the routing form, the drag state is cleared and
      panning is turned back on. In any other state nothing happens. */
  function OnMouseUp(dragging: Option<string>, pos: LngLat): (r: Step)
    ensures !DraggingPoint(dragging) <==> r == Step(dragging, [])
    ensures dragging == Some(DraggingOrigin) ==>
              r == Step(None, [Emit("routing.transit.updateOrigin", At(pos)), EnableDragPan])
    ensures dragging == Some(DraggingDestination) ==>
              r == Step(None, [Emit("routing.transit.updateDestination", At(pos)), EnableDragPan])
  {
    if dragging == Some(DraggingOrigin) || dragging == Some(DraggingDestination) then
      Step(None, [Emit(if dragging == Some(DraggingOrigin) then "routing.transit.updateOrigin"
                       else "routing.transit.updateDestination", At(pos)),
                  EnableDragPan])
    else Step(dragging, [])
  }

  /** A mouse move reports the position of the point being dragged and
      never changes the drag state. */
  function OnMouseMove(dragging: Option<string>, pos: LngLat): (r: Step)
    ensures r.dragging == dragging
    ensures r.emitted == [] <==> !DraggingPoint(dragging)
    ensures dragging == Some(DraggingOrigin) ==> r.emitted == [Emit("routing.transit.dragOrigin", At(pos))]
    ensures dragging == Some(DraggingDestination) ==> r.emitted == [Emit("routing.transit.dragDestination", At(pos))]
  {
    if dragging == Some(DraggingOrigin) then Step(dragging, [Emit("routing.transit.dragOrigin", At(pos))])
    else if dragging == Some(DraggingDestination) then Step(dragging, [Emit("routing.transit.dragDestination", At(pos))])
    else Step(dragging, [])
  }

  // ---------------------------------------------------------------------
  // Registration
  // ---------------------------------------------------------------------

  datatype Handler = ClickHandler | ContextMenuHandler | MouseDownHandler | MouseUpHandler | MouseMoveHandler

  /** `routingSectionEventDescriptors`. */
  const Descriptors: seq<Descriptor<Handler>> :=
    [Descriptor(MapTarget, "click", Some(RoutingSection), ClickHandler),
     Descriptor(MapTarget, "contextmenu", Some(RoutingSection), ContextMenuHandler),
     Descriptor(LayerTarget("routingPoints"), "mousedown", Some(RoutingSection), MouseDownHandler),
     Descriptor(MapTarget, "mouseup", Some(RoutingSection), MouseUpHandler),
     Descriptor(MapTarget, "mousemove", Some(RoutingSection), MouseMoveHandler)]

  /** Every handler applies exactly when the active section is `routing`,
      and an event reaches at most one handler: the one registered for it. */
  lemma DescriptorsGated(activeSection: string, target: Target, eventName: string)
    ensures activeSection != RoutingSection ==> Handlers(Descriptors, target, eventName, activeSection) == []
    ensures activeSection == RoutingSection ==>
              forall k :: 0 <= k < |Descriptors| && RegisteredFor(Descriptors[k], target, eventName) ==>
                Handlers(Descriptors, target, eventName, activeSection) == [Descriptors[k].handler]
    ensures (forall k :: 0 <= k < |Descriptors| ==> !RegisteredFor(Descriptors[k], target, eventName)) ==>
              Handlers(Descriptors, target, eventName, activeSection) == []
  {
    forall k | 0 <= k < |Descriptors| && RegisteredFor(Descriptors[k], target, eventName) && activeSection == RoutingSection
      ensures Handlers(Descriptors, target, eventName, activeSection) == [Descriptors[k].handler]
    {
      HandlersSingle(Descriptors, target, eventName, activeSection, k);
    }
    if activeSection != RoutingSection || forall k :: 0 <= k < |Descriptors| ==> !RegisteredFor(Descriptors[k], target, eventName) {
      HandlersNone(Descriptors, target, eventName, activeSection);
    }
  }

  // ---------------------------------------------------------------------
  // Sequences of events
  // ---------------------------------------------------------------------

  /** A mouse event reaching one of the handlers. */
  datatype Input =
    | Clicked(pos: LngLat)
    | ContextMenuAt(pos: LngLat)
    | PressedOn(features: Option<seq<RoutingPoint>>)
    | Released(pos: LngLat)
    | Moved(pos: LngLat)

  function Handle(dragging: Option<string>, input: Input): Step
  {
    match input
    case Clicked(pos) => OnClick(dragging, pos)
    case ContextMenuAt(pos) => OnContextMenu(dragging, pos)
    case PressedOn(features) => OnMouseDown(dragging, features)
    case Released(pos) => OnMouseUp(dragging, pos)
    case Moved(pos) => OnMouseMove(dragging, pos)
  }

  /** The handlers called one after the other on the same map: the final
      drag state and all the events emitted. */
  function Run(dragging: Option<string>, inputs: seq<Input>): Step
    decreases |inputs|
  {
    if inputs == [] then Step(dragging, [])
    else
      var first := Handle(dragging, inputs[0]);
      var rest := Run(first.dragging, inputs[1..]);
      Step(rest.dragging, first.emitted + rest.emitted)
  }

  /** Running two sequences in a row is running their concatenation. */
  lemma {:induction false} RunAppend(dragging: Option<string>, a: seq<Input>, b: seq<Input>)
    ensures Run(dragging, a + b).dragging == Run(Run(dragging, a).dragging, b).dragging
    ensures Run(dragging, a + b).emitted == Run(dragging, a).emitted + Run(Run(dragging, a).dragging, b).emitted
    decreases |a|
  {
    if a == [] {
      assert a + b == b;
    } else {
      var first := Handle(dragging, a[0]);
      assert (a + b)[0] == a[0];
      assert (a + b)[1..] == a[1..] + b;
      RunAppend(first.dragging, a[1..], b);
      var tail := Run(Run(first.dragging, a[1..]).dragging, b);
      assert Run(dragging, a + b).emitted == first.emitted + Run(first.dragging, a[1..] + b).emitted;
      assert first.emitted + (Run(first.dragging, a[1..]).emitted + tail.emitted)
             == (first.emitted + Run(first.dragging, a[1..]).emitted) + tail.emitted;
    }
  }

  function Moves(ps: seq<LngLat>): (r: seq<Input>)
    ensures |r| == |ps| && forall k :: 0 <= k < |ps| ==> r[k] == Moved(ps[k])
  {
    seq(|ps|, k requires 0 <= k < |ps| => Moved(ps[k]))
  }

  /** The events a sequence of moves emits while the point is dragged. */
  function DragEvents(name: string, ps: seq<LngLat>): (r: seq<Emitted>)
    ensures |r| == |ps| && forall k :: 0 <= k < |ps| ==> r[k] == Emit(name, At(ps[k]))
  {
    seq(|ps|, k requires 0 <= k < |ps| => Emit(name, At(ps[k])))
  }

  /** While a point is dragged, moves report each position in turn and
      leave the drag going. */
  lemma {:induction false} MovesWhileDragging(dragging: Option<string>, ps: seq<LngLat>)
    requires DraggingPoint(dragging)
    ensures Run(dragging, Moves(ps)).dragging == dragging
    ensures Run(dragging, Moves(ps)).emitted
            == DragEvents(if dragging == Some(DraggingOrigin) then "routing.transit.dragOrigin"
                          else "routing.transit.dragDestination", ps)
  {
    if ps != [] {
      assert Moves(ps)[1..] == Moves(ps[1..]);
      MovesWhileDragging(dragging, ps[1..]);
      var name := if dragging == Some(DraggingOrigin) then "routing.transit.dragOrigin"
                  else "routing.transit.dragDestination";
      assert DragEvents(name, ps) == [Emit(name, At(ps[0]))] + DragEvents(name, ps[1..]);
    }
  }

  /** A complete drag of the origin: pressing on the origin point, moving
      through some positions and releasing turns panning off once, reports
      every position, sets the origin to the release position, turns
      panning back on and ends with no drag, whatever was dragged before. */
  lemma DragOrigin(dragging: Option<string>, ps: seq<LngLat>, release: LngLat)
    ensures var inputs := [PressedOn(Some([RoutingPoint(Some("origin"))]))] + Moves(ps) + [Released(release)];
            && Run(dragging, inputs).dragging == None
            && Run(dragging, inputs).emitted
               == [DisableDragPan] + DragEvents("routing.transit.dragOrigin", ps)
                  + [Emit("routing.transit.updateOrigin", At(release)), EnableDragPan]
  {
    var down := [PressedOn(Some([RoutingPoint(Some("origin"))]))];
    RunAppend(dragging, down + Moves(ps), [Released(release)]);
    RunAppend(dragging, down, Moves(ps));
    MovesWhileDragging(Some(DraggingOrigin), ps);
    assert Run(Some(DraggingOrigin), [Released(release)]).emitted
           == [Emit("routing.transit.updateOrigin", At(release)), EnableDragPan];
  }

  /** A mouse up or move when no routing point is dragged does nothing,
      whatever else the shared drag state holds. */
  lemma IdleIgnoresPointer(dragging: Option<string>, pos: LngLat)
    requires !DraggingPoint(dragging)
    ensures Handle(dragging, Released(pos)) == Step(dragging, [])
    ensures Handle(dragging, Moved(pos)) == Step(dragging, [])
  {
  }
}

=== FILE: shader_pragmas.dfy ===
/** `compile` of the shader configuration: expands the `#pragma mapbox`
    directives of a fragment and a vertex shader into preprocessor blocks and
    assembles the list of static uniforms.

    A shader source is a sequence of pieces, each either plain text or one
    already recognised directive `#pragma mapbox: <op> <precision> <type>
    <name>`; the regular expressions that find the directives and the
    uniform and attribute declarations are not part of this model, so the
    declarations they find are given as parameters. */
module ShaderPragmas {
  import opened Common

  /** A piece of shader source. */
  datatype Piece =
    | Text(s: string)
    | Pragma(op: string, precision: string, glslType: string, name: string)

  type Source = seq<Piece>

  /** Lines, each followed by a newline. */
  function Lines(ls: seq<string>): (r: string)
    ensures |r| >= |ls|
  {
    if ls == [] then "" else ls[0] + "\n" + Lines(ls[1..])
  }

  /** The text of a replacement template: it opens and closes with a
      newline, one line of GLSL in between per element. */
  function Block(ls: seq<string>): (r: string)
    ensures |r| > 0 && r[0] == '\n'
  {
    "\n" + Lines(ls)
  }

  /** Concatenating line lists concatenates their text. */
  lemma {:induction false} LinesAppend(a: seq<string>, b: seq<string>)
    ensures Lines(a + b) == Lines(a) + Lines(b)
  {
    if a == [] {
      assert a + b == b;
    } else {
      assert (a + b)[1..] == a[1..] + b;
      LinesAppend(a[1..], b);
    }
  }

  /** The source text with every directive written out as it stands. */
  function Render(src: Source): string
  {
    if src == [] then ""
    else
      match src[0]
      case Text(s) => s + Render(src[1..])
      case Pragma(op, p, t, n) => "#pragma mapbox: " + op + " " + p + " " + t + " " + n + Render(src[1..])
  }

  /** Text of the source has no directive in it. */
  predicate TextOnly(src: Source)
  {
    forall i :: 0 <= i < |src| ==> src[i].Text?
  }

  // ---------------------------------------------------------------------
  // Fragment shader
  // ---------------------------------------------------------------------

  /** The replacement of one fragment directive. `define` declares the
      value as a varying unless a uniform of the same name is bound, in
      which case it declares that uniform; any other operation copies the
      bound uniform into a local, and does nothing when none is bound. */
  function FragmentLines(op: string, precision: string, t: string, name: string): (ls: seq<string>)
    ensures |ls| > 0 && ls[|ls| - 1] == "#endif"
    ensures ls[0] == "#ifndef HAS_UNIFORM_u_" + name <==> op == "define"
    ensures ls[0] == "#ifdef HAS_UNIFORM_u_" + name <==> op != "define"
    ensures op == "define" ==> ("varying " + precision + " " + t + " " + name + ";") in ls
                               && ("uniform " + precision + " " + t + " u_" + name + ";") in ls
    ensures op != "define" ==> ("    " + precision + " " + t + " " + name + " = u_" + name + ";") in ls
  {
    if op == "define" then
      ["#ifndef HAS_UNIFORM_u_" + name,
       "varying " + precision + " " + t + " " + name + ";",
       "#else",
       "uniform " + precision + " " + t + " u_" + name + ";",
       "#endif"]
    else
      ["#ifdef HAS_UNIFORM_u_" + name,
       "    " + precision + " " + t + " " + name + " = u_" + name + ";",
       "#endif"]
  }

  /** The fragment source after the first `replace`: each directive becomes
      its block, and every other piece is kept as it is. */
  function ExpandFragment(src: Source): (out: string)
    ensures TextOnly(src) ==> out == Render(src)
  {
    if src == [] then ""
    else
      match src[0]
      case Text(s) => s + ExpandFragment(src[1..])
      case Pragma(op, p, t, n) => Block(FragmentLines(op, p, t, n)) + ExpandFragment(src[1..])
  }

  /** Expansion works piece by piece: it commutes with concatenation. */
  lemma {:induction false} ExpandFragmentAppend(a: Source, b: Source)
    ensures ExpandFragment(a + b) == ExpandFragment(a) + ExpandFragment(b)
  {
    if a == [] {
      assert a + b == b;
    } else {
      assert (a + b)[1..] == a[1..] + b;
      ExpandFragmentAppend(a[1..], b);
    }
  }

  /** A fragment source made of one directive expands to that directive's
      block; with `ExpandFragmentAppend` this fixes the expansion of any
      source. */
  lemma SingleFragmentPragma(op: string, precision: string, t: string, name: string)
    ensures ExpandFragment([Pragma(op, precision, t, name)]) == Block(FragmentLines(op, precision, t, name))
  {
    var src := [Pragma(op, precision, t, name)];
    assert src[1..] == [];
  }

  /** The names of all fragment directives, of any operation: the keys set
      in `fragmentPragmas` while the fragment is rewritten, all of them
      before the vertex source is touched. */
  function FragmentNames(src: Source): (r: set<string>)
    ensures forall n :: n in r <==> exists i :: 0 <= i < |src| && src[i].Pragma? && src[i].name == n
  {
    if src == [] then {}
    else
      var rest := FragmentNames(src[1..]);
      assert forall i :: 1 <= i < |src| ==> src[1..][i - 1] == src[i];
      (if src[0].Pragma? then {src[0].name} else {}) + rest
  }

  // ---------------------------------------------------------------------
  // Vertex shader
  // ---------------------------------------------------------------------

  /** The attribute type: a float is stored as a pair of values to
      interpolate between, anything else as a four-component vector. */
  function AttrType(t: string): (r: string)
    ensures r == "vec2" <==> t == "float"
    ensures r == "vec4" <==> t != "float"
  {
    if t == "float" then "vec2" else "vec4"
  }

  /** `sub` occurs somewhere in `s`: a match of the regular expression
      made of the letters of `sub` alone. */
  predicate Contains(s: string, sub: string)
  {
    exists i :: 0 <= i <= |s| && OccursAt(s, sub, i)
  }

  /** `sub` occurs in `s` starting at position `i`. */
  predicate OccursAt(s: string, sub: string, i: int)
  {
    0 <= i && i + |sub| <= |s| && s[i..i + |sub|] == sub
  }

  /** How the attribute is unpacked: colours have their own unpacking,
      anything else unpacks as its attribute type. */
  function UnpackType(name: string, t: string): (r: string)
    ensures r == "color" <==> Contains(name, "color")
    ensures r == "vec4" <==> !Contains(name, "color") && t != "float"
    ensures r == "vec2" <==> !Contains(name, "color") && t == "float"
  {
    if Contains(name, "color") then "color" else AttrType(t)
  }

  /** The expression a vertex `initialize` reads the value from when no
      uniform is bound: the attribute itself for an unpacked `vec4`, the
      unpacking helper for that type otherwise. */
  function AttributeValue(name: string, t: string): (r: string)
    ensures UnpackType(name, t) == "vec4" ==> r == "a_" + name
    ensures UnpackType(name, t) != "vec4" ==>
              r == "unpack_mix_" + UnpackType(name, t) + "(a_" + name + ", u_" + name + "_t)"
  {
    var unpack := UnpackType(name, t);
    if unpack == "vec4" then "a_" + name
    else "unpack_mix_" + unpack + "(a_" + name + ", u_" + name + "_t)"
  }

  /** The replacement of one vertex directive. `shared` tells whether the
      fragment shader has a directive of the same name; the four branches of
      the source for each operation are written out as there. */
  function VertexLines(op: string, precision: string, t: string, name: string, shared: bool): (ls: seq<string>)
    ensures |ls| > 2 && ls[0] == "#ifndef HAS_UNIFORM_u_" + name && ls[|ls| - 1] == "#endif"
  {
    var attrType := AttrType(t);
    var unpackType := UnpackType(name, t);
    if shared then
      if op == "define" then
        ["#ifndef HAS_UNIFORM_u_" + name,
         "uniform lowp float u_" + name + "_t;",
         "attribute " + precision + " " + attrType + " a_" + name + ";",
         "varying " + precision + " " + t + " " + name + ";",
         "#else",
         "uniform " + precision + " " + t + " u_" + name + ";",
         "#endif"]
      else if unpackType == "vec4" then
        ["#ifndef HAS_UNIFORM_u_" + name,
         "    " + name + " = a_" + name + ";",
         "#else",
         "    " + precision + " " + t + " " + name + " = u_" + name + ";",
         "#endif"]
      else
        ["#ifndef HAS_UNIFORM_u_" + name,
         "    " + name + " = unpack_mix_" + unpackType + "(a_" + name + ", u_" + name + "_t);",
         "#else",
         "    " + precision + " " + t + " " + name + " = u_" + name + ";",
         "#endif"]
    else
      if op == "define" then
        ["#ifndef HAS_UNIFORM_u_" + name,
         "uniform lowp float u_" + name + "_t;",
         "attribute " + precision + " " + attrType + " a_" + name + ";",
         "#else",
         "uniform " + precision + " " + t + " u_" + name + ";",
         "#endif"]
      else if unpackType == "vec4" then
        ["#ifndef HAS_UNIFORM_u_" + name,
         "    " + precision + " " + t + " " + name + " = a_" + name + ";",
         "#else",
         "    " + precision + " " + t + " " + name + " = u_" + name + ";",
         "#endif"]
      else
        ["#ifndef HAS_UNIFORM_u_" + name,
         "    " + precision + " " + t + " " + name + " = unpack_mix_" + unpackType + "(a_" + name + ", u_" + name + "_t);",
         "#else",
         "    " + precision + " " + t + " " + name + " = u_" + name + ";",
         "#endif"]
  }

  /** The part of a vertex block that applies when a uniform is bound. */
  function ElseBranch(ls: seq<string>): seq<string>
    requires |ls| >= 2
  {
    ls[|ls| - 2..]
  }

  /** A vertex `define` always declares the interpolation uniform and the
      attribute, and declares the varying exactly when the name is shared
      with the fragment shader. */
  lemma VertexDefineDeclarations(precision: string, t: string, name: string, shared: bool)
    ensures var ls := VertexLines("define", precision, t, name, shared);
            && ("uniform lowp float u_" + name + "_t;") in ls
            && ("attribute " + precision + " " + AttrType(t) + " a_" + name + ";") in ls
            && (("varying " + precision + " " + t + " " + name + ";") in ls <==> shared)
  {
    var ls := VertexLines("define", precision, t, name, shared);
    var varying := "varying " + precision + " " + t + " " + name + ";";
    if !shared {
      forall k | 0 <= k < |ls|
        ensures ls[k] != varying
      {
        assert varying[0] == 'v';
        assert ls[k][0] != 'v';
      }
    }
  }

  /** The line of a vertex `initialize` block for an unbound uniform, in
      each of the four branches. */
  lemma InitializeLine(op: string, precision: string, t: string, name: string, shared: bool)
    requires op != "define"
    ensures var line := VertexLines(op, precision, t, name, shared)[1];
            var unpack := UnpackType(name, t);
            && (shared && unpack == "vec4" ==> line == "    " + name + " = a_" + name + ";")
            && (shared && unpack != "vec4" ==>
                  line == "    " + name + " = unpack_mix_" + unpack + "(a_" + name + ", u_" + name + "_t);")
            && (!shared && unpack == "vec4" ==> line == "    " + precision + " " + t + " " + name + " = a_" + name + ";")
            && (!shared && unpack != "vec4" ==>
                  line == "    " + precision + " " + t + " " + name + " = unpack_mix_" + unpack
                          + "(a_" + name + ", u_" + name + "_t);")
  {
  }

  /** A vertex `initialize` without a bound uniform reads the attribute
      value; for a shared name it assigns the varying the fragment shader
      reads, otherwise it declares a local of the directive's precision and
      type. */
  lemma VertexInitializeAssignment(op: string, precision: string, t: string, name: string, shared: bool)
    requires op != "define"
    ensures shared ==>
              VertexLines(op, precision, t, name, shared)[1] == "    " + name + " = " + AttributeValue(name, t) + ";"
    ensures !shared ==>
              VertexLines(op, precision, t, name, shared)[1]
              == "    " + precision + " " + t + " " + name + " = " + AttributeValue(name, t) + ";"
  {
    InitializeLine(op, precision, t, name, shared);
    var unpack := UnpackType(name, t);
    if unpack == "vec4" {
      AssignmentText("    ", name, "a_" + name);
      AssignmentText("    " + precision + " " + t + " ", name, "a_" + name);
    } else {
      AssignmentText("    ", name, "unpack_mix_" + unpack + "(a_" + name + ", u_" + name + "_t)");
      AssignmentText("    " + precision + " " + t + " ", name, "unpack_mix_" + unpack + "(a_" + name + ", u_" + name + "_t)");
    }
  }

  /** The text of `<lhs><name> = <value>;` for the two value forms. */
  lemma AssignmentText(lhs: string, name: string, value: string)
    ensures value == "a_" + name ==> lhs + name + " = a_" + name + ";" == lhs + name + " = " + value + ";"
    ensures forall unpack :: value == "unpack_mix_" + unpack + "(a_" + name + ", u_" + name + "_t)" ==>
              lhs + name + " = unpack_mix_" + unpack + "(a_" + name + ", u_" + name + "_t);"
              == lhs + name + " = " + value + ";"
  {
    assert " = a_" == " = " + "a_";
    assert " = unpack_mix_" == " = " + "unpack_mix_";
  }

  /** Whether the name is shared changes only the branch for an unbound
      uniform: with a bound uniform the vertex block does the same as the
      fragment block of the same operation. */
  lemma VertexElseBranchShared(op: string, precision: string, t: string, name: string)
    ensures ElseBranch(VertexLines(op, precision, t, name, true))
            == ElseBranch(VertexLines(op, precision, t, name, false))
    ensures op == "define" ==>
              ElseBranch(VertexLines(op, precision, t, name, true)) == FragmentLines(op, precision, t, name)[3..]
  {
  }

  /** The vertex source after the second `replace`, with `names` the names
      the fragment directives recorded. */
  function ExpandVertex(src: Source, names: set<string>): (out: string)
    ensures TextOnly(src) ==> out == Render(src)
  {
    if src == [] then ""
    else
      match src[0]
      case Text(s) => s + ExpandVertex(src[1..], names)
      case Pragma(op, p, t, n) => Block(VertexLines(op, p, t, n, n in names)) + ExpandVertex(src[1..], names)
  }

  /** Vertex expansion works piece by piece. */
  lemma {:induction false} ExpandVertexAppend(a: Source, b: Source, names: set<string>)
    ensures ExpandVertex(a + b, names) == ExpandVertex(a, names) + ExpandVertex(b, names)
  {
    if a == [] {
      assert a + b == b;
    } else {
      assert (a + b)[1..] == a[1..] + b;
      ExpandVertexAppend(a[1..], b, names);
    }
  }

  /** Of the recorded names, vertex expansion looks only at those of its
      own directives. */
  lemma {:induction false} ExpandVertexNames(src: Source, names1: set<string>, names2: set<string>)
    requires forall i :: 0 <= i < |src| && src[i].Pragma? ==> (src[i].name in names1 <==> src[i].name in names2)
    ensures ExpandVertex(src, names1) == ExpandVertex(src, names2)
  {
    if src != [] {
      assert forall i :: 1 <= i < |src| ==> src[1..][i - 1] == src[i];
      ExpandVertexNames(src[1..], names1, names2);
    }
  }

  // ---------------------------------------------------------------------
  // Static uniforms
  // ---------------------------------------------------------------------

  /** A JavaScript array of uniform declarations. `Array.concat(null)`
      appends a `null` element, so an element may be missing. */
  type Uniforms = seq<Option<string>>

  /** The array a global `match` returns, `null` when nothing matched. */
  type Matches = Option<seq<string>>

  function Lift(s: seq<string>): (r: Uniforms)
    ensures |r| == |s| && forall i :: 0 <= i < |s| ==> r[i] == Some(s[i])
  {
    seq(|s|, i requires 0 <= i < |s| => Some(s[i]))
  }

  /** `a.concat(b)` for an array `b` or `null`. */
  function Concat(a: Uniforms, b: Option<Uniforms>): (r: Uniforms)
    ensures b.Some? ==> r == a + b.value
    ensures b.None? ==> r == a + [None]
  {
    if b.Some? then a + b.value else a + [None]
  }

  function AsUniforms(m: Matches): (r: Option<Uniforms>)
    ensures r.None? <==> m.None?
  {
    if m.Some? then Some(Lift(m.value)) else None
  }

  /** The declarations present, in order, with the missing ones dropped. */
  function Declared(u: Uniforms): (r: seq<string>)
    ensures |r| <= |u|
  {
    if u == [] then []
    else (if u[0].Some? then [u[0].value] else []) + Declared(u[1..])
  }

  lemma {:induction false} DeclaredAppend(a: Uniforms, b: Uniforms)
    ensures Declared(a + b) == Declared(a) + Declared(b)
  {
    if a == [] {
      assert a + b == b;
    } else {
      assert (a + b)[0] == a[0];
      assert (a + b)[1..] == a[1..] + b;
      DeclaredAppend(a[1..], b);
    }
  }

  lemma {:induction false} DeclaredLift(s: seq<string>)
    ensures Declared(Lift(s)) == s
  {
    if s != [] {
      assert Lift(s)[1..] == Lift(s[1..]);
      DeclaredLift(s[1..]);
    }
  }

  /** The declarations of a possibly missing array, none when it is
      missing. */
  function DeclaredIn(u: Option<Uniforms>): seq<string>
  {
    if u.Some? then Declared(u.value) else []
  }

  /** The prelude lists that take part: those of a non-global compile. */
  function PreludePart(u: Option<Uniforms>, isGlobalPrelude: bool): Option<Uniforms>
  {
    if isGlobalPrelude then None else u
  }

  /** The declarations of `a.concat(b)`: those of `a`, then those of `b`. */
  lemma ConcatDeclared(a: Uniforms, b: Option<Uniforms>)
    ensures Declared(Concat(a, b)) == Declared(a) + DeclaredIn(b)
  {
    if b.Some? {
      DeclaredAppend(a, b.value);
    } else {
      var missing: Uniforms := [None];
      assert Declared(missing) == [] by { assert missing[1..] == []; }
      DeclaredAppend(a, missing);
    }
  }

  /** The declarations of a match result are the matches themselves. */
  lemma AsUniformsDeclared(m: Matches)
    ensures DeclaredIn(AsUniforms(m)) == (if m.Some? then m.value else [])
  {
    if m.Some? {
      DeclaredLift(m.value);
    }
  }

  /** `vertexUniforms ? vertexUniforms.concat(fragmentUniforms) :
      fragmentUniforms`: the vertex declarations, then the fragment ones. */
  function ShaderUniforms(vertexUniforms: Matches, fragmentUniforms: Matches): (r: Option<Uniforms>)
    ensures r.None? <==> vertexUniforms.None? && fragmentUniforms.None?
    ensures DeclaredIn(r) == DeclaredIn(AsUniforms(vertexUniforms)) + DeclaredIn(AsUniforms(fragmentUniforms))
  {
    AsUniformsDeclared(vertexUniforms);
    if vertexUniforms.Some? then
      var r := Concat(Lift(vertexUniforms.value), AsUniforms(fragmentUniforms));
      ConcatDeclared(Lift(vertexUniforms.value), AsUniforms(fragmentUniforms));
      Some(r)
    else AsUniforms(fragmentUniforms)
  }

  /** Putting a prelude's list in front, when it exists and the compile is
      not itself a global prelude. */
  function Prepend(prelude: Option<Uniforms>, rest: Option<Uniforms>, isGlobalPrelude: bool): (r: Option<Uniforms>)
    ensures r.None? <==> PreludePart(prelude, isGlobalPrelude).None? && rest.None?
    ensures DeclaredIn(r) == DeclaredIn(PreludePart(prelude, isGlobalPrelude)) + DeclaredIn(rest)
  {
    if !isGlobalPrelude && prelude.Some? then
      var r := Concat(prelude.value, rest);
      ConcatDeclared(prelude.value, rest);
      Some(r)
    else rest
  }

  lemma Regroup(a: seq<string>, b: seq<string>, c: seq<string>, d: seq<string>)
    ensures a + (b + (c + d)) == a + b + c + d
  {
  }

  /** The `staticUniforms` assembly. The uniforms of the fog prelude come
      first, then those of the terrain prelude (both only outside a global
      prelude compile), the vertex and fragment uniforms, and the common
      uniforms last; the list stays `null` only when no part of it exists,
      and then the common uniforms are not added either. */
  function StaticUniforms(vertexUniforms: Matches, fragmentUniforms: Matches, commonUniforms: Matches,
                          terrain: Option<Uniforms>, fog: Option<Uniforms>, isGlobalPrelude: bool): (r: Option<Uniforms>)
    ensures r.None? <==> vertexUniforms.None? && fragmentUniforms.None?
                         && PreludePart(terrain, isGlobalPrelude).None? && PreludePart(fog, isGlobalPrelude).None?
    ensures r.Some? ==>
              Declared(r.value)
              == DeclaredIn(PreludePart(fog, isGlobalPrelude)) + DeclaredIn(PreludePart(terrain, isGlobalPrelude))
                 + DeclaredIn(AsUniforms(vertexUniforms)) + DeclaredIn(AsUniforms(fragmentUniforms))
                 + DeclaredIn(AsUniforms(commonUniforms))
  {
    var shader := ShaderUniforms(vertexUniforms, fragmentUniforms);
    var withTerrain := Prepend(terrain, shader, isGlobalPrelude);
    var withFog := Prepend(fog, withTerrain, isGlobalPrelude);
    if withFog.Some? then
      var r := Concat(withFog.value, AsUniforms(commonUniforms));
      ConcatDeclared(withFog.value, AsUniforms(commonUniforms));
      var f, t, v, g := DeclaredIn(PreludePart(fog, isGlobalPrelude)), DeclaredIn(PreludePart(terrain, isGlobalPrelude)),
                        DeclaredIn(AsUniforms(vertexUniforms)), DeclaredIn(AsUniforms(fragmentUniforms));
      assert Declared(withFog.value) == f + (t + (v + g));
      Regroup(f, t, v, g);
      Some(r)
    else None
  }

  // ---------------------------------------------------------------------
  // compile
  // ---------------------------------------------------------------------

  /** What the three regular expressions find in the sources before any
      rewriting: the attribute declarations of the vertex source and the
      uniform declarations of each source and of the common prelude. */
  datatype Declarations = Declarations(attributes: Matches, fragmentUniforms: Matches,
                                       vertexUniforms: Matches, commonUniforms: Matches)

  /** The static uniform lists of the fog and terrain preludes, compiled
      before every other shader. */
  datatype Preludes = Preludes(terrain: Option<Uniforms>, fog: Option<Uniforms>)

  datatype Compiled = Compiled(fragmentSource: string, vertexSource: string,
                               staticAttributes: Matches, staticUniforms: Option<Uniforms>)

  /** `compile` with the names shared between the two shaders taken as
      the set of fragment directive names. */
  function Compile(fragment: Source, vertex: Source, isGlobalPrelude: bool,
                   found: Declarations, preludes: Preludes): (r: Compiled)
    ensures r.fragmentSource == ExpandFragment(fragment)
    ensures r.vertexSource == ExpandVertex(vertex, FragmentNames(fragment))
    ensures r.staticAttributes == found.attributes
    ensures r.staticUniforms == StaticUniforms(found.vertexUniforms, found.fragmentUniforms, found.commonUniforms,
                                               preludes.terrain, preludes.fog, isGlobalPrelude)
  {
    Compiled(ExpandFragment(fragment), ExpandVertex(vertex, FragmentNames(fragment)), found.attributes,
             StaticUniforms(found.vertexUniforms, found.fragmentUniforms, found.commonUniforms,
                            preludes.terrain, preludes.fog, isGlobalPrelude))
  }

  /** The vertex output depends on the fragment shader only through the set
      of its directive names, whatever their order, operation or position. */
  lemma CompileVertexDependsOnNames(f1: Source, f2: Source, vertex: Source, isGlobalPrelude: bool,
                                    found: Declarations, preludes: Preludes)
    requires FragmentNames(f1) == FragmentNames(f2)
    ensures Compile(f1, vertex, isGlobalPrelude, found, preludes).vertexSource
            == Compile(f2, vertex, isGlobalPrelude, found, preludes).vertexSource
  {
  }

  /** A fragment directive placed after the text does not change how the
      vertex directives are expanded compared with one placed before it:
      all names are recorded before the vertex source is rewritten. */
  lemma CompileNamesOrderFree(a: Source, b: Source, vertex: Source, isGlobalPrelude: bool,
                              found: Declarations, preludes: Preludes)
    ensures Compile(a + b, vertex, isGlobalPrelude, found, preludes).vertexSource
            == Compile(b + a, vertex, isGlobalPrelude, found, preludes).vertexSource
  {
    assert FragmentNames(a + b) == FragmentNames(b + a) by {
      forall n
        ensures n in FragmentNames(a + b) <==> n in FragmentNames(b + a)
      {
        if n in FragmentNames(a + b) {
          var i :| 0 <= i < |a + b| && (a + b)[i].Pragma? && (a + b)[i].name == n;
          if i < |a| {
            assert (b + a)[|b| + i] == a[i];
          } else {
            assert (b + a)[i - |a|] == b[i - |a|];
          }
        }
        if n in FragmentNames(b + a) {
          var i :| 0 <= i < |b + a| && (b + a)[i].Pragma? && (b + a)[i].name == n;
          if i < |b| {
            assert (a + b)[|a| + i] == b[i];
          } else {
            assert (a + b)[i - |b|] == a[i - |b|];
          }
        }
      }
    }
  }

  // ---------------------------------------------------------------------
  // The code as written: `fragmentPragmas` is a plain object
  // ---------------------------------------------------------------------

  /** The names a plain JavaScript object answers for through its
      prototype: `fragmentPragmas[name]` is a built-in function, so truthy,
      for each of them even when no fragment directive set it. */
  const PrototypeNames: set<string> :=
    {"constructor", "hasOwnProperty", "isPrototypeOf", "propertyIsEnumerable", "toLocaleString",
     "toString", "valueOf", "__proto__", "__defineGetter__", "__defineSetter__",
     "__lookupGetter__", "__lookupSetter__"}

  /** `compile` as written: a vertex directive counts as shared when its
      name was recorded by the fragment or is a prototype property. It
      agrees with `Compile` on everything but the vertex source. */
  function CompileAsWritten(fragment: Source, vertex: Source, isGlobalPrelude: bool,
                            found: Declarations, preludes: Preludes): (r: Compiled)
    ensures r.fragmentSource == Compile(fragment, vertex, isGlobalPrelude, found, preludes).fragmentSource
    ensures r.staticUniforms == Compile(fragment, vertex, isGlobalPrelude, found, preludes).staticUniforms
    ensures r.vertexSource == ExpandVertex(vertex, FragmentNames(fragment) + PrototypeNames)
  {
    Compiled(ExpandFragment(fragment), ExpandVertex(vertex, FragmentNames(fragment) + PrototypeNames),
             found.attributes,
             StaticUniforms(found.vertexUniforms, found.fragmentUniforms, found.commonUniforms,
                            preludes.terrain, preludes.fog, isGlobalPrelude))
  }

  /** Unless a vertex directive is named after a prototype property, the
      code as written and the corrected model agree. */
  lemma CompileAsWrittenAgrees(fragment: Source, vertex: Source, isGlobalPrelude: bool,
                               found: Declarations, preludes: Preludes)
    requires forall i :: 0 <= i < |vertex| && vertex[i].Pragma? ==> vertex[i].name !in PrototypeNames
    ensures CompileAsWritten(fragment, vertex, isGlobalPrelude, found, preludes)
            == Compile(fragment, vertex, isGlobalPrelude, found, preludes)
  {
    ExpandVertexNames(vertex, FragmentNames(fragment) + PrototypeNames, FragmentNames(fragment));
  }

  /** A vertex `define` of `toString` with no fragment directive at all:
      as written, the vertex shader declares a varying `toString` that the
      fragment shader never declares; the corrected model declares none. */
  lemma CompileAsWrittenSharesPrototypeName(found: Declarations, preludes: Preludes)
    ensures var vertex := [Pragma("define", "highp", "float", "toString")];
            var asWritten := CompileAsWritten([], vertex, false, found, preludes).vertexSource;
            var corrected := Compile([], vertex, false, found, preludes).vertexSource;
            && asWritten == Block(VertexLines("define", "highp", "float", "toString", true))
            && corrected == Block(VertexLines("define", "highp", "float", "toString", false))
            && asWritten != corrected
  {
    AsWrittenToString(found, preludes);
    CorrectedToString(found, preludes);
    ToStringVaryingLonger();
  }

  /** The shared-name expansion of the `toString` directive has one line
      more than the local one: the varying declaration. */
  lemma ToStringVaryingLonger()
    ensures |Block(VertexLines("define", "highp", "float", "toString", true))|
            > |Block(VertexLines("define", "highp", "float", "toString", false))|
  {
    var shared := VertexLines("define", "highp", "float", "toString", true);
    var local := VertexLines("define", "highp", "float", "toString", false);
    assert shared == local[..3] + [shared[3]] + local[3..];
    assert local[..3] + local[3..] == local;
    InsertedLineLonger(local[..3], shared[3], local[3..]);
  }

  lemma AsWrittenToString(found: Declarations, preludes: Preludes)
    ensures CompileAsWritten([], [Pragma("define", "highp", "float", "toString")], false, found, preludes).vertexSource
            == Block(VertexLines("define", "highp", "float", "toString", true))
  {
    assert FragmentNames([]) == {};
    assert {} + PrototypeNames == PrototypeNames;
    assert "toString" in PrototypeNames;
    SinglePragma("define", "highp", "float", "toString", PrototypeNames);
  }

  lemma CorrectedToString(found: Declarations, preludes: Preludes)
    ensures Compile([], [Pragma("define", "highp", "float", "toString")], false, found, preludes).vertexSource
            == Block(VertexLines("define", "highp", "float", "toString", false))
  {
    assert FragmentNames([]) == {};
    SinglePragma("define", "highp", "float", "toString", {});
  }

  /** A source made of one directive expands to that directive's block. */
  lemma SinglePragma(op: string, precision: string, t: string, name: string, names: set<string>)
    ensures ExpandVertex([Pragma(op, precision, t, name)], names)
            == Block(VertexLines(op, precision, t, name, name in names))
  {
    var src := [Pragma(op, precision, t, name)];
    assert src[1..] == [];
  }

  /** A block with one more line is longer. */
  lemma InsertedLineLonger(a: seq<string>, x: string, b: seq<string>)
    ensures |Block(a + [x] + b)| > |Block(a + b)|
  {
    LinesAppend(a + [x], b);
    LinesAppend(a, [x]);
    LinesAppend(a, b);
    assert Lines([x]) == x + "\n" + Lines([]);
  }
}

=== FILE: user_account.dfy ===
/** The user-account behaviour of the backend, as its tests assert it:
    account confirmation and password reset over a store of user rows,
    the display name, the sanitized projection sent to clients, and the
    validation of attribute updates.

    The store is a sequence of rows; `find` returns the first row matching
    a token and every `update` call is recorded as a `Save`. Time is an
    integer, and the password hash is a function given by the caller. */
module UserAccount {
  import opened Common

  /** A JSON value as received from a client. */
  datatype Json =
    | JNull
    | JBool(b: bool)
    | JNumber(n: real)
    | JString(s: string)
    | JArray(items: seq<Json>)
    | JObject(fields: seq<(string, Json)>)

  /** A row of the users table, each optional column `None` when null or
      absent. */
  datatype User = User(
    id: int,
    uuid: Option<string>,
    username: Option<string>,
    email: Option<string>,
    firstName: Option<string>,
    lastName: Option<string>,
    password: Option<string>,
    confirmationToken: Option<string>,
    isConfirmed: Option<bool>,
    passwordResetToken: Option<string>,
    passwordResetExpireAt: Option<int>,
    privateToken: Option<string>,
    preferences: Option<Json>,
    isAdmin: Option<bool>,
    permissions: Option<Json>)

  type Store = seq<User>

  /** Database ids are a primary key. */
  predicate UniqueIds(store: Store)
  {
    forall i, j :: 0 <= i < |store| && 0 <= j < |store| && store[i].id == store[j].id ==> i == j
  }

  /** The first row whose column, selected by `column`, holds `token`. */
  function FindFirst(store: Store, column: User -> Option<string>, token: string): (r: Option<nat>)
    ensures r.None? <==> forall k :: 0 <= k < |store| ==> column(store[k]) != Some(token)
    ensures r.Some? ==> r.value < |store| && column(store[r.value]) == Some(token)
                        && forall j :: 0 <= j < r.value ==> column(store[j]) != Some(token)
  {
    if store == [] then None
    else if column(store[0]) == Some(token) then Some(0)
    else
      var rest := FindFirst(store[1..], column, token);
      assert forall k :: 1 <= k < |store| ==> store[1..][k - 1] == store[k];
      if rest.None? then None else Some(rest.value + 1)
  }

  function ConfirmationTokenOf(u: User): Option<string> { u.confirmationToken }
  function ResetTokenOf(u: User): Option<string> { u.passwordResetToken }

  /** At most one row holds the token in that column. */
  predicate HeldOnce(store: Store, column: User -> Option<string>, token: string)
  {
    forall i, j :: 0 <= i < |store| && 0 <= j < |store| && column(store[i]) == Some(token) && column(store[j]) == Some(token)
                   ==> i == j
  }

  // ---------------------------------------------------------------------
  // Saving
  // ---------------------------------------------------------------------

  /** The columns one `update` call writes. */
  datatype Patch =
    | ConfirmPatch                      // { confirmation_token: null, is_confirmed: true }
    | PasswordPatch(passwordHash: string) // { password, password_reset_expire_at: null, password_reset_token: null }

  datatype Save = Save(id: int, patch: Patch)

  function Patched(u: User, patch: Patch): (r: User)
    ensures r.id == u.id && r.uuid == u.uuid && r.username == u.username && r.email == u.email
    ensures patch.ConfirmPatch? ==>
              r == u.(confirmationToken := None, isConfirmed := Some(true))
    ensures patch.PasswordPatch? ==>
              r == u.(password := Some(patch.passwordHash), passwordResetToken := None, passwordResetExpireAt := None)
  {
    match patch
    case ConfirmPatch => u.(confirmationToken := None, isConfirmed := Some(true))
    case PasswordPatch(h) => u.(password := Some(h), passwordResetToken := None, passwordResetExpireAt := None)
  }

  /** The store after a save: the row with the saved id is patched, every
      other row is left as it was. */
  function ApplySave(store: Store, save: Save): (r: Store)
    ensures |r| == |store|
    ensures forall k :: 0 <= k < |store| ==>
              r[k] == if store[k].id == save.id then Patched(store[k], save.patch) else store[k]
  {
    seq(|store|, k requires 0 <= k < |store| => if store[k].id == save.id then Patched(store[k], save.patch) else store[k])
  }

  // ---------------------------------------------------------------------
  // Account confirmation
  // ---------------------------------------------------------------------

  datatype Outcome = Confirmed | NotFound | Expired | PasswordChanged

  datatype Response = Response(outcome: Outcome, saves: seq<Save>)

  /** `confirmAccount`: the row holding the token is marked confirmed and
      its token cleared by one save; an unknown token saves nothing. */
  function ConfirmAccount(store: Store, token: string): (r: Response)
    ensures r.outcome == Confirmed || r.outcome == NotFound
    ensures r.outcome == NotFound <==> forall k :: 0 <= k < |store| ==> store[k].confirmationToken != Some(token)
    ensures r.outcome == NotFound ==> r.saves == []
    ensures r.outcome == Confirmed ==>
              exists k :: 0 <= k < |store| && store[k].confirmationToken == Some(token)
                          && r.saves == [Save(store[k].id, ConfirmPatch)]
  {
    var found := FindFirst(store, ConfirmationTokenOf, token);
    if found.None? then Response(NotFound, [])
    else Response(Confirmed, [Save(store[found.value].id, ConfirmPatch)])
  }

  /** The store after a response's saves. */
  function ApplySaves(store: Store, saves: seq<Save>): (r: Store)
    ensures |r| == |store|
    decreases |saves|
  {
    if saves == [] then store else ApplySaves(ApplySave(store, saves[0]), saves[1..])
  }

  /** A confirmation token is used once: after the save of a successful
      confirmation, the same token is no longer found, when it was held by
      one row only. */
  lemma ConfirmTwice(store: Store, token: string)
    requires UniqueIds(store)
    requires HeldOnce(store, ConfirmationTokenOf, token)
    ensures var first := ConfirmAccount(store, token);
            var after := ApplySaves(store, first.saves);
            && ConfirmAccount(after, token) == Response(NotFound, [])
            && (first.outcome == Confirmed ==>
                  exists k :: 0 <= k < |after| && after[k].isConfirmed == Some(true) && after[k].id == first.saves[0].id)
  {
    var first := ConfirmAccount(store, token);
    if first.outcome == Confirmed {
      var k := FindFirst(store, ConfirmationTokenOf, token).value;
      var after := ApplySave(store, first.saves[0]);
      assert ApplySaves(store, first.saves) == after by {
        assert first.saves[1..] == [];
      }
      forall j | 0 <= j < |after|
        ensures after[j].confirmationToken != Some(token)
      {
        if store[j].id == store[k].id {
          assert j == k;
        }
      }
      assert after[k].isConfirmed == Some(true);
    }
  }

  // ---------------------------------------------------------------------
  // Password reset
  // ---------------------------------------------------------------------

  /** A missing expiry never expires; otherwise the token has expired once
      its expiry time is before `now`. */
  predicate HasExpired(u: User, now: int)
  {
    u.passwordResetExpireAt.Some? && u.passwordResetExpireAt.value < now
  }

  /** A new password is given when it is present and non-empty. */
  predicate Given(newPassword: Option<string>)
  {
    newPassword.Some? && newPassword.value != ""
  }

  /** `resetPassword`: an unknown token is `NotFound`, an expired one
      `Expired`; a valid token without a new password is only `Confirmed`;
      with one, the password is replaced by its hash and the reset token
      and expiry are cleared, in the only save of the four outcomes. */
  function ResetPassword(store: Store, token: string, newPassword: Option<string>, now: int,
                         hash: string -> string): (r: Response)
    ensures r.outcome == NotFound <==> forall k :: 0 <= k < |store| ==> store[k].passwordResetToken != Some(token)
    ensures r.outcome != PasswordChanged <==> r.saves == []
    ensures r.outcome == Expired || r.outcome == Confirmed || r.outcome == PasswordChanged ==>
              exists k :: 0 <= k < |store| && store[k].passwordResetToken == Some(token)
                          && (r.outcome == Expired <==> HasExpired(store[k], now))
                          && (r.outcome == Confirmed <==> !HasExpired(store[k], now) && !Given(newPassword))
                          && (r.outcome == PasswordChanged ==>
                                r.saves == [Save(store[k].id, PasswordPatch(hash(newPassword.value)))])
  {
    var found := FindFirst(store, ResetTokenOf, token);
    if found.None? then Response(NotFound, [])
    else
      var u := store[found.value];
      if HasExpired(u, now) then Response(Expired, [])
      else if !Given(newPassword) then Response(Confirmed, [])
      else Response(PasswordChanged, [Save(u.id, PasswordPatch(hash(newPassword.value)))])
  }

  /** After a password change the reset token cannot be used again, when it
      was held by one row only; the row now holds the new hash. */
  lemma ResetTwice(store: Store, token: string, newPassword: Option<string>, now: int, later: int,
                   again: Option<string>, hash: string -> string)
    requires UniqueIds(store)
    requires HeldOnce(store, ResetTokenOf, token)
    ensures var first := ResetPassword(store, token, newPassword, now, hash);
            var after := ApplySaves(store, first.saves);
            first.outcome == PasswordChanged ==>
              && ResetPassword(after, token, again, later, hash) == Response(NotFound, [])
              && exists k :: 0 <= k < |after| && after[k].id == first.saves[0].id
                             && after[k].password == Some(hash(newPassword.value))
  {
    var first := ResetPassword(store, token, newPassword, now, hash);
    if first.outcome == PasswordChanged {
      var k := FindFirst(store, ResetTokenOf, token).value;
      var after := ApplySave(store, first.saves[0]);
      assert ApplySaves(store, first.saves) == after by {
        assert first.saves[1..] == [];
      }
      forall j | 0 <= j < |after|
        ensures after[j].passwordResetToken != Some(token)
      {
        if store[j].id == store[k].id {
          assert j == k;
        }
      }
      assert after[k].password == Some(hash(newPassword.value));
    }
  }

  /** A reset without a new password can be repeated: it changes nothing,
      so the next call sees the same store. */
  lemma ResetWithoutPasswordRepeats(store: Store, token: string, now: int, hash: string -> string, k: nat)
    requires k < |store| && store[k].passwordResetToken == Some(token)
    requires forall j :: 0 <= j < k ==> store[j].passwordResetToken != Some(token)
    requires !HasExpired(store[k], now)
    ensures ResetPassword(store, token, None, now, hash) == Response(Confirmed, [])
    ensures ApplySaves(store, ResetPassword(store, token, None, now, hash).saves) == store
    ensures ResetPassword(store, token, Some(""), now, hash) == Response(Confirmed, [])
  {
    assert FindFirst(store, ResetTokenOf, token) == Some(k);
  }

  // ---------------------------------------------------------------------
  // Display name
  // ---------------------------------------------------------------------

  /** A column holding a non-empty string. */
  predicate Present(o: Option<string>)
  {
    o.Some? && o.value != ""
  }

  /** `getDisplayName`: the first and last names when there are any,
      joined by a space; otherwise the username, unless it is the email;
      otherwise the empty string. */
  function DisplayName(u: User): (r: string)
    ensures r == "" <==> !Present(u.firstName) && !Present(u.lastName)
                         && (!Present(u.username) || u.username == u.email)
    ensures Present(u.firstName) && Present(u.lastName) ==> r == u.firstName.value + " " + u.lastName.value
    ensures Present(u.firstName) != Present(u.lastName) ==>
              r == if Present(u.firstName) then u.firstName.value else u.lastName.value
    ensures !Present(u.firstName) && !Present(u.lastName) && Present(u.username) && u.username != u.email ==>
              r == u.username.value
  {
    if Present(u.firstName) && Present(u.lastName) then u.firstName.value + " " + u.lastName.value
    else if Present(u.firstName) then u.firstName.value
    else if Present(u.lastName) then u.lastName.value
    else if Present(u.username) && u.username != u.email then u.username.value
    else ""
  }

  /** A row with only the given name columns set. */
  function Named(username: Option<string>, email: Option<string>, firstName: Option<string>,
                 lastName: Option<string>): User
  {
    User(5, Some("arbitrary"), username, email, firstName, lastName, None, None, None, None, None, None, None, None, None)
  }

  /** The six display names the tests expect. */
  lemma DisplayNameCases()
    ensures DisplayName(Named(None, None, None, None)) == ""
    ensures DisplayName(Named(Some("test"), Some("test@test.com"), None, None)) == "test"
    ensures DisplayName(Named(Some("test"), None, Some("first"), None)) == "first"
    ensures DisplayName(Named(Some("test"), None, None, Some("last"))) == "last"
    ensures DisplayName(Named(Some("test"), None, Some("first"), Some("last"))) == "first last"
    ensures DisplayName(Named(Some("test@test.com"), Some("test@test.com"), None, None)) == ""
  {
    assert "first" + " " + "last" == "first last";
  }

  // ---------------------------------------------------------------------
  // Sanitizing
  // ---------------------------------------------------------------------

  /** What `sanitizeUserAttributes` sends to a client. */
  datatype Sanitized = Sanitized(
    id: int,
    username: Option<string>,
    firstName: Option<string>,
    lastName: Option<string>,
    preferences: Json,
    email: Option<string>,
    serializedPermissions: seq<seq<string>>)

  const ManageAll: seq<seq<string>> := [["manage", "all"]]

  /** The public columns of a row; only these may reach a client. */
  predicate SamePublic(u: User, w: User)
  {
    && u.id == w.id && u.username == w.username && u.email == w.email
    && u.firstName == w.firstName && u.lastName == w.lastName
    && u.preferences == w.preferences && u.isAdmin == w.isAdmin
  }

  /** `sanitizeUserAttributes`: the public columns renamed, the preferences
      defaulting to an empty object, and the administrator's permission to
      manage everything. */
  function SanitizeUserAttributes(u: User): (r: Sanitized)
    ensures r.id == u.id && r.username == u.username && r.email == u.email
    ensures r.firstName == u.firstName && r.lastName == u.lastName
    ensures r.preferences == if u.preferences.Some? then u.preferences.value else JObject([])
    ensures r.serializedPermissions == ManageAll <==> u.isAdmin == Some(true)
    ensures r.serializedPermissions == [] <==> u.isAdmin != Some(true)
  {
    Sanitized(u.id, u.username, u.firstName, u.lastName,
              if u.preferences.Some? then u.preferences.value else JObject([]),
              u.email,
              if u.isAdmin == Some(true) then ManageAll else [])
  }

  /** No private column reaches the client: rows that differ only in their
      uuid, password, tokens, expiry, confirmation or permissions sanitize
      alike, and rows that sanitize alike agree on every public column. */
  lemma SanitizeOnlyPublic(u: User, w: User)
    ensures SamePublic(u, w) ==> SanitizeUserAttributes(u) == SanitizeUserAttributes(w)
    ensures (&& SanitizeUserAttributes(u) == SanitizeUserAttributes(w)
             && u.preferences.Some? && w.preferences.Some? && u.isAdmin.Some? && w.isAdmin.Some?)
            ==> SamePublic(u, w)
  {
    if SanitizeUserAttributes(u) == SanitizeUserAttributes(w) && u.isAdmin.Some? && w.isAdmin.Some? {
      var su, sw := SanitizeUserAttributes(u), SanitizeUserAttributes(w);
      assert |ManageAll| == 1;
      assert (u.isAdmin == Some(true)) == (w.isAdmin == Some(true));
      assert u.isAdmin.value == w.isAdmin.value;
      if u.preferences.Some? && w.preferences.Some? {
        assert su.preferences == sw.preferences;
        assert u.preferences == w.preferences;
      }
    }
  }

  /** `sanitize`: the sanitized attributes and the home page, which the
      caller computes from the row. */
  datatype SanitizedUser = SanitizedUser(attributes: Sanitized, homePage: Option<string>)

  function Sanitize(u: User, homePage: Option<string>): (r: SanitizedUser)
    ensures r.attributes == SanitizeUserAttributes(u) && r.homePage == homePage
  {
    SanitizedUser(SanitizeUserAttributes(u), homePage)
  }

  // ---------------------------------------------------------------------
  // Updating attributes
  // ---------------------------------------------------------------------

  /** A JSON object value, the only value accepted for `permissions`. */
  predicate IsObject(j: Json)
  {
    j.JObject?
  }

  /** The keys `updateAndSanitizeAttributes` reads. */
  const UpdatableKeys: set<string> := {"permissions", "is_admin", "first_name", "last_name"}

  /** `is_admin` is set only by `true` or the string `"true"`. */
  predicate AdminValue(j: Json)
  {
    j == JBool(true) || j == JString("true")
  }

  function StringField(input: map<string, Json>, key: string, current: Option<string>): (r: Option<string>)
    ensures key in input && input[key].JString? ==> r == Some(input[key].s)
    ensures !(key in input && input[key].JString?) ==> r == current
  {
    if key in input && input[key].JString? then Some(input[key].s) else current
  }

  /** `updateAndSanitizeAttributes`: each of the four keys is validated on
      its own, and a value of the wrong type leaves its column unchanged;
      every other key and every other column is ignored. */
  function UpdateAndSanitizeAttributes(u: User, input: map<string, Json>): (r: User)
    ensures "permissions" in input && IsObject(input["permissions"]) ==> r.permissions == Some(input["permissions"])
    ensures !("permissions" in input && IsObject(input["permissions"])) ==> r.permissions == u.permissions
    ensures "is_admin" in input ==> r.isAdmin == Some(AdminValue(input["is_admin"]))
    ensures "is_admin" !in input ==> r.isAdmin == u.isAdmin
    ensures r.firstName == StringField(input, "first_name", u.firstName)
    ensures r.lastName == StringField(input, "last_name", u.lastName)
    ensures r.(permissions := u.permissions, isAdmin := u.isAdmin, firstName := u.firstName, lastName := u.lastName) == u
  {
    u.(permissions := if "permissions" in input && IsObject(input["permissions"]) then Some(input["permissions"]) else u.permissions,
       isAdmin := if "is_admin" in input then Some(AdminValue(input["is_admin"])) else u.isAdmin,
       firstName := StringField(input, "first_name", u.firstName),
       lastName := StringField(input, "last_name", u.lastName))
  }

  /** Keys other than the four are ignored. */
  lemma UnknownKeysIgnored(u: User, input: map<string, Json>)
    ensures (forall key :: key in input ==> key !in UpdatableKeys) ==> UpdateAndSanitizeAttributes(u, input) == u
    ensures forall extra: map<string, Json> :: (forall key :: key in extra ==> key !in UpdatableKeys) ==>
              UpdateAndSanitizeAttributes(u, input + extra) == UpdateAndSanitizeAttributes(u, input)
  {
    forall extra: map<string, Json> | forall key :: key in extra ==> key !in UpdatableKeys
      ensures UpdateAndSanitizeAttributes(u, input + extra) == UpdateAndSanitizeAttributes(u, input)
    {
      assert forall key :: key in UpdatableKeys ==> (key in input + extra <==> key in input);
      assert forall key :: key in UpdatableKeys && key in input ==> (input + extra)[key] == input[key];
    }
  }

  /** Applying the same update twice is applying it once. */
  lemma UpdateIdempotent(u: User, input: map<string, Json>)
    ensures UpdateAndSanitizeAttributes(UpdateAndSanitizeAttributes(u, input), input) == UpdateAndSanitizeAttributes(u, input)
  {
  }

  /** Updates applied one after the other. */
  function UpdateAll(u: User, inputs: seq<map<string, Json>>): User
    decreases |inputs|
  {
    if inputs == [] then u else UpdateAll(UpdateAndSanitizeAttributes(u, inputs[0]), inputs[1..])
  }

  /** After any sequence of updates, the administrator flag is the one set
      by the last update that carried `is_admin`, and the row's original
      flag when none did. */
  lemma {:induction false} AdminIsLastSet(u: User, inputs: seq<map<string, Json>>)
    ensures (forall k :: 0 <= k < |inputs| ==> "is_admin" !in inputs[k]) ==> UpdateAll(u, inputs).isAdmin == u.isAdmin
    ensures forall k :: 0 <= k < |inputs| && "is_admin" in inputs[k]
                        && (forall j :: k < j < |inputs| ==> "is_admin" !in inputs[j]) ==>
              UpdateAll(u, inputs).isAdmin == Some(AdminValue(inputs[k]["is_admin"]))
    decreases |inputs|
  {
    if inputs != [] {
      var next := UpdateAndSanitizeAttributes(u, inputs[0]);
      AdminIsLastSet(next, inputs[1..]);
      assert forall j :: 1 <= j < |inputs| ==> inputs[1..][j - 1] == inputs[j];
      forall k | 0 <= k < |inputs| && "is_admin" in inputs[k]
                 && (forall j :: k < j < |inputs| ==> "is_admin" !in inputs[j])
        ensures UpdateAll(u, inputs).isAdmin == Some(AdminValue(inputs[k]["is_admin"]))
      {
        if k > 0 {
          assert "is_admin" in inputs[1..][k - 1];
        } else {
          assert forall j :: 0 <= j < |inputs[1..]| ==> "is_admin" !in inputs[1..][j];
        }
      }
    }
  }

  /** The row the update tests start from. */
  const BaseUser: User :=
    User(5, Some("arbitrary"), None, None, Some("Foo"), Some("Bar"), None, None, None, None, None, None, None, Some(false), None)

  /** The updates of the administrator-flag test, in order, with the flag
      each leaves: a truthy string, `true`, `false`, `"true"`, nothing, and
      the number 1. */
  lemma AdminUpdateCases()
    ensures var u1 := UpdateAndSanitizeAttributes(BaseUser, map["is_admin" := JString("truthy value")]);
            var u2 := UpdateAndSanitizeAttributes(u1, map["is_admin" := JBool(true)]);
            var u3 := UpdateAndSanitizeAttributes(u2, map["is_admin" := JBool(false)]);
            var u4 := UpdateAndSanitizeAttributes(u3, map["is_admin" := JString("true")]);
            var u5 := UpdateAndSanitizeAttributes(u4, map[]);
            var u6 := UpdateAndSanitizeAttributes(u5, map["is_admin" := JNumber(1.0)]);
            && u1.isAdmin == Some(false) && u2.isAdmin == Some(true) && u3.isAdmin == Some(false)
            && u4.isAdmin == Some(true) && u5.isAdmin == Some(true) && u6.isAdmin == Some(false)
  {
  }

  /** The updates of the permissions and names tests: a string or a number
      leaves the permissions as they were, an object replaces them; a name
      of another type leaves that name alone while a string sibling is
      still taken; unknown keys change nothing. */
  lemma FieldUpdateCases()
    ensures var perms := JObject([("aRole", JBool(true)), ("otherRole", JBool(false))]);
            var p1 := UpdateAndSanitizeAttributes(BaseUser, map["permissions" := JString("string")]);
            var p2 := UpdateAndSanitizeAttributes(p1, map["permissions" := perms]);
            var p3 := UpdateAndSanitizeAttributes(p2, map["permissions" := JNumber(2.0)]);
            && p1.permissions == None && p2.permissions == Some(perms) && p3.permissions == Some(perms)
    ensures var n1 := UpdateAndSanitizeAttributes(BaseUser, map["first_name" := JString("Test"), "last_name" := JString("Test")]);
            var n2 := UpdateAndSanitizeAttributes(n1, map["first_name" := JObject([("name", JString("something"))]),
                                                          "last_name" := JNumber(1.0)]);
            var n3 := UpdateAndSanitizeAttributes(n2, map["first_name" := JString("Foo"), "last_name" := JNumber(1.0)]);
            && n2.firstName == Some("Test") && n2.lastName == Some("Test")
            && n3.firstName == Some("Foo") && n3.lastName == Some("Test")
    ensures UpdateAndSanitizeAttributes(BaseUser, map["arbitrary" := JString("some value"), "other" := JString("abc")]) == BaseUser
  {
    UnknownKeysIgnored(BaseUser, map["arbitrary" := JString("some value"), "other" := JString("abc")]);
  }
}
